=== FILE: README.md ===
# Live crypto dashboard: market-data state in Dafny

This project models the server-side state of a live crypto-market
dashboard that streams public data from the Bybit v5 exchange feed. The
model covers:

- the order-book store (`OrderBook`), with one book per symbol. A snapshot
  replaces the book, a delta patches it level by level, and a query reads
  it back sorted, depth-limited, with running totals and the spread;
- the candle store (`Kline`), with one history of at most 100 candles per
  `symbol_interval` key plus the live candle;
- the liquidation store (`Liquidation`), with the newest 100 liquidations
  per symbol, a newest-first query and the window statistics;
- the ticker store (`Ticker`), with nine string fields per symbol merged
  field by field;
- the big-trade tracker (`BigTrades`), which picks the largest qualifying
  trade of a message and keeps a newest-first list of at most 100;
- the settings store (`Config`), a JSON tree with dot-path `get`/`set`, a
  recursive merge and the favourite/recent symbol lists;
- the exchange stream client (`Connection`), an event-driven state
  machine. Socket callbacks and timer expiries are its input events. The
  frames it writes go to an outbox and the events it emits go to a signal
  list;
- the server's selection logic (`Dashboard`): symbol validation, the
  topic names, and how changing the symbol, the interval or the network
  moves the client's subscriptions and clears the stores.

Wire values (prices, sizes, timestamps) arrive already parsed. The clock
(`Date.now()`) is a `now` parameter. An order-book price stays the raw
price string it arrived as. A caller-supplied `parse` function turns it
into a number, and only when the book is queried. A JavaScript `Map` or `Set`,
which enumerates in insertion order, is modelled as an ordered association
list (`OrderedMap`) or a duplicate-free sequence. A settings object uses the
same ordered map, holding only its own properties in insertion order. Strings that
JavaScript treats as falsy (`''`) and absent fields (`None`) fall back
through `||` exactly as in the code (`Js.OrStr`, `Js.OrInt`).

Some behaviours of the code as written are stated as lemmas rather than
smoothed over:

- a delta may store a negative size;
- a repeated candle confirm stores the same start twice;
- `close()` cannot cancel a reconnect timer that is already scheduled;
- the first open of the stream subscribes every topic twice;
- a symbol change made while disconnected leaves the old topics
  subscribed.

## Model

| member | source | states |
|---|---|---|
| OrderBook.ProcessMessage | src/orderbook-manager.js:9-27 | Only `orderbook.` topics with a non-empty third dot-part and type snapshot/delta change the store, and only the book of that symbol. A snapshot goes to `handleSnapshot` and a delta to `handleDelta`. |
| OrderBook.TopicRoutesSymbol | src/orderbook-manager.js:24-27 | A topic `orderbook.<depth>.<symbol>` built from dot-free parts is routed to exactly that symbol. |
| OrderBook.LastPositiveSpec | src/orderbook-manager.js:38-48 | Building a side from a snapshot's levels leaves a price absent iff no level at that price has a positive size. Otherwise it keeps the size of the last positive level at that price. |
| OrderBook.SnapshotSide | src/orderbook-manager.js:38-48 | A snapshot side has distinct keys and only positive sizes. Each price holds the last positive size sent for it. |
| OrderBook.HandleSnapshot | src/orderbook-manager.js:29-53 | A snapshot replaces the symbol's book and leaves every other symbol alone. Every stored size is > 0. The sequence is `seq`, or 0 when absent. The timestamp is `ts`, or now. A snapshot missing `data`, `b` or `a` changes nothing. |
| OrderBook.SnapshotKeepsOnlyResentLevels | src/orderbook-manager.js:29-50 | After a snapshot a price is present iff the snapshot itself sent it with a positive size. No level of the previous book survives. |
| OrderBook.LastLevelSpec | src/orderbook-manager.js:65-85 | The level that decides a price in a delta is the last one mentioning it. No price is decided when none mentions it. |
| OrderBook.ApplyDelta | src/orderbook-manager.js:65-85 | For every price, the last delta level at that price decides: size 0 deletes it, any other size stores it. Prices the delta does not mention keep their size. Non-negative levels keep a positive side positive. |
| OrderBook.HandleDelta | src/orderbook-manager.js:55-88 | A delta for a symbol with no book, or without `data`, changes nothing. Otherwise the sequence becomes a non-zero `seq`, or else the old sequence + 1. Both sides are patched and other symbols are untouched. |
| OrderBook.DeltaLeavesOtherPrices | src/orderbook-manager.js:65-85 | A price no delta level mentions keeps its stored size. |
| OrderBook.DeltaLastLevelDecides | src/orderbook-manager.js:65-85 | When a level is the last at its price, a 0 size leaves the price absent and any other size is stored as sent. |
| OrderBook.DeletingAbsentPricesIsNoop | src/orderbook-manager.js:65-85 | Deleting only prices the side does not hold returns the side unchanged. |
| OrderBook.DeltaStoresNegativeSize | src/orderbook-manager.js:66-72 | A delta level with a negative size is stored as is, so the side is no longer all-positive. Positivity is guaranteed after snapshots only. |
| OrderBook.Ranked | src/orderbook-manager.js:101-117 | A query side has `min(depth, size)` levels. |
| OrderBook.RankedOrdered | src/orderbook-manager.js:101-117 | Query bids are ordered by price descending and asks by price ascending. |
| OrderBook.RankedIsBest | src/orderbook-manager.js:101-117 | The query levels are a sub-multiset of the side's levels. Every level cut off is no better than the last one kept (no higher for bids, no lower for asks). |
| OrderBook.Cumulate | src/orderbook-manager.js:119-129 | Entry i's `total` is the sum of the sizes of entries 0..i. |
| OrderBook.Query | src/orderbook-manager.js:97-150 | An unknown symbol gives null. Otherwise: the ranked levels with running totals; `bidCount`/`askCount` as the untruncated sizes; spread = best ask − best bid when both sides are non-empty, else 0; `spreadPercent` non-zero only when spread > 0. |
| OrderBook.QueryCountsDistinctPrices | src/orderbook-manager.js:147-148 | `bidCount` and `askCount` count the distinct stored prices. |
| OrderBook.TotalsIncrease | src/orderbook-manager.js:119-129 | Running totals over positive sizes are strictly increasing. |
| OrderBook.QueryTotalsIncrease | src/orderbook-manager.js:119-129 | For a book with only positive sizes (one built by snapshots), query totals strictly increase along each side. |
| OrderBook.Clear | src/orderbook-manager.js:168-174 | `clear(symbol)` drops only that symbol's book. `clear()` empties the store. |
| OrderBook.SnapshotThenDeleteExample | src/orderbook-manager.js:29-88 | Storing bid 100 and ask 101, then deleting bid 100 by a size-0 delta, leaves no bids and the one ask. |
| Kline.Candle.Direction | src/kline-manager.js:107 | A candle is bull iff close ≥ open. |
| Kline.KeyInjective | src/kline-manager.js:30 | Distinct symbol/interval pairs get distinct `symbol_interval` keys when the symbol has no `_`. |
| Kline.Format | src/kline-manager.js:85-110 | A formatted candle keeps the start, open, close and confirm flag. Its timestamp is the message's, or now. |
| Kline.FindStart | src/kline-manager.js:45-67 | `findIndex` by start: the first entry with that start, or none iff no entry has it. |
| Kline.ApplyConfirmed | src/kline-manager.js:44-59 | A confirm matching the live candle's start replaces the first entry with that start (or appends) and clears the live candle. Any other confirm is appended and leaves the live candle. The history is cut to its newest 100. |
| Kline.ApplyLive | src/kline-manager.js:62-73 | A live candle becomes the current candle. It replaces the history entry with its start, or is appended and the history cut to its newest 100. |
| Kline.ApplyCandle | src/kline-manager.js:44-74 | A confirmed candle matching the live one clears it. A live candle becomes current. A history of at most 100 stays within 100. |
| Kline.AppliedCandleIsStored | src/kline-manager.js:44-74 | After any update the new candle is in the history. |
| Kline.HandleUpdate | src/kline-manager.js:29-83 | Only the key `symbol_interval` changes (created empty on first use). The emitted update carries the formatted candle, the confirm flag and the newest 50 candles. |
| Kline.HandleUpdateBounded | src/kline-manager.js:57-59 | Every history stays at ≤ 100 candles, and `allCandles` has ≤ 50. |
| Kline.ProcessMessage | src/kline-manager.js:10-27 | A message is handled iff its topic starts `kline.`, has ≥ 3 dot-parts and carries a non-empty `data` array. The interval is part 2, the symbol part 3, and only `data[0]` is used. Otherwise nothing changes. |
| Kline.ProcessMessageBounded | src/kline-manager.js:57-72 | Processing any message keeps every history at ≤ 100 candles. |
| Kline.GetKlineData | src/kline-manager.js:112-129 | An unknown key gives null. Otherwise the view holds the last `limit` candles (all of them for a limit of 0, as `slice(-0)` is `slice(0)`), the live candle, the count and the newest candle's timestamp. |
| Kline.GetLatestCandle | src/kline-manager.js:145-156 | The live candle if there is one, else the newest stored candle, else null. |
| Kline.Clear | src/kline-manager.js:186-199 | `clear(s,i)` deletes only `s_i`. `clear(s)` deletes exactly the keys starting `s_` and keeps the rest. `clear()` empties the store. |
| Kline.PromotionLeavesOneEntry | src/kline-manager.js:44-52 | A confirm of the live candle clears it and leaves exactly one entry with its start, when there was at most one before. |
| Kline.RepeatedConfirmDuplicatesStart | src/kline-manager.js:53-55 | Confirming the same candle twice stores its start twice. The second confirm no longer matches the cleared live candle and is appended. |
| Kline.LiveOnNewStartIsNewest | src/kline-manager.js:62-73 | A live candle with a new start ends up last in the history and is its only entry with that start. |
| Kline.LiveThenConfirmEndsWithConfirmed | src/kline-manager.js:44-73 | A live candle followed by its confirm leaves no live candle, the confirmed one last, and one entry with that start. |
| Connection.Init | src/websocket-client.js:12-21 | A new client is connecting, not connected, with 0 attempts, no subscriptions, timers or frames sent. |
| Connection.Delay | src/websocket-client.js:124 | Every reconnect delay lies between 1000 and 30000 ms. |
| Connection.DelayTable | src/websocket-client.js:124 | The delays are 1000, 2000, 4000, 8000 and 16000 ms, then 30000 ms from the sixth attempt on (`attempts` ≥ 5, since the first attempt has `attempts` 0). |
| Connection.DelayMonotone | src/websocket-client.js:124 | Later attempts never wait less. |
| Connection.Send | src/websocket-client.js:169-175 | A frame is written only when connected and the socket is open. Otherwise it is dropped. |
| Connection.ScheduleReconnect | src/websocket-client.js:117-131 | Below 10 attempts one timer with the backoff delay is scheduled. At 10 or more, `maxReconnectAttemptsReached` is emitted instead. |
| Connection.StopPingPong | src/websocket-client.js:99-108 | The heartbeat and the pong timeout are cleared. |
| Connection.Opened | src/websocket-client.js:40-44 | On open the client is connected with 0 attempts and emits `connected`. Subscriptions, timers and frames sent are unchanged. |
| Connection.Resubscribe | src/websocket-client.js:133-141 | One subscribe frame carrying every topic is sent iff the set is non-empty. |
| Connection.FinishOpen | src/websocket-client.js:46-47 | The heartbeat starts. When open, exactly the one resubscribe frame (if any topics) is sent, and the set is kept. |
| Connection.OnClose | src/websocket-client.js:70-79 | On close the client is disconnected and timers cleared, and it emits `disconnected`. A reconnect timer is added iff the code ≠ 1000 and attempts < 10. The max-attempts signal is emitted iff the code ≠ 1000 and attempts ≥ 10. |
| Connection.OnReconnectTimer | src/websocket-client.js:127-130 | An expiring reconnect timer increments attempts once, opens a new socket and removes only that timer. |
| Connection.OnPingTick | src/websocket-client.js:87-96 | The heartbeat sends a ping and arms the pong timeout only when connected and open. |
| Connection.OnPongTimeout | src/websocket-client.js:91-94 | A pending pong timeout terminates the socket. Otherwise nothing happens. |
| Connection.OnMessage | src/websocket-client.js:50-115 | A pong (`op` or `ret_msg` = `pong`) only disarms the pong timeout. Another frame with a topic is forwarded as data. Anything else, including unparsable input, changes nothing. |
| Connection.Subscribe | src/websocket-client.js:143-154 | An absent topic is added and a single-topic subscribe is sent (dropped unless connected). A present topic changes nothing. Membership is old ∪ {topic}, and duplicates never arise. |
| Connection.Unsubscribe | src/websocket-client.js:156-167 | A present topic is removed and a single-topic unsubscribe is sent (dropped unless connected). An absent topic changes nothing. Membership is old − {topic}. |
| Connection.Close | src/websocket-client.js:177-182 | `close()` stops the heartbeat and starts a 1000 close. It keeps every scheduled reconnect timer and the connected flag. |
| Connection.Step | src/websocket-client.js:24-182 | An open of a connecting socket runs `onOpen`. A close of a live socket runs `onClose`. |
| Connection.SubscribeIdempotent | src/websocket-client.js:143-154 | Subscribing twice is the same as subscribing once. |
| Connection.SubscribeThenUnsubscribe | src/websocket-client.js:143-167 | Unsubscribing a freshly subscribed topic restores the previous set. |
| Connection.OpenReplaysSubscriptions | src/websocket-client.js:40-141 | On open: connected, attempts 0, heartbeat on, set unchanged. Exactly one subscribe frame with every topic is sent iff the set is non-empty. |
| Connection.SendsOnlyWhenOpen | src/websocket-client.js:169-175 | No event rewrites frames already sent. Any event that sends leaves the client connected and open. |
| Connection.AttemptsChangeOnlyOnTimerOrOpen | src/websocket-client.js:117-131 | Attempts change only when a reconnect timer fires (+1) or the socket opens (reset to 0). |
| Connection.SubscriptionsChangeOnlyOnRequest | src/websocket-client.js:70-79 | Open, close, message, timers and `close()` never touch the subscription set. |
| Connection.CloseKeepsReconnectTimer | src/websocket-client.js:117-182 | After an abnormal close, a manual `close()` still lets the reconnect timer fire and reconnect. |
| Connection.MissedPongReconnects | src/websocket-client.js:70-97 | A ping left unanswered terminates the socket, and the resulting close schedules one reconnect with the current backoff delay. |
| Connection.StepInv | src/websocket-client.js:117-131 | Every event keeps the set duplicate-free, attempts ≤ 10, and at most one live socket or pending reconnect. |
| Connection.RunInv | src/websocket-client.js:117-131 | The invariant holds after any sequence of events. |
| Connection.AttemptsNeverPassMax | src/websocket-client.js:117-131 | From a new client, no event sequence drives attempts past 10 or duplicates a subscription. |
| Dashboard.Init | server.js:30-33 | The server starts on BTCUSDT, interval 5, mainnet, with empty stores. |
| Dashboard.ValidSymbolMatchesPattern | server.js:246-249 | The validator accepts exactly the strings of ≥ 3 characters from [A-Z0-9] followed by USD, USDT or USDC. |
| Dashboard.ValidSymbolHasNoDot | server.js:246-249 | A valid symbol has no `.` and at least 6 characters. |
| Dashboard.BookTopicRoutes | server.js:194-207 | The order-book topic of a valid symbol is routed by the order-book store back to that symbol. |
| Dashboard.KlineTopicRoutes | server.js:195-208 | The candle topic of a valid symbol and a dot-free interval splits into `kline`, the interval and the symbol. |
| Dashboard.DottedIntervalMisroutes | server.js:251-265 | The interval is not validated: interval `1.5` yields a four-part topic, whose third part is `5` rather than the symbol. |
| Dashboard.LiquidationTopicRoutes | server.js:196-209 | The liquidation topic of a valid symbol splits into `allLiquidation` and the symbol. |
| Dashboard.DataTopicsDistinct | server.js:194-196 | The three topics of a selection are distinct. |
| Dashboard.SubscribeAll | server.js:194-196 | Subscribing a list adds exactly its topics without duplicates and leaves the connection state alone. |
| Dashboard.UnsubscribeAll | server.js:207-209 | Unsubscribing a list removes exactly its topics and leaves the connection state alone. |
| Dashboard.SubscribeToData | server.js:191-199 | While disconnected nothing changes. Otherwise the set gains exactly the three topics of the current selection. |
| Dashboard.UnsubscribeFromData | server.js:201-210 | While disconnected nothing changes. Otherwise the set loses exactly the three topics of the given (or current) symbol and interval. |
| Dashboard.ChangeSymbol | server.js:212-244 | The current symbol is a no-op. An invalid symbol only emits an error. A valid one sets the symbol, clears the new symbol's stored data and emits `symbolChanged` and status. |
| Dashboard.ChangeSymbolSwapsTopics | server.js:227-235 | A valid change while connected removes the old symbol's three topics and adds the new symbol's three. |
| Dashboard.ChangeSymbolOfflineKeepsTopics | server.js:191-235 | A change while disconnected leaves the client, and so the subscription set, untouched. |
| Dashboard.ChangeSymbolClearsNewSymbol | server.js:231-233 | After a valid change the new symbol has no book, no candle series and no liquidations. Other symbols' books and liquidations are kept. |
| Dashboard.ChangeInterval | server.js:251-274 | The same interval is a no-op. Otherwise only the candle topic is swapped (when connected) and only the new key's series is cleared. The interval is not validated. |
| Dashboard.ChangeIntervalClearsOneSeries | server.js:261 | An interval change deletes the series for the symbol and new interval and keeps every other series. |
| Dashboard.ToggleTestnet | server.js:276-290 | The current network is a no-op. Otherwise all stores are emptied and a fresh client replaces the old one. |
| Dashboard.ClientOpened | server.js:159-163 | When the stream opens, the client is connected and holds the old topics plus the current selection's three. |
| Dashboard.ClientEvent | server.js:152-189 | An open of a connecting socket runs the server's `connected` handler. Every other event only steps the client. |
| Dashboard.FirstOpenSendsTopicsTwice | server.js:159-163 | On the first open the three topics are sent one by one by `subscribeToData`, then once more together by the resubscribe. |
| Dashboard.ToggleThenOpenSubscribesSelection | server.js:276-290 | After a network switch and the new socket's open, exactly the current selection's topics are subscribed and the stores are empty. |
| Dashboard.OfflineChangeReplaysOldTopics | server.js:191-235 | A symbol change while disconnected keeps the old topics. On reconnect both the old and the new symbol's topics are subscribed. |
| Liquidation.Format | src/liquidation-manager.js:49-60 | The side is Long iff the side field (`S`, else `side`) is `Buy`, otherwise Short. The value is price × volume, and the timestamp is `T`, else now. |
| Liquidation.HandleLiquidation | src/liquidation-manager.js:30-42 | The new liquidation is appended last and the oldest are dropped beyond 100. Other symbols are untouched. |
| Liquidation.HandleAll | src/liquidation-manager.js:18-22 | Every element of `data` is formatted in order, and only the message's symbol changes. |
| Liquidation.HandleAllIsOneBatch | src/liquidation-manager.js:18-42 | Processing the elements one by one equals appending them all at once and keeping the newest 100. |
| Liquidation.ProcessMessage | src/liquidation-manager.js:10-28 | Only `allLiquidation.` topics with a non-empty second part and a `data` array are handled, with part 2 as the symbol. |
| Liquidation.ProcessMessageBounded | src/liquidation-manager.js:37-42 | No message makes a history exceed 100 entries. |
| Liquidation.GetLiquidations | src/liquidation-manager.js:70-77 | An unknown symbol gives []. Otherwise: a permutation of the last `limit` stored entries, sorted by timestamp descending. For a positive limit it is at most `limit` long; a limit of 0 gives the whole history. |
| Liquidation.GetLiquidationsAreNewest | src/liquidation-manager.js:70-77 | For a positive limit the result is exactly the newest `limit` stored entries. |
| Liquidation.Recent | src/liquidation-manager.js:94-98 | The window holds exactly the stored liquidations with timestamp ≥ now − window. |
| Liquidation.FirstMaxIndex | src/liquidation-manager.js:129-131 | The reduce picks the first liquidation of maximal value. |
| Liquidation.Dominant | src/liquidation-manager.js:135-140 | Long iff longValue > 1.2·shortValue. Short iff not that and shortValue > 1.2·longValue. Otherwise none. |
| Liquidation.GetStats | src/liquidation-manager.js:91-160 | An empty window gives the all-zero record with no maximum and side none. Otherwise: the long and short counts, volumes and values are those of the windowed liquidations of each side, the totals are their sums over the window, the maximum is the first windowed liquidation of greatest value, the dominant side follows the 1.2 rule over the long and short values, and the average price is value/volume (0 when volume is 0). |
| Liquidation.SidesPartition | src/liquidation-manager.js:119-127 | The long and short filters split any list: counts, volumes and values add up to the whole. |
| Liquidation.StatsAddUp | src/liquidation-manager.js:119-153 | In the stats, long + short = total for the counts, the volumes and the values. |
| Liquidation.GetSizeClass | src/liquidation-manager.js:220-225 | huge from 1 000 000, large from 100 000, medium from 10 000, else small. Each class holds exactly its interval. |
| Liquidation.Clear | src/liquidation-manager.js:178-184 | `clear(symbol)` deletes only that symbol. `clear()` empties the store. |
| Ticker.Default | src/ticker-manager.js:49-94 | The fallback ticker has all nine fields `'0'`. |
| Ticker.Snapshot | src/ticker-manager.js:29-42 | Each field is the data's value, or `'0'` when missing or empty. The timestamp is `ts`, else now. |
| Ticker.Merge | src/ticker-manager.js:63-75 | Each field is the delta's value when truthy, else the existing value. |
| Ticker.HandleDelta | src/ticker-manager.js:48-79 | The delta merges against the stored ticker, or against the all-`'0'` default when there is none. Only that symbol changes. |
| Ticker.HandleSnapshot | src/ticker-manager.js:29-46 | The snapshot replaces the symbol's ticker, with `'0'` for missing fields. |
| Ticker.ProcessMessage | src/ticker-manager.js:9-27 | Only `tickers.` topics with a non-empty second part and type snapshot/delta are handled. Such a message with `data` is applied: a snapshot through `handleSnapshot`, a delta through `handleDelta` (each field the delta's truthy value, else the stored one). One without `data` throws a TypeError, and no other message does. Other symbols are untouched. |
| Ticker.GetTicker | src/ticker-manager.js:81-95 | The stored ticker, or the all-`'0'` default. |
| Ticker.Clear | src/ticker-manager.js:97-103 | `clear(symbol)` deletes one ticker and `clear()` all. |
| Ticker.MergeIdempotent | src/ticker-manager.js:63-75 | Applying the same delta twice yields the same fields as applying it once. |
| Ticker.FullDeltaIsSnapshot | src/ticker-manager.js:29-75 | A delta carrying every field non-empty overwrites the ticker exactly as a snapshot would. |
| Ticker.DeltaKeepsUnsentFields | src/ticker-manager.js:63-75 | A field the delta omits or sends empty keeps its stored value. |
| BigTrades.Init | src/big-trades-manager.js:4-11 | A new tracker holds no trades and has the default minimum of 50 000. |
| BigTrades.Largest | src/big-trades-manager.js:53-78 | The reference selection finds nothing iff no trade qualifies (value > 0 and ≥ the minimum). Otherwise it finds the first qualifying trade of greatest value. |
| BigTrades.ProcessTrade | src/big-trades-manager.js:48-79 | The scan returns null for missing `data`, null iff nothing qualifies, and otherwise the earliest trade of largest value among those that qualify (value > 0, since `largestValue` starts at 0, and ≥ the minimum). |
| BigTrades.ProcessTradeMatchesLargest | src/big-trades-manager.js:48-79 | The scanning loop and the reference selection agree on every input. |
| BigTrades.AddTrade | src/big-trades-manager.js:17-46 | A trade is accepted iff `data` is present and some trade qualifies. With none the list is unchanged and null is returned. Otherwise the first largest qualifying trade goes first, followed by the old trades in their order, and the list has min(100, old length + 1) entries, so a full list loses exactly its oldest trade. |
| BigTrades.SmallTradesIgnored | src/big-trades-manager.js:19-23 | A message whose trades are all below the minimum leaves the tracker unchanged. |
| BigTrades.GetTradeSize | src/big-trades-manager.js:81-87 | block from 1 000 000, whale from 500 000, large from 100 000, medium from 50 000, else small. Each class holds exactly its interval. |
| BigTrades.FilterValue | src/big-trades-manager.js:90 | A missing or zero `minValue` falls back to the tracker's minimum. |
| BigTrades.GetFilteredTrades | src/big-trades-manager.js:89-92 | The result holds exactly the stored trades worth at least the threshold, each as many times as it is stored. |
| BigTrades.FilteredTradesKeepOrder | src/big-trades-manager.js:89-92 | The filtered trades are an order-preserving subsequence of the list. |
| BigTrades.ProcessMessage | src/big-trades-manager.js:117-128 | Only `publicTrade.` topics reach `addTrade`. |
| BigTrades.Clear | src/big-trades-manager.js:130-132 | The list empties and the minimum stays. |
| Config.SetThenGet | src/config-manager.js:86-100 | After a successful `set(path, v)`, `get(path)` returns v. |
| Config.SetLeavesOtherPaths | src/config-manager.js:86-100 | `set` leaves unchanged every path that leaves the set path at some key. |
| Config.SetFailsOnNull | src/config-manager.js:90-96 | `set` throws iff some proper prefix of the path holds `null`. `typeof null` is `'object'`, so the walk steps into it. |
| Config.DeepMergeSpec | src/config-manager.js:116-128 | Target-only keys keep their value. A source key with a non-array object value holds the recursive merge with the target's value (or `{}`). Any other source value overwrites. |
| Config.AddFavoriteSymbol | src/config-manager.js:131-138 | Adding a symbol that is already a favourite leaves the configuration unchanged (`includes` finds it and nothing is written). |
| Config.AddFavoriteStoresSymbol | src/config-manager.js:131-138 | After adding, the symbol is a favourite. An absent symbol is appended behind the old favourites, so a duplicate-free list stays duplicate-free. |
| Config.RemoveFavoriteDropsSymbol | src/config-manager.js:140-144 | After removal the symbol occurs nowhere in the stored favourites. Every other favourite is kept, in its old order. |
| Config.RecentAfter | src/config-manager.js:146-151 | The symbol is first and occurs once. It is followed by the other recent symbols in their old order, cut to 10 entries in all by dropping the oldest. No duplicates arise. |
| Config.AddRecentStoresSymbolFirst | src/config-manager.js:146-152 | After adding, the stored recent list starts with the symbol and holds it once. The other recent symbols follow in their old order, the oldest cut so that at most 10 entries remain. |
| Config.GetTheme | src/config-manager.js:154-156 | A truthy value at `appearance.theme` is returned. A missing or falsy one gives `'dark'`. |

## Left out

- Sockets, `setInterval`/`setTimeout` and `ws.terminate` are not modelled as such. Timer expiries and socket callbacks are input events (`Connection.Event`), and frames sent are recorded in an outbox.
- JSON parsing and `parseFloat`/`parseInt` of wire strings are not modelled: messages arrive parsed. NaN (an unparsable number) and IEEE rounding are not modelled; numbers are exact reals.
- Logging, `toLocaleTimeString`, `toFixed`, the random ids of liquidations, and the `time`/`color` display fields are left out, because they do not affect stored state.
- OrderBook.Query: `spreadPercent` is stated only for a positive spread over a non-zero best bid. The division by a zero best bid (Infinity in JavaScript) is not modelled.
- OrderBook.Query: the depth is a natural number. A negative depth, which `slice(0, depth)` would count from the end, is not modelled; every caller uses the default 50.
- Default arguments (`depth = 50`, `limit = 50`, `timeWindow = 3600000`) are not modelled: every query takes the value as an explicit parameter.
- OrderBook: `emitOrderbookUpdate`, `getOrderbook`, `getAllOrderbooks`, `hasOrderbook` and `getStats` are omitted. They are thin reads of the same store, or the event emission.
- OrderBook.HandleSnapshot: the TypeError thrown for a snapshot without `b` or `a` is modelled as "no change". The stream client's receive handler swallows it before any store is written.
- Kline: `getAllKlineData`, `getStats` and `getSupportedIntervals` are omitted as read-only summaries. So are `getOHLCStats` and the `change`/`changePercent` floating-point fields.
- Liquidation: the `p`/`price`, `v`/`volume` and `T`/`timestamp` field fallbacks are collapsed into one parsed field each. Only the side keeps both names.
- Liquidation: `getAllLiquidations`, `getRecentActivity`, `getStats` and `formatLiquidationDisplay` are omitted as read-only summaries. The stats' `longPercentage`/`shortPercentage` (a division by a possibly zero total) are omitted too.
- BigTrades: `setMinTradeValue`, `getRecentTrades` and `getStats` are omitted. The first is a plain field write; the other two are clock-dependent summaries.
- BigTrades: `isBlockTrade` is true only for a `BT` of `true`; other truthy values of `BT` are not modelled.
- Config: loading and saving the file, the `configChanged` event, `getAll`, `update`, `reset`, `setTheme` and `getTradingDefaults` are omitted. They are file I/O or one-line wrappers of `get`, `set` and `deepMerge`.
- Config: only a settings object's own properties are modelled, enumerated in insertion order. The `key in value` tests of `get` and `set` also see inherited `Object.prototype` properties, so `get('toString')` yields a function where `GetPath` yields none, and `set('__proto__.x', v)` writes into the prototype where `SetPath` creates an own key. JavaScript also enumerates integer-like keys first, in ascending order, which the ordered map does not.
- Config: arrays met halfway along a `get` or `set` path are treated as non-objects. JavaScript would index into them by property name.
- Config.DeepMergeSpec: a truthy string or array target under a merged key is replaced by `{}`. JavaScript would spread its characters or elements into index keys.
- Config: a truthy favourites or recent value that is not an array is read as the empty list. JavaScript would call `includes`/`filter` on it, or throw.
- Connection: `connect()`'s try/catch around socket creation is not modelled. Creating a socket is taken to succeed.
- Connection: events from sockets that `connect()` has already replaced are not modelled. The overwritten pong-timeout handle of a second ping (which can no longer be cleared) is not modelled either.
- Connection: socket `error` events only emit `error`; the error payload is not modelled.
- Dashboard.ToggleTestnet: the client it replaces is dropped from the model. A reconnect timer that client had already scheduled (`close()` cannot cancel it) could still reconnect it and feed its data to the stores; that is not modelled.
- Dashboard: the Express routes and Socket.IO handlers are not part of this model. Neither are the callers' upper-casing of the symbol, `start`/`stop`, and the fan-out of stream data to the three stores. `public/app.js` is not part of this model.

=== FILE: big_trades.dfy ===
/**
 * The big-trade tracker (src/big-trades-manager.js): from each trade
 * message it keeps at most one trade, the largest by value above a
 * minimum, in a newest-first list of at most 100.
 */
module BigTrades {
  import opened Wrappers
  import opened Strings
  import opened Lists

  /** One element of a trade message's `data` array, price and size already parsed. */
  datatype RawTrade = RawTrade(id: string, symbol: string, side: string,
                               price: real, size: real, tradeTime: string,
                               blockTrade: Option<bool>, sequence: Option<int>)

  datatype Trade = Trade(id: string, symbol: string, side: string,
                         price: real, size: real, value: real, tradeTime: string,
                         isBlockTrade: bool, sequence: Option<int>, timestamp: int)

  /** A trade message; a missing topic is the empty string, a missing or non-array `data` is `None`. */
  datatype Message = Message(topic: string, data: Option<seq<RawTrade>>)

  datatype TradeSize = Small | Medium | Large | Whale | Block

  datatype Tracker = Tracker(trades: seq<Trade>, minTradeValue: real)

  const MaxTrades: nat := 100
  const DefaultMinTradeValue: real := 50000.0
  const WhaleThreshold: real := 500000.0
  const BlockTradeThreshold: real := 1000000.0
  const TopicPrefix: string := "publicTrade."

  /** The constructor: no trades yet, and the $50 000 minimum. */
  function Init(): (tr: Tracker)
    ensures tr.trades == [] && tr.minTradeValue == DefaultMinTradeValue
  {
    Tracker([], DefaultMinTradeValue)
  }

  function Value(t: RawTrade): real {
    t.price * t.size
  }

  /**
   * A trade the selection loop can pick: worth at least the minimum, and
   * worth more than 0, the loop's starting best value.
   */
  predicate Qualifies(t: RawTrade, minValue: real) {
    Value(t) > 0.0 && Value(t) >= minValue
  }

  /** `i` is the first qualifying trade of maximal value. */
  ghost predicate IsLargest(data: seq<RawTrade>, minValue: real, i: nat) {
    && i < |data| && Qualifies(data[i], minValue)
    && (forall j :: 0 <= j < |data| && Qualifies(data[j], minValue) ==> Value(data[j]) <= Value(data[i]))
    && (forall j :: 0 <= j < i && Qualifies(data[j], minValue) ==> Value(data[j]) < Value(data[i]))
  }

  /** At most one index is the first largest. */
  lemma LargestUnique(data: seq<RawTrade>, minValue: real, i: nat, k: nat)
    requires IsLargest(data, minValue, i) && IsLargest(data, minValue, k)
    ensures i == k
  {
  }

  /** The reference selection, as a fold from the front keeping the first strict maximum. */
  function Largest(data: seq<RawTrade>, minValue: real): (r: Option<nat>)
    ensures r.None? <==> forall j :: 0 <= j < |data| ==> !Qualifies(data[j], minValue)
    ensures r.Some? ==> IsLargest(data, minValue, r.value)
    decreases |data|
  {
    if |data| == 0 then None
    else
      var init := data[..|data| - 1];
      var last := data[|data| - 1];
      var prev := Largest(init, minValue);
      assert forall j :: 0 <= j < |init| ==> init[j] == data[j];
      if prev.None? then
        if Qualifies(last, minValue) then Some(|data| - 1) else None
      else if Value(last) > Value(data[prev.value]) && Qualifies(last, minValue) then Some(|data| - 1)
      else prev
  }

  function ToTrade(t: RawTrade, now: int): Trade {
    Trade(t.id, t.symbol, t.side, t.price, t.size, Value(t), t.tradeTime,
          t.blockTrade == Some(true), t.sequence, now)
  }

  /**
   * `processTrade`: scans the trades once, as the source loop does, and
   * returns the index of the one it keeps; `None` when `data` is missing
   * or no trade qualifies.
   */
  method ProcessTrade(data: Option<seq<RawTrade>>, minValue: real) returns (r: Option<nat>)
    ensures data.None? ==> r.None?
    ensures data.Some? ==> (r.None? <==> forall j :: 0 <= j < |data.value| ==> !Qualifies(data.value[j], minValue))
    ensures data.Some? && r.Some? ==> IsLargest(data.value, minValue, r.value)
  {
    if data.None? {
      return None;
    }
    var ts := data.value;
    var largestValue := 0.0;
    r := None;
    var k := 0;
    while k < |ts|
      invariant 0 <= k <= |ts|
      invariant r.None? <==> forall j :: 0 <= j < k ==> !Qualifies(ts[j], minValue)
      invariant r.None? ==> largestValue == 0.0
      invariant r.Some? ==> r.value < k && largestValue == Value(ts[r.value]) && Qualifies(ts[r.value], minValue)
      invariant r.Some? ==> forall j :: 0 <= j < k && Qualifies(ts[j], minValue) ==> Value(ts[j]) <= largestValue
      invariant r.Some? ==> forall j :: 0 <= j < r.value && Qualifies(ts[j], minValue) ==> Value(ts[j]) < largestValue
    {
      var value := Value(ts[k]);
      if value > largestValue && value >= minValue {
        largestValue := value;
        r := Some(k);
      }
      k := k + 1;
    }
  }

  /** The loop and the reference selection agree. */
  method ProcessTradeMatchesLargest(data: seq<RawTrade>, minValue: real) returns (r: Option<nat>)
    ensures r == Largest(data, minValue)
    ensures r.Some? ==> r.value < |data| && Qualifies(data[r.value], minValue)
  {
    r := ProcessTrade(Some(data), minValue);
    var ref := Largest(data, minValue);
    if r.Some? && ref.Some? {
      LargestUnique(data, minValue, r.value, ref.value);
    }
  }

  /**
   * `addTrade`: the selected trade, if any, goes to the front and the list
   * is cut to its first 100; nothing changes when no trade qualifies.
   */
  function AddTrade(tr: Tracker, data: Option<seq<RawTrade>>, now: int): (r: (Tracker, Option<Trade>))
    ensures r.1.None? ==> r.0 == tr
    ensures r.1.Some? <==> data.Some? && Largest(data.value, tr.minTradeValue).Some?
    ensures r.1.Some? ==>
              && data.Some?
              && Largest(data.value, tr.minTradeValue).Some?
              && r.1.value == ToTrade(data.value[Largest(data.value, tr.minTradeValue).value], now)
              && r.1.value.value >= tr.minTradeValue
              && r.0.minTradeValue == tr.minTradeValue
              && 0 < |r.0.trades| <= |tr.trades| + 1 && r.0.trades[0] == r.1.value
              && (|tr.trades| < MaxTrades ==> |r.0.trades| == |tr.trades| + 1)
              && r.0.trades[1..] == tr.trades[..|r.0.trades| - 1]
    ensures |tr.trades| <= MaxTrades ==> |r.0.trades| <= MaxTrades
    ensures r.1.Some? ==>
              |r.0.trades| == (if |tr.trades| + 1 > MaxTrades then MaxTrades else |tr.trades| + 1)
  {
    if data.None? then (tr, None)
    else
      match Largest(data.value, tr.minTradeValue)
      case None => (tr, None)
      case Some(i) =>
        var t := ToTrade(data.value[i], now);
        if t.value < tr.minTradeValue then (tr, None)
        else
          var all := [t] + tr.trades;
          var kept := if |all| > MaxTrades then all[..MaxTrades] else all;
          assert kept[1..] == tr.trades[..|kept| - 1];
          (tr.(trades := kept), Some(t))
  }

  /** `getTradeSize`: block from 1 000 000, whale from 500 000, large from 100 000, medium from 50 000. */
  function GetTradeSize(value: real): (s: TradeSize)
    ensures s == Block <==> value >= BlockTradeThreshold
    ensures s == Whale <==> WhaleThreshold <= value < BlockTradeThreshold
    ensures s == Large <==> 100000.0 <= value < WhaleThreshold
    ensures s == Medium <==> 50000.0 <= value < 100000.0
    ensures s == Small <==> value < 50000.0
  {
    if value >= BlockTradeThreshold then Block
    else if value >= WhaleThreshold then Whale
    else if value >= 100000.0 then Large
    else if value >= 50000.0 then Medium
    else Small
  }

  /** `minValue || minTradeValue`: an absent or zero argument falls back to the tracker's minimum. */
  function FilterValue(tr: Tracker, minValue: Option<real>): (v: real)
    ensures minValue.Some? && minValue.value != 0.0 ==> v == minValue.value
    ensures minValue.None? || minValue.value == 0.0 ==> v == tr.minTradeValue
  {
    if minValue.Some? && minValue.value != 0.0 then minValue.value else tr.minTradeValue
  }

  /** `getFilteredTrades(minValue)`: the trades worth at least the threshold, in list order. */
  function GetFilteredTrades(tr: Tracker, minValue: Option<real>): (r: seq<Trade>)
    ensures forall t :: t in r <==> t in tr.trades && t.value >= FilterValue(tr, minValue)
    ensures forall t :: multiset(r)[t] == if t.value >= FilterValue(tr, minValue) then multiset(tr.trades)[t] else 0
  {
    var v := FilterValue(tr, minValue);
    var keep := (t: Trade) => t.value >= v;
    forall t
      ensures multiset(Filter(tr.trades, keep))[t] == if t.value >= v then multiset(tr.trades)[t] else 0
    {
      FilterMultiset(tr.trades, keep, t);
    }
    Filter(tr.trades, keep)
  }

  /** The filtered list keeps the tracker's newest-first order. */
  lemma FilteredTradesKeepOrder(tr: Tracker, minValue: Option<real>)
    ensures IsSubsequence(GetFilteredTrades(tr, minValue), tr.trades)
  {
    var v := FilterValue(tr, minValue);
    FilterIsSubsequence(tr.trades, (t: Trade) => t.value >= v);
  }

  /** `processMessage`: only `publicTrade.` topics reach `addTrade`. */
  function ProcessMessage(tr: Tracker, msg: Message, now: int): (r: (Tracker, Option<Trade>))
    ensures !StartsWith(msg.topic, TopicPrefix) ==> r == (tr, None)
    ensures StartsWith(msg.topic, TopicPrefix) ==> r == AddTrade(tr, msg.data, now)
  {
    if StartsWith(msg.topic, TopicPrefix) then AddTrade(tr, msg.data, now) else (tr, None)
  }

  /** `clear`: the list empties, the minimum stays. */
  function Clear(tr: Tracker): (r: Tracker)
    ensures r.trades == [] && r.minTradeValue == tr.minTradeValue
  {
    tr.(trades := [])
  }

  /** A trade message whose largest trade is below the minimum leaves the list alone. */
  lemma SmallTradesIgnored(tr: Tracker, data: seq<RawTrade>, now: int)
    requires forall j :: 0 <= j < |data| ==> Value(data[j]) < tr.minTradeValue
    ensures AddTrade(tr, Some(data), now) == (tr, None)
  {
  }
}

=== FILE: config.dfy ===
/**
 * The settings store (src/config-manager.js): a JSON tree addressed by
 * dot-separated paths, with a recursive merge and the symbol-list helpers
 * built on top of `get` and `set`.
 *
 * A JSON object is modelled with the same ordered map as the order book,
 * holding the object's own properties in insertion order. Inherited
 * prototype properties and the integer-keys-first enumeration order of
 * JavaScript objects are not modelled.
 */
module Config {
  import opened Wrappers
  import opened Strings
  import opened Lists
  import OM = OrderedMap

  datatype Json =
    | JNull
    | JBool(b: bool)
    | JNum(n: real)
    | JStr(s: string)
    | JArr(items: seq<Json>)
    | JObj(fields: seq<OM.Entry<string, Json>>)

  type Fields = seq<OM.Entry<string, Json>>

  /** What `set` can end in: the new configuration, or the TypeError of a `null` on the path. */
  datatype SetResult = Updated(config: Fields) | TypeError

  const MaxRecent: nat := 10
  const DefaultTheme: string := "dark"

  /** JavaScript truthiness (NaN is not modelled). */
  predicate Truthy(j: Json) {
    match j
    case JNull => false
    case JBool(b) => b
    case JNum(n) => n != 0.0
    case JStr(s) => s != ""
    case JArr(_) => true
    case JObj(_) => true
  }

  /**
   * The walk of `get`: each key must name a property of an object reached
   * so far; anything else ends the walk with `undefined` (`None`).
   */
  function GetPath(j: Json, keys: seq<string>): (r: Option<Json>)
    decreases |keys|
  {
    if |keys| == 0 then Some(j)
    else if !j.JObj? then None
    else
      match OM.Get(j.fields, keys[0])
      case None => None
      case Some(child) => GetPath(child, keys[1..])
  }

  /** `get(path)`. */
  function Get(config: Fields, path: string): Option<Json> {
    GetPath(JObj(config), Split(path, '.'))
  }

  /**
   * The properties of the object under `key`, or none: what `set` walks
   * into, and what `deepMerge` spreads as `target[key] || {}`.
   */
  function ChildFields(f: Fields, key: string): (r: Fields)
    ensures OM.Get(f, key).Some? && OM.Get(f, key).value.JObj? ==> r == OM.Get(f, key).value.fields
    ensures OM.Get(f, key).None? || !OM.Get(f, key).value.JObj? ==> r == []
  {
    var v := OM.Get(f, key);
    if v.Some? && v.value.JObj? then v.value.fields else []
  }

  /**
   * The walk of `set`: every key but the last names an object, which is
   * created (replacing whatever non-object was there) when needed; a `null`
   * is kept, since `typeof null` is 'object', and the next step throws.
   */
  function SetPath(f: Fields, keys: seq<string>, value: Json): (r: SetResult)
    requires |keys| >= 1
    decreases |keys|
  {
    if |keys| == 1 then Updated(OM.Set(f, keys[0], value))
    else if OM.Get(f, keys[0]) == Some(JNull) then TypeError
    else
      match SetPath(ChildFields(f, keys[0]), keys[1..], value)
      case TypeError => TypeError
      case Updated(c) => Updated(OM.Set(f, keys[0], JObj(c)))
  }

  /** `set(path, value)` without the file write. */
  function Set(config: Fields, path: string, value: Json): SetResult {
    SetPath(config, Split(path, '.'), value)
  }

  /** After a successful `set`, `get` of the same path returns the value set. */
  lemma {:induction false} SetThenGet(f: Fields, keys: seq<string>, value: Json)
    requires |keys| >= 1
    requires SetPath(f, keys, value).Updated?
    ensures GetPath(JObj(SetPath(f, keys, value).config), keys) == Some(value)
    decreases |keys|
  {
    var g := SetPath(f, keys, value).config;
    if |keys| == 1 {
      assert OM.Get(g, keys[0]) == Some(value);
      assert keys[1..] == [];
    } else {
      var child := ChildFields(f, keys[0]);
      SetThenGet(child, keys[1..], value);
      var c := SetPath(child, keys[1..], value).config;
      assert OM.Get(g, keys[0]) == Some(JObj(c));
    }
  }

  /** A path into an object built from nothing but `keys` finds nothing once it leaves `keys` at index `j`. */
  lemma {:induction false} FreshPathFindsNothing(keys: seq<string>, value: Json, p: seq<string>, j: nat)
    requires j < |p| && j < |keys| && p[j] != keys[j]
    requires forall i :: 0 <= i < j ==> p[i] == keys[i]
    requires SetPath([], keys, value).Updated?
    ensures GetPath(JObj(SetPath([], keys, value).config), p) == None
    decreases |keys|
  {
    var g := SetPath([], keys, value).config;
    if j == 0 {
      assert OM.Get(g, p[0]) == OM.Get([], p[0]);
    } else {
      var c := SetPath([], keys[1..], value).config;
      assert OM.Get(g, keys[0]) == Some(JObj(c));
      FreshPathFindsNothing(keys[1..], value, p[1..], j - 1);
    }
  }

  /** One step of a successful `set` of a path of more than one key. */
  lemma SetPathStep(f: Fields, keys: seq<string>, value: Json)
    requires |keys| > 1 && SetPath(f, keys, value).Updated?
    ensures SetPath(ChildFields(f, keys[0]), keys[1..], value).Updated?
    ensures SetPath(f, keys, value).config ==
              OM.Set(f, keys[0], JObj(SetPath(ChildFields(f, keys[0]), keys[1..], value).config))
  {
  }

  /**
   * A path that parts ways at index `j` with the path `set` writes reads
   * the same before and after it.
   */
  lemma {:induction false} SetLeavesOtherPaths(f: Fields, keys: seq<string>, value: Json, p: seq<string>, j: nat)
    requires j < |p| && j < |keys| && p[j] != keys[j]
    requires forall i :: 0 <= i < j ==> p[i] == keys[i]
    requires SetPath(f, keys, value).Updated?
    ensures GetPath(JObj(SetPath(f, keys, value).config), p) == GetPath(JObj(f), p)
    decreases |keys|
  {
    var g := SetPath(f, keys, value).config;
    GetPathStep(g, p);
    GetPathStep(f, p);
    if j == 0 {
      if |keys| > 1 {
        SetPathStep(f, keys, value);
      }
      assert OM.Get(g, p[0]) == OM.Get(f, p[0]);
    } else {
      SetPathStep(f, keys, value);
      var child := ChildFields(f, keys[0]);
      var c := SetPath(child, keys[1..], value).config;
      assert OM.Get(g, keys[0]) == Some(JObj(c));
      var v := OM.Get(f, keys[0]);
      if v.Some? && v.value.JObj? {
        SetLeavesOtherPaths(child, keys[1..], value, p[1..], j - 1);
      } else {
        FreshPathFindsNothing(keys[1..], value, p[1..], j - 1);
      }
    }
  }

  /** The walk of `get` one key at a time. */
  lemma GetPathStep(f: Fields, keys: seq<string>)
    requires |keys| >= 1
    ensures GetPath(JObj(f), keys) ==
              match OM.Get(f, keys[0])
              case None => None
              case Some(child) => GetPath(child, keys[1..])
  {
  }

  /** A prefix of two or more keys is read through the object under the first key. */
  lemma PrefixStep(f: Fields, keys: seq<string>, j: nat)
    requires 1 < j < |keys|
    ensures var v := OM.Get(f, keys[0]);
            GetPath(JObj(f), keys[..j]) == Some(JNull) <==>
            (v.Some? && v.value.JObj? && GetPath(JObj(ChildFields(f, keys[0])), keys[1..][..j - 1]) == Some(JNull))
  {
    assert keys[..j][0] == keys[0];
    assert keys[..j][1..] == keys[1..][..j - 1];
    GetPathStep(f, keys[..j]);
  }

  /** `set` fails exactly when the path runs into a `null` before its last key. */
  lemma {:induction false} SetFailsOnNull(f: Fields, keys: seq<string>, value: Json)
    requires |keys| >= 1
    ensures SetPath(f, keys, value).TypeError? <==>
            exists j :: 1 <= j < |keys| && GetPath(JObj(f), keys[..j]) == Some(JNull)
    decreases |keys|
  {
    if |keys| > 1 {
      var child := ChildFields(f, keys[0]);
      var v := OM.Get(f, keys[0]);
      SetFailsOnNull(child, keys[1..], value);
      assert GetPath(JObj(f), keys[..1]) == v by {
        assert keys[..1][1..] == [];
      }
      if SetPath(f, keys, value).TypeError? && v != Some(JNull) {
        var j' :| 1 <= j' < |keys[1..]| && GetPath(JObj(child), keys[1..][..j']) == Some(JNull);
        PrefixStep(f, keys, j' + 1);
      }
      if exists j :: 1 <= j < |keys| && GetPath(JObj(f), keys[..j]) == Some(JNull) {
        var j :| 1 <= j < |keys| && GetPath(JObj(f), keys[..j]) == Some(JNull);
        if j > 1 {
          PrefixStep(f, keys, j);
        }
      }
    }
  }

  // ---------------------------------------------------------------------
  // deepMerge

  /**
   * `deepMerge(target, source)`: a copy of `target`, then for every
   * property of `source` in order, an object value is merged into the
   * target's value under that key and any other value overwrites it.
   */
  function DeepMerge(target: Fields, source: Json): Fields
    requires source.JObj?
    decreases source
  {
    MergeFrom(target, target, source, 0)
  }

  /** The value `deepMerge` stores under a source property `e`. */
  function Merged(target: Fields, e: OM.Entry<string, Json>, ghost source: Json): Json
    requires source.JObj? && e in source.fields
    decreases source, 0
  {
    if e.value.JObj? then JObj(DeepMerge(ChildFields(target, e.key), e.value)) else e.value
  }

  function MergeFrom(result: Fields, target: Fields, source: Json, i: nat): Fields
    requires source.JObj? && i <= |source.fields|
    decreases source, |source.fields| - i + 1
  {
    if i == |source.fields| then result
    else
      var e := source.fields[i];
      MergeFrom(OM.Set(result, e.key, Merged(target, e, source)), target, source, i + 1)
  }

  /** The keys of the first `i` source properties. */
  ghost function SourceKeys(source: Fields, i: nat): set<string>
    requires i <= |source|
  {
    set j | 0 <= j < i :: source[j].key
  }

  /**
   * The merge loop over a source without repeated keys: keys it has not
   * reached keep the target's value, and each key it has passed holds the
   * merged value.
   */
  lemma {:induction false} MergeFromSpec(result: Fields, target: Fields, source: Json, i: nat)
    requires source.JObj? && OM.Wf(source.fields) && i <= |source.fields|
    requires forall k :: k !in SourceKeys(source.fields, i) ==> OM.Get(result, k) == OM.Get(target, k)
    requires forall j :: 0 <= j < i ==>
               OM.Get(result, source.fields[j].key) == Some(Merged(target, source.fields[j], source))
    ensures forall k :: k !in SourceKeys(source.fields, |source.fields|) ==>
              OM.Get(MergeFrom(result, target, source, i), k) == OM.Get(target, k)
    ensures forall j :: 0 <= j < |source.fields| ==>
              OM.Get(MergeFrom(result, target, source, i), source.fields[j].key) ==
                Some(Merged(target, source.fields[j], source))
    decreases |source.fields| - i
  {
    if i < |source.fields| {
      var e := source.fields[i];
      var next := OM.Set(result, e.key, Merged(target, e, source));
      assert SourceKeys(source.fields, i + 1) == SourceKeys(source.fields, i) + {e.key};
      forall j | 0 <= j < i
        ensures OM.Get(next, source.fields[j].key) == Some(Merged(target, source.fields[j], source))
      {
        assert source.fields[j].key != e.key;
      }
      assert MergeFrom(result, target, source, i) == MergeFrom(next, target, source, i + 1);
      MergeFromSpec(next, target, source, i + 1);
    } else {
      assert SourceKeys(source.fields, i) == SourceKeys(source.fields, |source.fields|);
    }
  }

  /**
   * `deepMerge` keeps every target-only key, and gives every key of the
   * source its source value, except that an object value is merged into
   * the target's object under the key.
   */
  lemma DeepMergeSpec(target: Fields, source: Json, k: string)
    requires source.JObj? && OM.Wf(source.fields)
    ensures k !in OM.KeySet(source.fields) ==> OM.Get(DeepMerge(target, source), k) == OM.Get(target, k)
    ensures k in OM.KeySet(source.fields) ==>
              var v := OM.Get(source.fields, k).value;
              OM.Get(DeepMerge(target, source), k) ==
                Some(if v.JObj? then JObj(DeepMerge(ChildFields(target, k), v)) else v)
  {
    MergeFromSpec(target, target, source, 0);
    OM.InKeySet(source.fields, k);
    if k in OM.KeySet(source.fields) {
      var j :| 0 <= j < |source.fields| && source.fields[j].key == k;
      OM.GetEntry(source.fields, j);
    } else {
      assert k !in SourceKeys(source.fields, |source.fields|);
    }
  }

  // ---------------------------------------------------------------------
  // Symbol lists and theme

  const FavoritesPath: string := "symbols.favorites"
  const RecentPath: string := "symbols.recent"
  const ThemePath: string := "appearance.theme"

  /** The keys of the three paths, as `split('.')` yields them. */
  const FavoritesKeys: seq<string> := ["symbols", "favorites"]
  const RecentKeys: seq<string> := ["symbols", "recent"]
  const ThemeKeys: seq<string> := ["appearance", "theme"]

  /** The favourites path splits into `FavoritesKeys`. */
  lemma FavoritesPathKeys()
    ensures Split(FavoritesPath, '.') == FavoritesKeys
  {
    SplitTwo("symbols", "favorites", '.');
    assert FavoritesPath == "symbols" + ['.'] + "favorites";
  }

  /** The recent-symbols path splits into `RecentKeys`. */
  lemma RecentPathKeys()
    ensures Split(RecentPath, '.') == RecentKeys
  {
    SplitTwo("symbols", "recent", '.');
    assert RecentPath == "symbols" + ['.'] + "recent";
  }

  /** The theme path splits into `ThemeKeys`. */
  lemma ThemePathKeys()
    ensures Split(ThemePath, '.') == ThemeKeys
  {
    SplitTwo("appearance", "theme", '.');
    assert ThemePath == "appearance" + ['.'] + "theme";
  }

  /** `get(path) || []` for a list setting; a truthy non-list value is read as empty too. */
  function ListAt(config: Fields, keys: seq<string>): seq<Json> {
    match GetPath(JObj(config), keys)
    case Some(JArr(items)) => items
    case _ => []
  }

  /** `addFavoriteSymbol`: a symbol already in the list leaves the configuration as it is. */
  function AddFavoriteSymbol(config: Fields, symbol: string): (r: SetResult)
    ensures JStr(symbol) in ListAt(config, FavoritesKeys) ==> r == Updated(config)
  {
    var favorites := ListAt(config, FavoritesKeys);
    if JStr(symbol) in favorites then Updated(config)
    else SetPath(config, FavoritesKeys, JArr(favorites + [JStr(symbol)]))
  }

  /** `removeFavoriteSymbol`: every occurrence goes, the rest keep their order. */
  function RemoveFavoriteSymbol(config: Fields, symbol: string): SetResult {
    SetPath(config, FavoritesKeys, JArr(Remove(ListAt(config, FavoritesKeys), JStr(symbol))))
  }

  /** The recent list after `addRecentSymbol`: the symbol first, once, then the others, at most 10. */
  function RecentAfter(recent: seq<Json>, symbol: string): (r: seq<Json>)
    ensures 0 < |r| <= MaxRecent && r[0] == JStr(symbol)
    ensures JStr(symbol) !in r[1..]
    ensures forall x :: x in r[1..] ==> x in recent
    ensures NoDup(recent) ==> NoDup(r)
    ensures |r| == if 1 + |Remove(recent, JStr(symbol))| > MaxRecent then MaxRecent else 1 + |Remove(recent, JStr(symbol))|
    ensures r[1..] == Remove(recent, JStr(symbol))[..|r| - 1]
  {
    var rest := Remove(recent, JStr(symbol));
    var all := [JStr(symbol)] + rest;
    var r := if |all| > MaxRecent then all[..MaxRecent] else all;
    assert r[1..] == rest[..|r| - 1];
    assert forall x :: x in r[1..] ==> x in rest;
    assert NoDup(recent) ==> NoDup(r) by {
      if NoDup(recent) {
        RemoveNoDup(recent, JStr(symbol));
        forall a, b | 0 <= a < b < |r|
          ensures r[a] != r[b]
        {
          if a > 0 {
            assert r[a] == rest[a - 1] && r[b] == rest[b - 1];
          } else {
            assert r[b] in rest;
          }
        }
      }
    }
    r
  }

  /** `addRecentSymbol`. */
  function AddRecentSymbol(config: Fields, symbol: string): SetResult {
    SetPath(config, RecentKeys, JArr(RecentAfter(ListAt(config, RecentKeys), symbol)))
  }

  /**
   * After `addFavoriteSymbol(s)` succeeds, `s` is a favourite; when it was
   * not one before, it has been appended behind the old favourites, so a
   * list without duplicates stays without.
   */
  lemma AddFavoriteStoresSymbol(config: Fields, symbol: string)
    requires AddFavoriteSymbol(config, symbol).Updated?
    ensures var favorites := ListAt(AddFavoriteSymbol(config, symbol).config, FavoritesKeys);
            && JStr(symbol) in favorites
            && (JStr(symbol) !in ListAt(config, FavoritesKeys) ==>
                  favorites == ListAt(config, FavoritesKeys) + [JStr(symbol)])
    ensures NoDup(ListAt(config, FavoritesKeys)) ==>
              NoDup(ListAt(AddFavoriteSymbol(config, symbol).config, FavoritesKeys))
  {
    var favorites := ListAt(config, FavoritesKeys);
    if JStr(symbol) !in favorites {
      SetThenGet(config, FavoritesKeys, JArr(favorites + [JStr(symbol)]));
      assert (favorites + [JStr(symbol)])[|favorites|] == JStr(symbol);
      if NoDup(favorites) {
        AppendNoDup(favorites, JStr(symbol));
      }
    }
  }

  /**
   * After `addRecentSymbol(s)` succeeds, the stored list starts with `s`,
   * holds it once, and continues with the other recent symbols in their old
   * order, the oldest cut so that at most 10 remain.
   */
  lemma AddRecentStoresSymbolFirst(config: Fields, symbol: string)
    requires AddRecentSymbol(config, symbol).Updated?
    ensures var recent := ListAt(AddRecentSymbol(config, symbol).config, RecentKeys);
            && 0 < |recent| <= MaxRecent && recent[0] == JStr(symbol) && JStr(symbol) !in recent[1..]
            && (forall x :: x in recent[1..] ==> x in ListAt(config, RecentKeys))
            && recent[1..] == Remove(ListAt(config, RecentKeys), JStr(symbol))[..|recent| - 1]
            && |recent| == if 1 + |Remove(ListAt(config, RecentKeys), JStr(symbol))| > MaxRecent then MaxRecent
                          else 1 + |Remove(ListAt(config, RecentKeys), JStr(symbol))|
  {
    SetThenGet(config, RecentKeys, JArr(RecentAfter(ListAt(config, RecentKeys), symbol)));
  }

  /** After `removeFavoriteSymbol(s)` succeeds, `s` is no longer a favourite and the rest keep their order. */
  lemma RemoveFavoriteDropsSymbol(config: Fields, symbol: string)
    requires RemoveFavoriteSymbol(config, symbol).Updated?
    ensures var favorites := ListAt(RemoveFavoriteSymbol(config, symbol).config, FavoritesKeys);
            && JStr(symbol) !in favorites
            && IsSubsequence(favorites, ListAt(config, FavoritesKeys))
            && (forall x :: x in ListAt(config, FavoritesKeys) && x != JStr(symbol) ==> x in favorites)
  {
    var before := ListAt(config, FavoritesKeys);
    SetThenGet(config, FavoritesKeys, JArr(Remove(before, JStr(symbol))));
    RemoveIsSubsequence(before, JStr(symbol));
  }

  /** `getTheme`: the stored theme when truthy, otherwise "dark". */
  function GetTheme(config: Fields): (r: Json)
    ensures Truthy(r)
    ensures var v := GetPath(JObj(config), ThemeKeys);
            && (v.Some? && Truthy(v.value) ==> r == v.value)
            && (v.None? || !Truthy(v.value) ==> r == JStr(DefaultTheme))
  {
    match GetPath(JObj(config), ThemeKeys)
    case Some(v) => if Truthy(v) then v else JStr(DefaultTheme)
    case None => JStr(DefaultTheme)
  }
}

=== FILE: connection.dfy ===
/**
 * The exchange stream client (src/websocket-client.js) as an event-driven
 * state machine. Socket callbacks and timer expiries are input events; what
 * the client writes to the socket is appended to `outbox`, and what it
 * emits to its listeners is appended to `signals`.
 *
 * The client talks to one socket at a time: `connect` replaces it, and the
 * events of the model are those of the current socket. Reconnect timers
 * are kept as the list of their delays, because the client never keeps a
 * handle to them and so can never cancel one.
 */
module Connection {
  import opened Wrappers
  import opened Js
  import opened Lists

  /** The `readyState` of the current socket. */
  datatype SocketState = Connecting | Open | Closing | Closed

  /** Frames the client writes to the socket. */
  datatype Command = SubscribeCmd(args: seq<string>) | UnsubscribeCmd(args: seq<string>) | PingCmd

  /** A frame received from the exchange; `Unparsable` is one `JSON.parse` rejects. */
  datatype Inbound =
    | Unparsable
    | Json(op: Option<string>, retMsg: Option<string>, topic: Option<string>, success: Option<bool>)

  /** Events the client emits to its listeners. */
  datatype Signal = ConnectedSig | DisconnectedSig | DataSig(message: Inbound) | ErrorSig | MaxReachedSig

  datatype Event =
    | OpenEv                     // the socket's 'open'
    | CloseEv(code: int)         // the socket's 'close'
    | ErrorEv                    // the socket's 'error'
    | MessageEv(frame: Inbound)  // the socket's 'message'
    | ReconnectTimer(index: nat) // the reconnect timer `timers[index]` expires
    | PingTick                   // the 20 s heartbeat interval
    | PongTimeout                // the 10 s pong timeout
    | SubscribeEv(topic: string)
    | UnsubscribeEv(topic: string)
    | ManualClose                // `close()`

  datatype Conn = Conn(
    socket: SocketState,
    connected: bool,             // `isConnected`
    attempts: nat,               // `reconnectAttempts`
    subscriptions: seq<string>,  // the `Set`, in insertion order
    heartbeat: bool,             // `pingInterval` is set
    pongPending: bool,           // `pongTimeout` is armed
    timers: seq<nat>,            // delays of reconnect timers not yet expired
    outbox: seq<Command>,
    signals: seq<Signal>)

  const MaxReconnectAttempts: nat := 10
  const BaseDelay: nat := 1000
  const MaxDelay: nat := 30000
  const NormalClosure: int := 1000

  /** A new client: its constructor has just opened a socket. */
  function Init(): (c: Conn)
    ensures c.socket == Connecting && !c.connected && c.attempts == 0
    ensures c.subscriptions == [] && c.timers == [] && c.outbox == []
  {
    Conn(Connecting, false, 0, [], false, false, [], [], [])
  }

  function Pow2(n: nat): (r: nat)
    ensures r >= 1
  {
    if n == 0 then 1 else 2 * Pow2(n - 1)
  }

  /** The backoff before reconnect attempt `attempts + 1`: `min(1000 * 2^attempts, 30000)`. */
  function Delay(attempts: nat): (d: nat)
    ensures BaseDelay <= d <= MaxDelay
  {
    Min(BaseDelay * Pow2(attempts), MaxDelay)
  }

  lemma {:induction false} Pow2AtLeast32(n: nat)
    requires n >= 5
    ensures Pow2(n) >= 32
  {
    if n > 5 {
      Pow2AtLeast32(n - 1);
    }
  }

  /** The delays are 1, 2, 4, 8 and 16 seconds, then 30 seconds from the sixth attempt on. */
  lemma DelayTable(attempts: nat)
    ensures Delay(0) == 1000 && Delay(1) == 2000 && Delay(2) == 4000
    ensures Delay(3) == 8000 && Delay(4) == 16000
    ensures attempts >= 5 ==> Delay(attempts) == 30000
  {
    if attempts >= 5 {
      Pow2AtLeast32(attempts);
    }
  }

  /** Waiting longer never comes after waiting less: the delay grows with the attempt count. */
  lemma {:induction false} DelayMonotone(a: nat, b: nat)
    requires a <= b
    ensures Delay(a) <= Delay(b)
    decreases b - a
  {
    if a < b {
      DelayMonotone(a + 1, b);
    }
  }

  /** `send`: written only when connected and the socket is open, dropped otherwise. */
  function Send(c: Conn, cmd: Command): (r: Conn)
    ensures c.connected && c.socket == Open ==> r.outbox == c.outbox + [cmd]
    ensures !(c.connected && c.socket == Open) ==> r.outbox == c.outbox
    ensures r == c.(outbox := r.outbox)
  {
    if c.connected && c.socket == Open then c.(outbox := c.outbox + [cmd]) else c
  }

  /** `scheduleReconnect`: a timer with the backoff delay, or the give-up signal after 10 attempts. */
  function ScheduleReconnect(c: Conn): (r: Conn)
    ensures c.attempts < MaxReconnectAttempts ==>
              r == c.(timers := c.timers + [Delay(c.attempts)])
    ensures c.attempts >= MaxReconnectAttempts ==>
              r == c.(signals := c.signals + [MaxReachedSig])
  {
    if c.attempts >= MaxReconnectAttempts then c.(signals := c.signals + [MaxReachedSig])
    else c.(timers := c.timers + [Delay(c.attempts)])
  }

  /** `stopPingPong`: both heartbeat timers are cleared. */
  function StopPingPong(c: Conn): (r: Conn)
    ensures !r.heartbeat && !r.pongPending
    ensures r == c.(heartbeat := false, pongPending := false)
  {
    c.(heartbeat := false, pongPending := false)
  }

  /**
   * The first half of `onOpen`, up to and including the 'connected' event:
   * the listeners of that event run before the second half.
   */
  function Opened(c: Conn): (r: Conn)
    ensures r.socket == Open && r.connected && r.attempts == 0
    ensures r.signals == c.signals + [ConnectedSig]
    ensures r.subscriptions == c.subscriptions && r.outbox == c.outbox && r.timers == c.timers
  {
    c.(socket := Open, connected := true, attempts := 0, signals := c.signals + [ConnectedSig])
  }

  /** `resubscribe`: one subscribe frame carrying every topic, if there are any. */
  function Resubscribe(c: Conn): (r: Conn)
    ensures |c.subscriptions| > 0 ==> r == Send(c, SubscribeCmd(c.subscriptions))
    ensures |c.subscriptions| == 0 ==> r == c
  {
    if |c.subscriptions| > 0 then Send(c, SubscribeCmd(c.subscriptions)) else c
  }

  /** The second half of `onOpen`: the heartbeat starts and the topics are replayed. */
  function FinishOpen(c: Conn): (r: Conn)
    ensures r.heartbeat && r.subscriptions == c.subscriptions
    ensures r.connected == c.connected && r.socket == c.socket && r.attempts == c.attempts
    ensures c.connected && c.socket == Open ==>
              r.outbox == c.outbox + (if |c.subscriptions| > 0 then [SubscribeCmd(c.subscriptions)] else [])
  {
    Resubscribe(c.(heartbeat := true))
  }

  /** `onClose(code)`: not connected, heartbeat off, and a reconnect unless the close was normal. */
  function OnClose(c: Conn, code: int): (r: Conn)
    ensures r.socket == Closed && !r.connected && !r.heartbeat && !r.pongPending
    ensures r.subscriptions == c.subscriptions && r.attempts == c.attempts && r.outbox == c.outbox
    ensures r.timers == c.timers + (if code != NormalClosure && c.attempts < MaxReconnectAttempts
                                    then [Delay(c.attempts)] else [])
    ensures r.signals == c.signals + [DisconnectedSig] +
                         (if code != NormalClosure && c.attempts >= MaxReconnectAttempts
                          then [MaxReachedSig] else [])
  {
    var d := StopPingPong(c.(socket := Closed, connected := false)).(signals := c.signals + [DisconnectedSig]);
    if code != NormalClosure then ScheduleReconnect(d) else d
  }

  /** The expiry of reconnect timer `i`: one more attempt, and `connect` opens a fresh socket. */
  function OnReconnectTimer(c: Conn, i: nat): (r: Conn)
    ensures i >= |c.timers| ==> r == c
    ensures i < |c.timers| ==>
              && r.attempts == c.attempts + 1 && r.socket == Connecting
              && r.timers == c.timers[..i] + c.timers[i + 1..]
              && r.connected == c.connected && r.subscriptions == c.subscriptions
              && r.outbox == c.outbox && r.signals == c.signals
  {
    if i >= |c.timers| then c
    else c.(timers := c.timers[..i] + c.timers[i + 1..], attempts := c.attempts + 1, socket := Connecting)
  }

  /** The heartbeat interval: a ping and a pong timeout, but only on a connected, open socket. */
  function OnPingTick(c: Conn): (r: Conn)
    ensures c.heartbeat && c.connected && c.socket == Open ==>
              r == c.(outbox := c.outbox + [PingCmd], pongPending := true)
    ensures !(c.heartbeat && c.connected && c.socket == Open) ==> r == c
  {
    if c.heartbeat && c.connected && c.socket == Open then
      c.(outbox := c.outbox + [PingCmd], pongPending := true)
    else c
  }

  /**
   * The pong timeout: the socket is terminated. Its 'close' event (code
   * 1006) arrives later as an event of its own.
   */
  function OnPongTimeout(c: Conn): (r: Conn)
    ensures !c.pongPending ==> r == c
    ensures c.pongPending ==>
              && !r.pongPending
              && r.socket == (if c.socket == Closed then Closed else Closing)
              && r.connected == c.connected && r.timers == c.timers && r.outbox == c.outbox
  {
    if !c.pongPending then c
    else c.(pongPending := false, socket := if c.socket == Closed then Closed else Closing)
  }

  /** A pong frame: `op` or `ret_msg` is 'pong'. */
  predicate IsPong(m: Inbound) {
    m.Json? && (m.op == Some("pong") || m.retMsg == Some("pong"))
  }

  /** A frame with a truthy `topic`. */
  predicate HasTopic(m: Inbound) {
    m.Json? && m.topic.Some? && m.topic.value != ""
  }

  /**
   * `onMessage`: a pong disarms the pong timeout and goes no further; any
   * other frame with a topic is forwarded as 'data'; subscription replies,
   * other frames and unparsable input are only logged.
   */
  function OnMessage(c: Conn, m: Inbound): (r: Conn)
    ensures IsPong(m) ==> r == c.(pongPending := false)
    ensures !IsPong(m) && HasTopic(m) ==> r == c.(signals := c.signals + [DataSig(m)])
    ensures !IsPong(m) && !HasTopic(m) ==> r == c
  {
    if IsPong(m) then c.(pongPending := false)
    else if HasTopic(m) then c.(signals := c.signals + [DataSig(m)])
    else c
  }

  /** `subscribe(topic)`: remembered once, and sent as a one-topic frame while connected. */
  function Subscribe(c: Conn, topic: string): (r: Conn)
    ensures topic in c.subscriptions ==> r == c
    ensures topic !in c.subscriptions ==>
              && r.subscriptions == c.subscriptions + [topic]
              && r == Send(c.(subscriptions := r.subscriptions), SubscribeCmd([topic]))
    ensures forall t :: t in r.subscriptions <==> t in c.subscriptions || t == topic
    ensures NoDup(c.subscriptions) ==> NoDup(r.subscriptions)
  {
    if topic in c.subscriptions then c
    else
      AppendNoDupIf(c.subscriptions, topic);
      var d := c.(subscriptions := c.subscriptions + [topic]);
      if c.connected then Send(d, SubscribeCmd([topic])) else d
  }

  lemma AppendNoDupIf(s: seq<string>, x: string)
    requires x !in s
    ensures NoDup(s) ==> NoDup(s + [x])
  {
    if NoDup(s) {
      AppendNoDup(s, x);
    }
  }

  /** `unsubscribe(topic)`: forgotten if present, and an unsubscribe frame sent while connected. */
  function Unsubscribe(c: Conn, topic: string): (r: Conn)
    ensures topic !in c.subscriptions ==> r == c
    ensures topic in c.subscriptions ==>
              && r.subscriptions == Remove(c.subscriptions, topic)
              && r == Send(c.(subscriptions := r.subscriptions), UnsubscribeCmd([topic]))
    ensures forall t :: t in r.subscriptions <==> t in c.subscriptions && t != topic
    ensures NoDup(c.subscriptions) ==> NoDup(r.subscriptions)
  {
    if topic !in c.subscriptions then c
    else
      RemoveNoDupIf(c.subscriptions, topic);
      var d := c.(subscriptions := Remove(c.subscriptions, topic));
      if c.connected then Send(d, UnsubscribeCmd([topic])) else d
  }

  lemma RemoveNoDupIf(s: seq<string>, x: string)
    ensures NoDup(s) ==> NoDup(Remove(s, x))
  {
    if NoDup(s) {
      RemoveNoDup(s, x);
    }
  }

  /** `close()`: the heartbeat stops and the socket starts closing with code 1000; reconnect timers stay. */
  function Close(c: Conn): (r: Conn)
    ensures !r.heartbeat && !r.pongPending
    ensures r.timers == c.timers && r.connected == c.connected && r.attempts == c.attempts
    ensures r.socket == (if c.socket == Closed then Closed else Closing)
  {
    StopPingPong(c).(socket := if c.socket == Closed then Closed else Closing)
  }

  /** One event. 'open' is only raised by a connecting socket and 'close' only by one not yet closed. */
  function Step(c: Conn, e: Event): (r: Conn)
    ensures e.OpenEv? && c.socket == Connecting ==> r == FinishOpen(Opened(c))
    ensures e.CloseEv? && c.socket != Closed ==> r == OnClose(c, e.code)
  {
    match e
    case OpenEv => if c.socket == Connecting then FinishOpen(Opened(c)) else c
    case CloseEv(code) => if c.socket != Closed then OnClose(c, code) else c
    case ErrorEv => c.(signals := c.signals + [ErrorSig])
    case MessageEv(m) => OnMessage(c, m)
    case ReconnectTimer(i) => OnReconnectTimer(c, i)
    case PingTick => OnPingTick(c)
    case PongTimeout => OnPongTimeout(c)
    case SubscribeEv(t) => Subscribe(c, t)
    case UnsubscribeEv(t) => Unsubscribe(c, t)
    case ManualClose => Close(c)
  }

  function Run(c: Conn, events: seq<Event>): Conn
    decreases |events|
  {
    if |events| == 0 then c else Run(Step(c, events[0]), events[1..])
  }

  // ---------------------------------------------------------------------
  // Properties

  /** Subscribing twice is subscribing once. */
  lemma SubscribeIdempotent(c: Conn, topic: string)
    ensures Subscribe(Subscribe(c, topic), topic) == Subscribe(c, topic)
  {
  }

  /** Unsubscribing a topic that was just added restores the subscription list. */
  lemma SubscribeThenUnsubscribe(c: Conn, topic: string)
    requires topic !in c.subscriptions
    ensures Unsubscribe(Subscribe(c, topic), topic).subscriptions == c.subscriptions
  {
    var s := c.subscriptions + [topic];
    assert Remove(s, topic) == Remove(c.subscriptions, topic) by {
      RemoveAppend(c.subscriptions, topic);
    }
  }

  lemma {:induction false} RemoveAppend(s: seq<string>, x: string)
    ensures Remove(s + [x], x) == Remove(s, x)
  {
    if |s| == 0 {
      assert Remove([x], x) == Remove([x][1..], x);
    } else {
      assert (s + [x])[1..] == s[1..] + [x];
      RemoveAppend(s[1..], x);
    }
  }

  /**
   * Opening replays the subscriptions in one frame: the outbox grows by
   * exactly one subscribe frame with every topic when there are topics, and
   * by nothing otherwise.
   */
  lemma OpenReplaysSubscriptions(c: Conn)
    requires c.socket == Connecting
    ensures var r := Step(c, OpenEv);
            && r.connected && r.socket == Open && r.attempts == 0 && r.heartbeat
            && r.subscriptions == c.subscriptions
            && r.outbox == c.outbox + (if |c.subscriptions| > 0 then [SubscribeCmd(c.subscriptions)] else [])
  {
  }

  /** Every frame is written on a connected, open socket, and frames are only ever appended. */
  lemma SendsOnlyWhenOpen(c: Conn, e: Event)
    ensures |Step(c, e).outbox| >= |c.outbox| && Step(c, e).outbox[..|c.outbox|] == c.outbox
    ensures |Step(c, e).outbox| > |c.outbox| ==> Step(c, e).connected && Step(c, e).socket == Open
  {
  }

  /** The attempt counter moves only when a reconnect timer expires (up by one) or a socket opens (back to 0). */
  lemma AttemptsChangeOnlyOnTimerOrOpen(c: Conn, e: Event)
    ensures !e.ReconnectTimer? && !e.OpenEv? ==> Step(c, e).attempts == c.attempts
    ensures e.ReconnectTimer? ==> Step(c, e).attempts == c.attempts || Step(c, e).attempts == c.attempts + 1
    ensures e.OpenEv? ==> Step(c, e).attempts == c.attempts || Step(c, e).attempts == 0
  {
  }

  /** Only `subscribe` and `unsubscribe` touch the subscription list; open, close and reconnect keep it. */
  lemma SubscriptionsChangeOnlyOnRequest(c: Conn, e: Event)
    ensures !e.SubscribeEv? && !e.UnsubscribeEv? ==> Step(c, e).subscriptions == c.subscriptions
  {
  }

  /** `close()` does not cancel a pending reconnect: the timer still fires and opens a new socket. */
  lemma CloseKeepsReconnectTimer(c: Conn)
    requires c.socket != Closed && c.attempts < MaxReconnectAttempts && c.timers == []
    ensures var r := Run(c, [CloseEv(1006), ManualClose, ReconnectTimer(0)]);
            && r.socket == Connecting && r.attempts == c.attempts + 1 && r.timers == []
  {
    var c1 := Step(c, CloseEv(1006));
    assert c1.timers == [Delay(c.attempts)];
    var c2 := Step(c1, ManualClose);
    assert c2.timers == c1.timers;
    var c3 := Step(c2, ReconnectTimer(0));
    assert Run(c, [CloseEv(1006), ManualClose, ReconnectTimer(0)]) == Run(c1, [ManualClose, ReconnectTimer(0)]);
    assert Run(c1, [ManualClose, ReconnectTimer(0)]) == Run(c2, [ReconnectTimer(0)]);
    assert Run(c2, [ReconnectTimer(0)]) == Run(c3, []);
  }

  /**
   * A missed pong: the tick sends a ping, the timeout terminates the
   * socket, and its abnormal close schedules a reconnect with the backoff
   * of the current attempt.
   */
  lemma MissedPongReconnects(c: Conn)
    requires c.connected && c.socket == Open && c.heartbeat && c.timers == []
    requires c.attempts < MaxReconnectAttempts
    ensures var r := Run(c, [PingTick, PongTimeout, CloseEv(1006)]);
            && !r.connected && r.socket == Closed && r.timers == [Delay(c.attempts)]
            && r.outbox == c.outbox + [PingCmd]
  {
    var c1 := Step(c, PingTick);
    var c2 := Step(c1, PongTimeout);
    var c3 := Step(c2, CloseEv(1006));
    assert Run(c, [PingTick, PongTimeout, CloseEv(1006)]) == Run(c1, [PongTimeout, CloseEv(1006)]);
    assert Run(c1, [PongTimeout, CloseEv(1006)]) == Run(c2, [CloseEv(1006)]);
    assert Run(c2, [CloseEv(1006)]) == Run(c3, []);
  }

  /**
   * What every reachable state satisfies: the subscriptions are distinct;
   * a live socket and pending reconnect timers never coexist, and there is
   * at most one timer; and a timer is only pending while attempts remain.
   */
  ghost predicate Inv(c: Conn) {
    && NoDup(c.subscriptions)
    && (if c.socket == Closed then 0 else 1) + |c.timers| <= 1
    && c.attempts <= MaxReconnectAttempts
    && (|c.timers| > 0 ==> c.attempts < MaxReconnectAttempts)
  }

  lemma InitInv()
    ensures Inv(Init())
  {
  }

  lemma StepInv(c: Conn, e: Event)
    requires Inv(c)
    ensures Inv(Step(c, e))
  {
    match e
    case ReconnectTimer(i) =>
      if i < |c.timers| {
        assert |c.timers| == 1 && c.socket == Closed;
        assert Step(c, e).timers == [];
      }
    case _ =>
  }

  lemma {:induction false} RunInv(c: Conn, events: seq<Event>)
    requires Inv(c)
    ensures Inv(Run(c, events))
    decreases |events|
  {
    if |events| > 0 {
      StepInv(c, events[0]);
      RunInv(Step(c, events[0]), events[1..]);
    }
  }

  /** From a fresh client, whatever happens, the attempt counter never passes 10. */
  lemma AttemptsNeverPassMax(events: seq<Event>)
    ensures Run(Init(), events).attempts <= MaxReconnectAttempts
    ensures NoDup(Run(Init(), events).subscriptions)
  {
    InitInv();
    RunInv(Init(), events);
  }
}

=== FILE: dashboard.dfy ===
/**
 * The dashboard server's own state (server.js): the selected symbol,
 * interval and network, the three stores it feeds, and the choreography
 * that keeps the stream client's subscriptions in step with the selection.
 */
module Dashboard {
  import opened Wrappers
  import opened Js
  import opened Strings
  import opened Lists
  import C = Connection
  import OrderBook
  import Kline
  import Liquidation

  /** What the server emits to browsers as a result of a request. */
  datatype Notice =
    | InvalidSymbol(symbol: string)
    | SymbolChanged(symbol: string)
    | IntervalChanged(interval: string)
    | TestnetChanged(testnet: bool)
    | Status(connected: bool, symbol: string, interval: string, testnet: bool)

  datatype Server = Server(
    client: C.Conn,
    symbol: string,
    interval: string,
    testnet: bool,
    books: OrderBook.Store,
    klines: Kline.Store,
    liquidations: Liquidation.Store)

  const InitialSymbol: string := "BTCUSDT"
  const InitialInterval: string := "5"
  const BookDepth: string := "50"

  /** The server as its constructor leaves it: a fresh client still connecting. */
  function Init(): (s: Server)
    ensures s.symbol == InitialSymbol && s.interval == InitialInterval && !s.testnet
    ensures s.client == C.Init() && s.books == map[] && s.klines == map[] && s.liquidations == map[]
  {
    Server(C.Init(), InitialSymbol, InitialInterval, false, map[], map[], map[])
  }

  // ---------------------------------------------------------------------
  // Symbol validation

  predicate UpperAlnum(c: char) {
    'A' <= c <= 'Z' || '0' <= c <= '9'
  }

  predicate EndsWith(s: string, suffix: string) {
    |suffix| <= |s| && s[|s| - |suffix|..] == suffix
  }

  /** The quote currencies the pattern accepts: `USDT?` and `USDC`. */
  predicate IsQuote(w: string) {
    w == "USD" || w == "USDT" || w == "USDC"
  }

  /**
   * The regular expression `^[A-Z0-9]{3,}USDT?$|^[A-Z0-9]{3,}USDC$|^[A-Z0-9]{3,}USD$`
   * read literally: a base of at least three upper-case letters or digits
   * followed by a quote currency.
   */
  ghost predicate MatchesPattern(s: string) {
    exists k :: 3 <= k <= |s| && IsQuote(s[k..]) && forall i :: 0 <= i < k ==> UpperAlnum(s[i])
  }

  /**
   * `isValidSymbol`: an empty string is rejected; otherwise every character
   * is an upper-case letter or digit (the quote's letters are too) and the
   * string ends with a quote after at least three more characters.
   */
  function IsValidSymbol(s: string): bool {
    && s != ""
    && (forall i :: 0 <= i < |s| ==> UpperAlnum(s[i]))
    && ((EndsWith(s, "USD") && |s| >= 6) || (EndsWith(s, "USDT") && |s| >= 7) || (EndsWith(s, "USDC") && |s| >= 7))
  }

  /** The check agrees with the regular expression on every string. */
  lemma ValidSymbolMatchesPattern(s: string)
    ensures IsValidSymbol(s) <==> MatchesPattern(s)
  {
    if IsValidSymbol(s) {
      ValidSymbolIsPattern(s);
    }
    if MatchesPattern(s) {
      PatternIsValidSymbol(s);
    }
  }

  lemma ValidSymbolIsPattern(s: string)
    requires IsValidSymbol(s)
    ensures MatchesPattern(s)
  {
    var k := if EndsWith(s, "USD") && |s| >= 6 then |s| - 3 else |s| - 4;
    assert IsQuote(s[k..]);
  }

  lemma PatternIsValidSymbol(s: string)
    requires MatchesPattern(s)
    ensures IsValidSymbol(s)
  {
    var k :| 3 <= k <= |s| && IsQuote(s[k..]) && forall i :: 0 <= i < k ==> UpperAlnum(s[i]);
    var w := s[k..];
    assert forall i :: 0 <= i < |s| ==> UpperAlnum(s[i]) by {
      QuoteIsUpperAlnum(w);
      forall i | k <= i < |s|
        ensures UpperAlnum(s[i])
      {
        assert s[i] == w[i - k];
      }
    }
    assert EndsWith(s, w) by {
      assert s[|s| - |w|..] == w;
    }
    if w == "USD" {
      assert EndsWith(s, "USD") && |s| >= 6;
    } else if w == "USDT" {
      assert EndsWith(s, "USDT") && |s| >= 7;
    } else {
      assert EndsWith(s, "USDC") && |s| >= 7;
    }
  }

  lemma QuoteIsUpperAlnum(w: string)
    requires IsQuote(w)
    ensures forall i :: 0 <= i < |w| ==> UpperAlnum(w[i])
  {
    if w == "USD" {
    } else if w == "USDT" {
    } else {
    }
  }

  /** A valid symbol never contains the topic separator. */
  lemma ValidSymbolHasNoDot(s: string)
    requires IsValidSymbol(s)
    ensures '.' !in s && |s| >= 6
  {
  }

  // ---------------------------------------------------------------------
  // Topics

  function BookTopic(symbol: string): string {
    "orderbook" + "." + BookDepth + "." + symbol
  }

  function KlineTopic(interval: string, symbol: string): string {
    "kline" + "." + interval + "." + symbol
  }

  function LiquidationTopic(symbol: string): string {
    "allLiquidation" + "." + symbol
  }

  /** The three topics the server subscribes for a selection, in subscription order. */
  function DataTopics(symbol: string, interval: string): seq<string> {
    [BookTopic(symbol), KlineTopic(interval, symbol), LiquidationTopic(symbol)]
  }

  /** The order-book topic of a valid symbol routes back to that symbol. */
  lemma BookTopicRoutes(symbol: string)
    requires IsValidSymbol(symbol)
    ensures StartsWith(BookTopic(symbol), OrderBook.TopicPrefix)
    ensures OrderBook.TopicSymbol(BookTopic(symbol)) == Some(symbol)
  {
    OrderBook.TopicRoutesSymbol(BookDepth, symbol);
  }

  /** The kline topic splits into the prefix, the interval and the symbol, when the interval has no dot. */
  lemma KlineTopicRoutes(interval: string, symbol: string)
    requires IsValidSymbol(symbol) && '.' !in interval
    ensures StartsWith(KlineTopic(interval, symbol), Kline.TopicPrefix)
    ensures Split(KlineTopic(interval, symbol), '.') == ["kline", interval, symbol]
  {
    assert KlineTopic(interval, symbol) == "kline" + ['.'] + interval + ['.'] + symbol;
    SplitThree("kline", interval, symbol, '.');
    assert KlineTopic(interval, symbol)[..|Kline.TopicPrefix|] == Kline.TopicPrefix;
  }

  /**
   * The interval is never validated: an interval holding a dot yields a
   * kline topic that splits into more than three parts, so the candles it
   * carries would be filed under the interval's first piece.
   */
  lemma DottedIntervalMisroutes()
    ensures Split(KlineTopic("1.5", "BTCUSDT"), '.') == ["kline", "1", "5", "BTCUSDT"]
  {
    var parts := ["kline", "1", "5", "BTCUSDT"];
    SplitJoin(parts, '.');
    assert Join(parts, '.') == KlineTopic("1.5", "BTCUSDT");
  }

  /** The liquidation topic splits into the prefix and the symbol. */
  lemma LiquidationTopicRoutes(symbol: string)
    requires IsValidSymbol(symbol)
    ensures StartsWith(LiquidationTopic(symbol), Liquidation.TopicPrefix)
    ensures Split(LiquidationTopic(symbol), '.') == ["allLiquidation", symbol]
  {
    assert LiquidationTopic(symbol) == "allLiquidation" + ['.'] + symbol;
    SplitTwo("allLiquidation", symbol, '.');
    assert LiquidationTopic(symbol)[..|Liquidation.TopicPrefix|] == Liquidation.TopicPrefix;
  }

  /** The three topics of a selection are distinct. */
  lemma DataTopicsDistinct(symbol: string, interval: string)
    ensures NoDup(DataTopics(symbol, interval))
  {
    var t := DataTopics(symbol, interval);
    assert t[0][0] == 'o' && t[1][0] == 'k' && t[2][0] == 'a';
  }

  // ---------------------------------------------------------------------
  // Subscription choreography

  /** The client subscribed to each topic in turn. */
  function SubscribeAll(c: C.Conn, topics: seq<string>): (r: C.Conn)
    ensures forall t :: t in r.subscriptions <==> t in c.subscriptions || t in topics
    ensures NoDup(c.subscriptions) ==> NoDup(r.subscriptions)
    ensures r.connected == c.connected && r.socket == c.socket && r.attempts == c.attempts
    ensures r.timers == c.timers && r.heartbeat == c.heartbeat
    decreases |topics|
  {
    if |topics| == 0 then c else SubscribeAll(C.Subscribe(c, topics[0]), topics[1..])
  }

  /** The client unsubscribed from each topic in turn. */
  function UnsubscribeAll(c: C.Conn, topics: seq<string>): (r: C.Conn)
    ensures forall t :: t in r.subscriptions <==> t in c.subscriptions && t !in topics
    ensures NoDup(c.subscriptions) ==> NoDup(r.subscriptions)
    ensures r.connected == c.connected && r.socket == c.socket && r.attempts == c.attempts
    ensures r.timers == c.timers && r.heartbeat == c.heartbeat
    decreases |topics|
  {
    if |topics| == 0 then c else UnsubscribeAll(C.Unsubscribe(c, topics[0]), topics[1..])
  }

  /** `subscribeToData`: the selection's three topics, only while the client is connected. */
  function SubscribeToData(s: Server): (r: Server)
    ensures !s.client.connected ==> r == s
    ensures r == s.(client := r.client)
    ensures s.client.connected ==>
              forall t :: t in r.client.subscriptions <==>
                          t in s.client.subscriptions || t in DataTopics(s.symbol, s.interval)
  {
    if s.client.connected then s.(client := SubscribeAll(s.client, DataTopics(s.symbol, s.interval))) else s
  }

  /**
   * `unsubscribeFromData(symbol, interval)`: the three topics of the given
   * selection, each argument defaulting (when absent or empty) to the
   * current one, only while the client is connected.
   */
  function UnsubscribeFromData(s: Server, symbol: Option<string>, interval: Option<string>): (r: Server)
    ensures !s.client.connected ==> r == s
    ensures r == s.(client := r.client)
    ensures s.client.connected ==>
              forall t :: t in r.client.subscriptions <==>
                          t in s.client.subscriptions
                          && t !in DataTopics(OrStr(symbol, s.symbol), OrStr(interval, s.interval))
  {
    if s.client.connected then
      s.(client := UnsubscribeAll(s.client, DataTopics(OrStr(symbol, s.symbol), OrStr(interval, s.interval))))
    else s
  }

  function StatusOf(s: Server): Notice {
    Status(s.client.connected, s.symbol, s.interval, s.testnet)
  }

  /**
   * `changeSymbol`: nothing for the current symbol; an error notice and no
   * change for an invalid one; otherwise the old topics go, the new
   * symbol's stored data is cleared, and its topics are subscribed.
   */
  function ChangeSymbol(s: Server, symbol: string): (r: (Server, seq<Notice>))
    ensures symbol == s.symbol ==> r == (s, [])
    ensures symbol != s.symbol && !IsValidSymbol(symbol) ==> r == (s, [InvalidSymbol(symbol)])
    ensures symbol != s.symbol && IsValidSymbol(symbol) ==>
              && r.0.symbol == symbol && r.0.interval == s.interval && r.0.testnet == s.testnet
              && r.0.books == OrderBook.Clear(s.books, symbol)
              && r.0.klines == Kline.Clear(s.klines, symbol, "")
              && r.0.liquidations == Liquidation.Clear(s.liquidations, symbol)
              && r.1 == [SymbolChanged(symbol), StatusOf(r.0)]
  {
    if symbol == s.symbol then (s, [])
    else if !IsValidSymbol(symbol) then (s, [InvalidSymbol(symbol)])
    else
      var s1 := UnsubscribeFromData(s, None, None);
      var s2 := s1.(symbol := symbol,
                    books := OrderBook.Clear(s1.books, symbol),
                    klines := Kline.Clear(s1.klines, symbol, ""),
                    liquidations := Liquidation.Clear(s1.liquidations, symbol));
      var s3 := SubscribeToData(s2);
      (s3, [SymbolChanged(symbol), StatusOf(s3)])
  }

  /** A valid symbol change while connected swaps the old selection's three topics for the new one's. */
  lemma ChangeSymbolSwapsTopics(s: Server, symbol: string)
    requires symbol != s.symbol && IsValidSymbol(symbol) && s.client.connected
    ensures var r := ChangeSymbol(s, symbol).0;
            forall t :: t in r.client.subscriptions <==>
                        (t in s.client.subscriptions && t !in DataTopics(s.symbol, s.interval))
                        || t in DataTopics(symbol, s.interval)
  {
  }

  /** While the client is disconnected a symbol change leaves the subscriptions alone, old topics included. */
  lemma ChangeSymbolOfflineKeepsTopics(s: Server, symbol: string)
    requires !s.client.connected
    ensures ChangeSymbol(s, symbol).0.client == s.client
  {
  }

  /** After a valid change nothing is stored for the new symbol, and other symbols keep their data. */
  lemma ChangeSymbolClearsNewSymbol(s: Server, symbol: string)
    requires symbol != s.symbol && IsValidSymbol(symbol)
    ensures var r := ChangeSymbol(s, symbol).0;
            && symbol !in r.books && symbol !in r.liquidations
            && (forall k :: k in r.klines ==> !StartsWith(k, symbol + "_"))
            && (forall k :: k in s.books && k != symbol ==> k in r.books && r.books[k] == s.books[k])
            && (forall k :: k in s.liquidations && k != symbol ==> k in r.liquidations && r.liquidations[k] == s.liquidations[k])
  {
  }

  /**
   * `changeInterval`: nothing for the current interval; otherwise, while
   * connected, only the kline topic is swapped; the interval is taken
   * as given, and its candles for the current symbol are cleared.
   */
  function ChangeInterval(s: Server, interval: string): (r: (Server, seq<Notice>))
    ensures interval == s.interval ==> r == (s, [])
    ensures interval != s.interval ==>
              && r.0.interval == interval && r.0.symbol == s.symbol && r.0.testnet == s.testnet
              && r.0.books == s.books && r.0.liquidations == s.liquidations
              && r.0.klines == Kline.Clear(s.klines, s.symbol, interval)
              && r.1 == [IntervalChanged(interval), StatusOf(r.0)]
    ensures interval != s.interval && !s.client.connected ==> r.0.client == s.client
    ensures interval != s.interval && s.client.connected ==>
              forall t :: t in r.0.client.subscriptions <==>
                          (t in s.client.subscriptions && t != KlineTopic(s.interval, s.symbol))
                          || t == KlineTopic(interval, s.symbol)
  {
    if interval == s.interval then (s, [])
    else
      var c1 := if s.client.connected then C.Unsubscribe(s.client, KlineTopic(s.interval, s.symbol)) else s.client;
      var s1 := s.(client := c1, interval := interval,
                   klines := Kline.Clear(s.klines, s.symbol, interval));
      var s2 := if s1.client.connected then s1.(client := C.Subscribe(s1.client, KlineTopic(interval, s.symbol))) else s1;
      (s2, [IntervalChanged(interval), StatusOf(s2)])
  }

  /** Only the candles of the current symbol and the new interval are dropped. */
  lemma ChangeIntervalClearsOneSeries(s: Server, interval: string)
    requires interval != s.interval && interval != "" && s.symbol != ""
    ensures var r := ChangeInterval(s, interval).0;
            && Kline.Key(s.symbol, interval) !in r.klines
            && forall k :: k in s.klines && k != Kline.Key(s.symbol, interval) ==> k in r.klines && r.klines[k] == s.klines[k]
  {
  }

  /**
   * `toggleTestnet`: nothing for the current network; otherwise every store
   * is emptied and the old client is closed and replaced by a new one,
   * which has no subscriptions yet.
   */
  function ToggleTestnet(s: Server, testnet: bool): (r: (Server, seq<Notice>))
    ensures testnet == s.testnet ==> r == (s, [])
    ensures testnet != s.testnet ==>
              && r.0.testnet == testnet && r.0.symbol == s.symbol && r.0.interval == s.interval
              && r.0.books == map[] && r.0.klines == map[] && r.0.liquidations == map[]
              && r.0.client == C.Init()
              && r.1 == [TestnetChanged(testnet)]
  {
    if testnet == s.testnet then (s, [])
    else
      var s1 := s.(testnet := testnet,
                   books := OrderBook.Clear(s.books, ""),
                   klines := Kline.Clear(s.klines, "", ""),
                   liquidations := Liquidation.Clear(s.liquidations, ""));
      (s1.(client := C.Init()), [TestnetChanged(testnet)])
  }

  // ---------------------------------------------------------------------
  // The client's open event, with the server's 'connected' listener

  /**
   * The client's `onOpen` with the server's listener run where the
   * 'connected' event fires: connected first, then the selection's topics
   * subscribed one by one, then the heartbeat and the replay of every topic.
   */
  function ClientOpened(s: Server): (r: Server)
    requires s.client.socket == C.Connecting
    ensures r.client.connected && r.client.socket == C.Open && r.client.attempts == 0
    ensures forall t :: t in r.client.subscriptions <==>
                        t in s.client.subscriptions || t in DataTopics(s.symbol, s.interval)
    ensures r == s.(client := r.client)
  {
    var s1 := s.(client := C.Opened(s.client));
    var subscribed := SubscribeToData(s1);
    subscribed.(client := C.FinishOpen(subscribed.client))
  }

  /** Any client event: the open event runs the server's listener, the rest are the client's alone. */
  function ClientEvent(s: Server, e: C.Event): (r: Server)
    ensures e.OpenEv? && s.client.socket == C.Connecting ==> r == ClientOpened(s)
    ensures !(e.OpenEv? && s.client.socket == C.Connecting) ==> r == s.(client := C.Step(s.client, e))
  {
    if e.OpenEv? && s.client.socket == C.Connecting then ClientOpened(s)
    else s.(client := C.Step(s.client, e))
  }

  /**
   * On a fresh client's first open every topic is written twice: once in
   * its own subscribe frame from the listener, and again in the replay
   * frame that carries all three.
   */
  lemma FirstOpenSendsTopicsTwice(s: Server)
    requires s.client == C.Init()
    ensures var r := ClientOpened(s);
            var t := DataTopics(s.symbol, s.interval);
            && r.client.subscriptions == t
            && r.client.outbox == [C.SubscribeCmd([t[0]]), C.SubscribeCmd([t[1]]), C.SubscribeCmd([t[2]]), C.SubscribeCmd(t)]
  {
    var t := DataTopics(s.symbol, s.interval);
    DataTopicsDistinct(s.symbol, s.interval);
    SubscribeEachOnce(C.Opened(s.client), t);
  }

  /** Subscribing a fresh open client to distinct topics sends one frame per topic, in order. */
  lemma SubscribeEachOnce(c: C.Conn, t: seq<string>)
    requires c.connected && c.socket == C.Open && c.subscriptions == []
    requires |t| == 3 && NoDup(t)
    ensures SubscribeAll(c, t).subscriptions == t
    ensures SubscribeAll(c, t).outbox == c.outbox + [C.SubscribeCmd([t[0]]), C.SubscribeCmd([t[1]]), C.SubscribeCmd([t[2]])]
  {
    var c1 := C.Subscribe(c, t[0]);
    var c2 := C.Subscribe(c1, t[1]);
    var c3 := C.Subscribe(c2, t[2]);
    assert c3.subscriptions == t;
    assert SubscribeAll(c, t) == c3 by {
      assert SubscribeAll(c3, []) == c3;
      assert t[2..] == [t[2]] && t[2..][1..] == [];
      assert SubscribeAll(c2, t[2..]) == c3;
      assert t[1..][1..] == t[2..];
      assert SubscribeAll(c1, t[1..]) == c3;
    }
  }

  /** After switching networks and opening the new client, exactly the current topics are subscribed. */
  lemma ToggleThenOpenSubscribesSelection(s: Server, testnet: bool)
    requires testnet != s.testnet
    ensures var r := ClientEvent(ToggleTestnet(s, testnet).0, C.OpenEv);
            && r.client.connected
            && (forall t :: t in r.client.subscriptions <==> t in DataTopics(s.symbol, s.interval))
            && r.testnet == testnet && r.books == map[] && r.klines == map[] && r.liquidations == map[]
  {
  }

  /**
   * A symbol changed while the client was down leaves the old symbol's
   * topics in the set, so the next open replays them alongside the new ones.
   */
  lemma OfflineChangeReplaysOldTopics(s: Server, symbol: string)
    requires s.client.socket == C.Connecting && !s.client.connected
    requires symbol != s.symbol && IsValidSymbol(symbol)
    requires forall t :: t in DataTopics(s.symbol, s.interval) ==> t in s.client.subscriptions
    ensures var r := ClientEvent(ChangeSymbol(s, symbol).0, C.OpenEv);
            && (forall t :: t in DataTopics(s.symbol, s.interval) ==> t in r.client.subscriptions)
            && (forall t :: t in DataTopics(symbol, s.interval) ==> t in r.client.subscriptions)
  {
  }
}

=== FILE: js.dfy ===
/**
 * The few JavaScript semantics the stores lean on: the `x || fallback`
 * idiom on numbers and strings, and `Array.prototype.slice` with a
 * negative start. Wire values arrive already parsed; an absent field is
 * `None`.
 */
module Js {
  import opened Wrappers

  /** `x || fallback` on a number: an absent field and `0` are both falsy. */
  function OrInt(x: Option<int>, fallback: int): (r: int)
    ensures r == fallback || (x.Some? && r == x.value)
    ensures x.Some? && x.value != 0 ==> r == x.value
    ensures x.None? || x.value == 0 ==> r == fallback
  {
    if x.Some? && x.value != 0 then x.value else fallback
  }

  /** `x || fallback` on a string: an absent field and `''` are both falsy. */
  function OrStr(x: Option<string>, fallback: string): (r: string)
    ensures x.Some? && x.value != "" ==> r == x.value
    ensures x.None? || x.value == "" ==> r == fallback
  {
    if x.Some? && x.value != "" then x.value else fallback
  }

  function Min(a: int, b: int): int {
    if a <= b then a else b
  }

  /** The last `n` elements of `s` (all of `s` when it is shorter). */
  function TakeLast<T>(s: seq<T>, n: nat): (r: seq<T>)
    ensures |r| == Min(n, |s|)
    ensures r == s[|s| - |r|..]
  {
    s[|s| - Min(n, |s|)..]
  }

  /**
   * `s.slice(start)`: a negative start counts from the end and is clamped
   * at 0, a start beyond the end gives the empty sequence.
   */
  function SliceFrom<T>(s: seq<T>, start: int): (r: seq<T>)
    ensures start < 0 ==> r == TakeLast(s, -start)
    ensures 0 <= start <= |s| ==> r == s[start..]
    ensures start > |s| ==> r == []
  {
    var b := if start < 0 then (if |s| + start < 0 then 0 else |s| + start)
             else if start > |s| then |s| else start;
    s[b..]
  }

  /** `s.slice(-limit)`, the idiom the stores use for "the last `limit` items". */
  lemma SliceLastLimit<T>(s: seq<T>, limit: int)
    ensures limit > 0 ==> SliceFrom(s, -limit) == TakeLast(s, limit)
    ensures limit == 0 ==> SliceFrom(s, -limit) == s
    ensures limit < 0 ==> SliceFrom(s, -limit) == (if -limit <= |s| then s[-limit..] else [])
  {
  }
}

=== FILE: kline.dfy ===
/**
 * The candle store (src/kline-manager.js): for every `symbol_interval`
 * key, a history of at most 100 candles (oldest first) and the live,
 * not yet confirmed candle.
 *
 * The store behaves as the code is written, not as an idealised series:
 * a live candle is kept as `current` AND written into the history, and a
 * confirmed candle that does not match the live one is appended without
 * looking for an entry with the same start, so a repeated confirm stores
 * the same start twice.
 */
module Kline {
  import opened Wrappers
  import opened Js
  import opened Strings

  /** One element of a kline message's `data` array, numbers already parsed. */
  datatype RawCandle = RawCandle(start: int, end: int, interval: string,
                                 open: real, close: real, high: real, low: real,
                                 volume: real, turnover: real,
                                 confirm: bool, timestamp: Option<int>)

  datatype Direction = Bull | Bear

  datatype Candle = Candle(start: int, end: int, interval: string,
                           open: real, close: real, high: real, low: real,
                           volume: real, turnover: real,
                           confirmed: bool, timestamp: int)
  {
    /** `status`: closed once confirmed, updating before. */
    function Status(): string {
      if confirmed then "closed" else "updating"
    }

    /** `change`: how far the close moved from the open. */
    function Change(): real {
      close - open
    }

    /** `direction`: bull when the candle closed at or above its open. */
    function Direction(): (d: Direction)
      ensures d == Bull <==> close >= open
      ensures open + Change() == close
    {
      if close >= open then Bull else Bear
    }
  }

  /** The whole state of one key. */
  datatype Series = Series(candles: seq<Candle>, current: Option<Candle>)

  /** What `handleKlineUpdate` emits: the candle and the last 50 of the history. */
  datatype Update = Update(symbol: string, interval: string, candle: Candle,
                           isConfirmed: bool, allCandles: seq<Candle>)

  /** A kline message; a missing topic is the empty string, a missing or non-array `data` is `None`. */
  datatype Message = Message(topic: string, data: Option<seq<RawCandle>>)

  /** What `getKlineData` returns for a known key. */
  datatype View = View(candles: seq<Candle>, current: Option<Candle>,
                       candleCount: nat, lastUpdate: Option<int>)

  type Store = map<string, Series>

  const TopicPrefix: string := "kline."
  const MaxCandles: nat := 100
  const EmittedCandles: nat := 50

  /** The store key `${symbol}_${interval}`. */
  function Key(symbol: string, interval: string): string {
    symbol + "_" + interval
  }

  lemma KeyShape(symbol: string, interval: string)
    ensures Key(symbol, interval)[|symbol|] == '_'
    ensures '_' !in symbol ==> forall j :: 0 <= j < |symbol| ==> Key(symbol, interval)[j] != '_'
  {
  }

  /** Symbols never contain `_`, and then the key determines symbol and interval. */
  lemma KeyInjective(s1: string, i1: string, s2: string, i2: string)
    requires '_' !in s1 && '_' !in s2
    requires Key(s1, i1) == Key(s2, i2)
    ensures s1 == s2 && i1 == i2
  {
    var k1, k2 := Key(s1, i1), Key(s2, i2);
    KeyShape(s1, i1);
    KeyShape(s2, i2);
    if |s1| < |s2| {
      assert false;
    } else if |s2| < |s1| {
      assert false;
    }
    assert s1 == k1[..|s1|] == k2[..|s2|] == s2;
    assert i1 == k1[|s1| + 1..] == k2[|s2| + 1..] == i2;
  }

  /** `formatKlineData`: the numbers as sent, and the receive time when the message carries no timestamp. */
  function Format(raw: RawCandle, now: int): (c: Candle)
    ensures c.start == raw.start && c.confirmed == raw.confirm
    ensures c.open == raw.open && c.close == raw.close
    ensures c.timestamp == OrInt(raw.timestamp, now)
  {
    Candle(raw.start, raw.end, raw.interval, raw.open, raw.close, raw.high, raw.low,
           raw.volume, raw.turnover, raw.confirm, OrInt(raw.timestamp, now))
  }

  // ---------------------------------------------------------------------
  // The history

  /** `findIndex(c => c.start === start)`: the first candle with that start. */
  function FindStart(candles: seq<Candle>, start: int): (r: Option<nat>)
    ensures r.None? <==> forall j :: 0 <= j < |candles| ==> candles[j].start != start
    ensures r.Some? ==> r.value < |candles| && candles[r.value].start == start
                        && forall j :: 0 <= j < r.value ==> candles[j].start != start
  {
    if |candles| == 0 then None
    else if candles[0].start == start then Some(0)
    else
      match FindStart(candles[1..], start)
      case None => None
      case Some(i) => Some(i + 1)
  }

  /** Keeps the newest 100 candles, dropping from the oldest end only. */
  function Trim(candles: seq<Candle>): (r: seq<Candle>)
    ensures |r| <= MaxCandles
    ensures r == TakeLast(candles, MaxCandles)
  {
    if |candles| > MaxCandles then candles[|candles| - MaxCandles..] else candles
  }

  /** The number of candles in the history with the given start. */
  function CountStart(candles: seq<Candle>, start: int): nat {
    if |candles| == 0 then 0
    else (if candles[0].start == start then 1 else 0) + CountStart(candles[1..], start)
  }

  /**
   * A confirmed candle. If it has the live candle's start it replaces the
   * first history entry with that start (or is appended when there is none)
   * and the live candle is cleared; otherwise it is appended and the live
   * candle stays. Either way the history is then cut to the newest 100.
   */
  function ApplyConfirmed(s: Series, c: Candle): (r: Series)
    ensures |r.candles| <= MaxCandles
    ensures s.current.Some? && s.current.value.start == c.start ==>
              && r.current.None?
              && match FindStart(s.candles, c.start)
                 case Some(i) => r.candles == Trim(s.candles[i := c])
                 case None => r.candles == Trim(s.candles + [c])
    ensures !(s.current.Some? && s.current.value.start == c.start) ==>
              r.current == s.current && r.candles == TakeLast(s.candles + [c], MaxCandles)
  {
    if s.current.Some? && s.current.value.start == c.start then
      match FindStart(s.candles, c.start)
      case Some(i) => Series(Trim(s.candles[i := c]), None)
      case None => Series(Trim(s.candles + [c]), None)
    else
      Series(Trim(s.candles + [c]), s.current)
  }

  /**
   * A live (unconfirmed) candle becomes the current candle and also
   * replaces the first history entry with its start, or is appended (and
   * the history cut to the newest 100) when there is none.
   */
  function ApplyLive(s: Series, c: Candle): (r: Series)
    ensures r.current == Some(c)
    ensures match FindStart(s.candles, c.start)
            case Some(i) => r.candles == s.candles[i := c]
            case None => r.candles == TakeLast(s.candles + [c], MaxCandles)
    ensures |s.candles| <= MaxCandles ==> |r.candles| <= MaxCandles
  {
    match FindStart(s.candles, c.start)
    case Some(i) => Series(s.candles[i := c], Some(c))
    case None => Series(Trim(s.candles + [c]), Some(c))
  }

  // ---------------------------------------------------------------------
  // The store

  /** Every history holds at most 100 candles. */
  ghost predicate Bounded(store: Store) {
    forall k :: k in store ==> |store[k].candles| <= MaxCandles
  }

  /** A confirmed candle goes through `ApplyConfirmed`, a live one through `ApplyLive`. */
  function ApplyCandle(s: Series, c: Candle): (r: Series)
    ensures c.confirmed && s.current.Some? && s.current.value.start == c.start ==> r.current.None?
    ensures !c.confirmed ==> r.current == Some(c)
    ensures |s.candles| <= MaxCandles ==> |r.candles| <= MaxCandles
  {
    if c.confirmed then ApplyConfirmed(s, c) else ApplyLive(s, c)
  }

  /** Whatever the state, the candle just applied is in the (bounded) history afterwards. */
  lemma AppliedCandleIsStored(s: Series, c: Candle)
    requires |s.candles| <= MaxCandles
    ensures c in ApplyCandle(s, c).candles
  {
    var r := ApplyCandle(s, c);
    if c.confirmed && s.current.Some? && s.current.value.start == c.start {
      match FindStart(s.candles, c.start)
      case Some(i) =>
        assert r.candles[i] == c;
      case None =>
        assert r.candles[|r.candles| - 1] == c;
    } else if c.confirmed {
      assert r.candles[|r.candles| - 1] == c;
    } else {
      match FindStart(s.candles, c.start)
      case Some(i) =>
        assert r.candles[i] == c;
      case None =>
        assert r.candles[|r.candles| - 1] == c;
    }
  }

  /** The state of a key, or the empty series `handleKlineUpdate` creates for a new key. */
  function SeriesOf(store: Store, key: string): Series {
    if key in store then store[key] else Series([], None)
  }

  /**
   * `handleKlineUpdate`: applies one candle to the key's series (created
   * empty on first use) and returns the update it emits, whose history is
   * the newest 50 candles.
   */
  function HandleUpdate(store: Store, symbol: string, interval: string, raw: RawCandle, now: int): (r: (Store, Update))
    ensures Key(symbol, interval) in r.0
    ensures forall k :: k != Key(symbol, interval) ==>
              (k in r.0 <==> k in store) && (k in store ==> r.0[k] == store[k])
    ensures r.0[Key(symbol, interval)] == ApplyCandle(SeriesOf(store, Key(symbol, interval)), Format(raw, now))
    ensures r.1.candle == Format(raw, now) && r.1.isConfirmed == raw.confirm
    ensures r.1.symbol == symbol && r.1.interval == interval
    ensures r.1.allCandles == TakeLast(r.0[Key(symbol, interval)].candles, EmittedCandles)
  {
    var key := Key(symbol, interval);
    var c := Format(raw, now);
    var next := ApplyCandle(SeriesOf(store, key), c);
    var st := store[key := next];
    (st, Update(symbol, interval, c, raw.confirm, TakeLast(next.candles, EmittedCandles)))
  }

  /** No key's history ever grows past 100 candles. */
  lemma HandleUpdateBounded(store: Store, symbol: string, interval: string, raw: RawCandle, now: int)
    requires Bounded(store)
    ensures Bounded(HandleUpdate(store, symbol, interval, raw, now).0)
    ensures |HandleUpdate(store, symbol, interval, raw, now).1.allCandles| <= EmittedCandles
  {
    var key := Key(symbol, interval);
    var r := HandleUpdate(store, symbol, interval, raw, now);
    assert |SeriesOf(store, key).candles| <= MaxCandles;
    assert |r.0[key].candles| <= MaxCandles;
    forall k | k in r.0
      ensures |r.0[k].candles| <= MaxCandles
    {
      if k != key {
        assert r.0[k] == store[k];
      }
    }
  }

  /**
   * `processMessage`: only `kline.<interval>.<symbol>` topics (at least
   * three dot-separated parts) with a non-empty `data` array are acted on,
   * and only their first candle is used.
   */
  function ProcessMessage(store: Store, msg: Message, now: int): (r: (Store, Option<Update>))
    ensures r.1.None? ==> r.0 == store
    ensures r.1.Some? <==>
              && StartsWith(msg.topic, TopicPrefix)
              && |Split(msg.topic, '.')| >= 3
              && msg.data.Some? && |msg.data.value| > 0
    ensures r.1.Some? ==>
              var parts := Split(msg.topic, '.');
              var (s, u) := HandleUpdate(store, parts[2], parts[1], msg.data.value[0], now);
              r.0 == s && r.1 == Some(u)
  {
    if !StartsWith(msg.topic, TopicPrefix) then (store, None)
    else
      var parts := Split(msg.topic, '.');
      if |parts| < 3 then (store, None)
      else if msg.data.None? || |msg.data.value| == 0 then (store, None)
      else
        var (s, u) := HandleUpdate(store, parts[2], parts[1], msg.data.value[0], now);
        (s, Some(u))
  }

  /** Processing any message keeps every history within 100 candles. */
  lemma ProcessMessageBounded(store: Store, msg: Message, now: int)
    requires Bounded(store)
    ensures Bounded(ProcessMessage(store, msg, now).0)
  {
    var r := ProcessMessage(store, msg, now);
    if r.1.Some? {
      var parts := Split(msg.topic, '.');
      HandleUpdateBounded(store, parts[2], parts[1], msg.data.value[0], now);
    }
  }

  /**
   * `getKlineData(symbol, interval, limit)`: `None` for an unknown key;
   * otherwise `history.slice(-limit)` and the live candle. A positive
   * limit gives the newest `limit` candles, and a limit of 0 gives the
   * whole history, as `slice(-0)` does.
   */
  function GetKlineData(store: Store, symbol: string, interval: string, limit: int): (r: Option<View>)
    ensures r.None? <==> Key(symbol, interval) !in store
    ensures r.Some? ==>
              var series := store[Key(symbol, interval)];
              && r.value.current == series.current
              && (limit > 0 ==> r.value.candles == TakeLast(series.candles, limit))
              && (limit == 0 ==> r.value.candles == series.candles)
              && r.value.candleCount == |r.value.candles|
              && (r.value.lastUpdate.Some? <==> |r.value.candles| > 0)
              && (|r.value.candles| > 0 ==>
                    |series.candles| > 0 && r.value.lastUpdate == Some(series.candles[|series.candles| - 1].timestamp))
  {
    var key := Key(symbol, interval);
    if key !in store then None
    else
      var series := store[key];
      var candles := SliceFrom(series.candles, -limit);
      SliceLastLimit(series.candles, limit);
      Some(View(candles, series.current, |candles|,
                if |candles| > 0 then Some(candles[|candles| - 1].timestamp) else None))
  }

  /** `getLatestCandle`: the live candle if there is one, else the newest in the history, else nothing. */
  function GetLatestCandle(store: Store, symbol: string, interval: string): (r: Option<Candle>)
    ensures Key(symbol, interval) !in store ==> r.None?
    ensures Key(symbol, interval) in store ==>
              var series := store[Key(symbol, interval)];
              && (series.current.Some? ==> r == series.current)
              && (series.current.None? && |series.candles| > 0 ==> r == Some(series.candles[|series.candles| - 1]))
              && (series.current.None? && |series.candles| == 0 ==> r.None?)
  {
    var key := Key(symbol, interval);
    if key !in store then None
    else
      var series := store[key];
      if series.current.Some? then series.current
      else if |series.candles| > 0 then Some(series.candles[|series.candles| - 1])
      else None
  }

  /**
   * `clear(symbol, interval)`. Both given: that one key goes. Only the
   * symbol: every key starting with `symbol_` goes. Neither: everything
   * goes. An empty string counts as not given, as it is falsy.
   */
  function Clear(store: Store, symbol: string, interval: string): (r: Store)
    ensures symbol != "" && interval != "" ==> r == store - {Key(symbol, interval)}
    ensures symbol != "" && interval == "" ==>
              forall k :: (k in r <==> k in store && !StartsWith(k, symbol + "_"))
                          && (k in r ==> r[k] == store[k])
    ensures symbol == "" ==> r == map[]
    ensures Bounded(store) ==> Bounded(r)
  {
    if symbol != "" && interval != "" then store - {Key(symbol, interval)}
    else if symbol != "" then map k | k in store && !StartsWith(k, symbol + "_") :: store[k]
    else map[]
  }

  // ---------------------------------------------------------------------
  // Properties of the history

  lemma {:induction false} CountStartAppend(s: seq<Candle>, c: Candle, t: int)
    ensures CountStart(s + [c], t) == CountStart(s, t) + (if c.start == t then 1 else 0)
  {
    if |s| > 0 {
      assert (s + [c])[1..] == s[1..] + [c];
      CountStartAppend(s[1..], c, t);
    }
  }

  lemma {:induction false} CountStartReplace(s: seq<Candle>, i: nat, c: Candle, t: int)
    requires i < |s| && s[i].start == c.start
    ensures CountStart(s[i := c], t) == CountStart(s, t)
  {
    if i > 0 {
      assert s[i := c][1..] == s[1..][i - 1 := c];
      CountStartReplace(s[1..], i - 1, c, t);
    }
  }

  lemma {:induction false} CountStartSuffix(s: seq<Candle>, k: nat, t: int)
    requires k <= |s|
    ensures CountStart(s[k..], t) <= CountStart(s, t)
  {
    if k > 0 {
      assert s[k..] == s[1..][k - 1..];
      CountStartSuffix(s[1..], k - 1, t);
    }
  }

  lemma {:induction false} CountStartPositive(s: seq<Candle>, j: nat, t: int)
    requires j < |s| && s[j].start == t
    ensures CountStart(s, t) >= 1
  {
    if j > 0 {
      CountStartPositive(s[1..], j - 1, t);
    }
  }

  lemma {:induction false} CountStartZero(s: seq<Candle>, t: int)
    requires forall j :: 0 <= j < |s| ==> s[j].start != t
    ensures CountStart(s, t) == 0
  {
    if |s| > 0 {
      CountStartZero(s[1..], t);
    }
  }

  /**
   * Promotion: when a confirmed candle arrives for the live candle's start
   * and the history held that start at most once, afterwards it holds it
   * exactly once and there is no live candle.
   */
  lemma PromotionLeavesOneEntry(s: Series, c: Candle)
    requires s.current.Some? && s.current.value.start == c.start
    requires |s.candles| <= MaxCandles
    requires CountStart(s.candles, c.start) <= 1
    ensures ApplyConfirmed(s, c).current.None?
    ensures CountStart(ApplyConfirmed(s, c).candles, c.start) == 1
  {
    var r := ApplyConfirmed(s, c);
    match FindStart(s.candles, c.start)
    case Some(i) =>
      CountStartReplace(s.candles, i, c, c.start);
      CountStartPositive(s.candles, i, c.start);
    case None =>
      CountStartZero(s.candles, c.start);
      var t := s.candles + [c];
      CountStartAppend(s.candles, c, c.start);
      CountStartSuffix(t, |t| - |r.candles|, c.start);
      CountStartPositive(r.candles, |r.candles| - 1, c.start);
  }

  /**
   * As written, a confirm that does not match the live candle is appended
   * unconditionally: confirming the same candle twice stores its start
   * twice.
   */
  lemma RepeatedConfirmDuplicatesStart(c: Candle)
    ensures ApplyConfirmed(ApplyConfirmed(Series([], Some(c)), c), c).candles == [c, c]
    ensures CountStart(ApplyConfirmed(ApplyConfirmed(Series([], Some(c)), c), c).candles, c.start) == 2
  {
    var first := ApplyConfirmed(Series([], Some(c)), c);
    assert first == Series([c], None) by {
      assert FindStart([], c.start).None?;
      assert [] + [c] == [c];
    }
    var second := ApplyConfirmed(first, c);
    assert second.candles == [c, c] by {
      assert [c] + [c] == [c, c];
    }
    assert CountStart([c, c], c.start) == 2 by {
      assert [c] + [c] == [c, c] && [] + [c] == [c];
      CountStartAppend([], c, c.start);
      CountStartAppend([c], c, c.start);
    }
  }

  /** A history whose newest entry alone has a start finds it there, and holds it once. */
  lemma OnlyNewestHasStart(m: seq<Candle>, t: int)
    requires |m| > 0 && m[|m| - 1].start == t
    requires forall j :: 0 <= j < |m| - 1 ==> m[j].start != t
    ensures FindStart(m, t) == Some(|m| - 1)
    ensures CountStart(m, t) == 1
  {
    var init := m[..|m| - 1];
    assert m == init + [m[|m| - 1]];
    CountStartZero(init, t);
    CountStartAppend(init, m[|m| - 1], t);
  }

  /** A live candle with a start the history does not hold is appended as its newest entry. */
  lemma LiveOnNewStartIsNewest(s: Series, live: Candle)
    requires |s.candles| <= MaxCandles
    requires forall j :: 0 <= j < |s.candles| ==> s.candles[j].start != live.start
    ensures var m := ApplyLive(s, live).candles;
            && 0 < |m| <= MaxCandles && m[|m| - 1] == live
            && FindStart(m, live.start) == Some(|m| - 1)
            && CountStart(m, live.start) == 1
  {
    var m := ApplyLive(s, live).candles;
    var t := s.candles + [live];
    assert m == TakeLast(t, MaxCandles);
    var d := |t| - |m|;
    assert m[|m| - 1] == t[|t| - 1] == live;
    forall j | 0 <= j < |m| - 1
      ensures m[j].start != live.start
    {
      assert m[j] == s.candles[d + j];
    }
    OnlyNewestHasStart(m, live.start);
  }

  /**
   * A live candle followed by its confirmation, for a start the history
   * did not hold yet: the confirmed candle ends up as the newest entry,
   * exactly once, and no live candle remains.
   */
  lemma LiveThenConfirmEndsWithConfirmed(s: Series, live: Candle, conf: Candle)
    requires live.start == conf.start
    requires |s.candles| <= MaxCandles
    requires forall j :: 0 <= j < |s.candles| ==> s.candles[j].start != live.start
    ensures var r := ApplyConfirmed(ApplyLive(s, live), conf);
            && r.current.None?
            && |r.candles| > 0 && r.candles[|r.candles| - 1] == conf
            && CountStart(r.candles, conf.start) == 1
  {
    var m := ApplyLive(s, live);
    LiveOnNewStartIsNewest(s, live);
    PromotionLeavesOneEntry(m, conf);
    var n := |m.candles|;
    assert ApplyConfirmed(m, conf).candles == m.candles[n - 1 := conf];
  }
}

=== FILE: liquidation.dfy ===
/**
 * The liquidation store (src/liquidation-manager.js): per symbol, the
 * newest 100 liquidations in arrival order, with the query that returns
 * the most recent ones newest first and the statistics over a time window.
 */
module Liquidation {
  import opened Wrappers
  import opened Js
  import opened Strings
  import opened Lists
  import opened Sorting

  /**
   * One element of a liquidation message's `data` array. Price, volume and
   * timestamp arrive already parsed; `S` and `side` are the two field
   * names the side may come under.
   */
  datatype RawLiquidation = RawLiquidation(price: real, volume: real,
                                           s: Option<string>, side: Option<string>,
                                           timestamp: Option<int>)

  datatype LiqSide = Long | Short

  datatype Liq = Liq(symbol: string, side: LiqSide, price: real, volume: real, value: real, timestamp: int)

  datatype Message = Message(topic: string, data: Option<seq<RawLiquidation>>)

  datatype Dominance = LongDominant | ShortDominant | NoDominance

  datatype Stats = Stats(symbol: string, windowSeconds: real,
                         totalCount: nat, longCount: nat, shortCount: nat,
                         totalVolume: real, longVolume: real, shortVolume: real,
                         totalValue: real, longValue: real, shortValue: real,
                         averagePrice: real, maxLiquidation: Option<Liq>,
                         dominantSide: Dominance)

  datatype SizeClass = Small | Medium | Large | Huge

  type Store = map<string, seq<Liq>>

  const TopicPrefix: string := "allLiquidation."
  const MaxLiquidations: nat := 100

  /** Every history holds at most 100 liquidations. */
  ghost predicate Bounded(store: Store) {
    forall k :: k in store ==> |store[k]| <= MaxLiquidations
  }

  /** `S || side`: the first truthy one of the two side fields. */
  function SideField(raw: RawLiquidation): Option<string> {
    if raw.s.Some? && raw.s.value != "" then raw.s else raw.side
  }

  /**
   * `formatLiquidationData`: a buy-side liquidation closes a long, any other
   * side (including a missing one) a short; the value is price times volume.
   */
  function Format(symbol: string, raw: RawLiquidation, now: int): (l: Liq)
    ensures l.side == Long <==> SideField(raw) == Some("Buy")
    ensures l.value == l.price * l.volume
    ensures l.symbol == symbol && l.price == raw.price && l.volume == raw.volume
    ensures l.timestamp == OrInt(raw.timestamp, now)
  {
    Liq(symbol, if SideField(raw) == Some("Buy") then Long else Short,
        raw.price, raw.volume, raw.price * raw.volume, OrInt(raw.timestamp, now))
  }

  /** `handleLiquidation`: appended as the newest entry, the oldest dropped beyond 100. */
  function HandleLiquidation(store: Store, symbol: string, raw: RawLiquidation, now: int): (r: Store)
    ensures symbol in r
    ensures forall k :: k != symbol ==> (k in r <==> k in store) && (k in store ==> r[k] == store[k])
    ensures |r[symbol]| <= MaxLiquidations
    ensures r[symbol] == TakeLast((if symbol in store then store[symbol] else []) + [Format(symbol, raw, now)], MaxLiquidations)
  {
    var prev := if symbol in store then store[symbol] else [];
    store[symbol := TakeLast(prev + [Format(symbol, raw, now)], MaxLiquidations)]
  }

  /** The data elements in order, one `handleLiquidation` each; returns the liquidations emitted. */
  function HandleAll(store: Store, symbol: string, data: seq<RawLiquidation>, now: int): (r: (Store, seq<Liq>))
    ensures |r.1| == |data|
    ensures forall i :: 0 <= i < |data| ==> r.1[i] == Format(symbol, data[i], now)
    ensures forall k :: k != symbol ==> (k in r.0 <==> k in store) && (k in store ==> r.0[k] == store[k])
    ensures |data| > 0 ==> symbol in r.0 && |r.0[symbol]| <= MaxLiquidations
    ensures |data| == 0 ==> r.0 == store
    decreases |data|
  {
    if |data| == 0 then (store, [])
    else
      var next := HandleLiquidation(store, symbol, data[0], now);
      var (s, emitted) := HandleAll(next, symbol, data[1..], now);
      (s, [Format(symbol, data[0], now)] + emitted)
  }

  /** The formatted liquidations of a batch, in order. */
  function FormatAll(symbol: string, data: seq<RawLiquidation>, now: int): (r: seq<Liq>)
    ensures |r| == |data|
    ensures forall i :: 0 <= i < |data| ==> r[i] == Format(symbol, data[i], now)
  {
    if |data| == 0 then [] else [Format(symbol, data[0], now)] + FormatAll(symbol, data[1..], now)
  }

  /**
   * `processMessage`: only `allLiquidation.<symbol>` topics with a
   * non-empty symbol and an array `data` are handled, every element in order.
   */
  function ProcessMessage(store: Store, msg: Message, now: int): (r: (Store, seq<Liq>))
    ensures !StartsWith(msg.topic, TopicPrefix) ==> r == (store, [])
    ensures StartsWith(msg.topic, TopicPrefix) ==> |Split(msg.topic, '.')| >= 2
    ensures StartsWith(msg.topic, TopicPrefix) && Split(msg.topic, '.')[1] == "" ==> r == (store, [])
    ensures msg.data.None? ==> r == (store, [])
    ensures StartsWith(msg.topic, TopicPrefix) && Split(msg.topic, '.')[1] != "" && msg.data.Some? ==>
              r == HandleAll(store, Split(msg.topic, '.')[1], msg.data.value, now)
  {
    if !StartsWith(msg.topic, TopicPrefix) then (store, [])
    else
      var parts := TopicParts(msg.topic);
      var symbol := parts[1];
      if symbol == "" || msg.data.None? then (store, [])
      else HandleAll(store, symbol, msg.data.value, now)
  }

  /** A topic with the `allLiquidation.` prefix always has a second part. */
  function TopicParts(topic: string): (parts: seq<string>)
    requires StartsWith(topic, TopicPrefix)
    ensures parts == Split(topic, '.') && |parts| >= 2
  {
    var rest := topic[|TopicPrefix|..];
    assert topic == "allLiquidation" + ['.'] + rest;
    SplitCons("allLiquidation", '.', rest);
    Split(topic, '.')
  }

  /** Trimming after every append is the same as trimming once at the end. */
  lemma TakeLastAppend<T>(s: seq<T>, x: T, n: nat)
    ensures TakeLast(TakeLast(s, n) + [x], n) == TakeLast(s + [x], n)
  {
    var t := TakeLast(s, n);
    var a := TakeLast(t + [x], n);
    var b := TakeLast(s + [x], n);
    assert |a| == |b|;
    forall i | 0 <= i < |a|
      ensures a[i] == b[i]
    {
      if i == |a| - 1 {
        assert a[i] == x && b[i] == x;
      } else {
        assert a[i] == (t + [x])[|t| + 1 - |a| + i];
        assert b[i] == (s + [x])[|s| + 1 - |b| + i];
      }
    }
  }

  /**
   * A batch of liquidations leaves the symbol's history as the newest 100
   * of the old history followed by the whole batch: per-element trimming
   * loses nothing a single trim at the end would keep.
   */
  lemma {:induction false} HandleAllIsOneBatch(store: Store, symbol: string, data: seq<RawLiquidation>, now: int)
    requires |data| > 0
    ensures HandleAll(store, symbol, data, now).0[symbol] ==
            TakeLast((if symbol in store then store[symbol] else []) + FormatAll(symbol, data, now), MaxLiquidations)
    decreases |data|
  {
    if |data| == 1 {
      SingleIsOneBatch(store, symbol, data, now);
    } else {
      var next := HandleLiquidation(store, symbol, data[0], now);
      HandleAllIsOneBatch(next, symbol, data[1..], now);
      BatchStep(store, symbol, data, now);
    }
  }

  /** A batch of one is a single `handleLiquidation`. */
  lemma SingleIsOneBatch(store: Store, symbol: string, data: seq<RawLiquidation>, now: int)
    requires |data| == 1
    ensures HandleAll(store, symbol, data, now).0[symbol] ==
            TakeLast((if symbol in store then store[symbol] else []) + FormatAll(symbol, data, now), MaxLiquidations)
  {
    HandleAllStep(store, symbol, data, now);
    assert FormatAll(symbol, data, now) == [Format(symbol, data[0], now)];
  }

  /** If the rest of a batch is one trim, the whole batch is. */
  lemma BatchStep(store: Store, symbol: string, data: seq<RawLiquidation>, now: int)
    requires |data| > 1
    requires var next := HandleLiquidation(store, symbol, data[0], now);
             HandleAll(next, symbol, data[1..], now).0[symbol] ==
             TakeLast(next[symbol] + FormatAll(symbol, data[1..], now), MaxLiquidations)
    ensures HandleAll(store, symbol, data, now).0[symbol] ==
            TakeLast((if symbol in store then store[symbol] else []) + FormatAll(symbol, data, now), MaxLiquidations)
  {
    var prev := if symbol in store then store[symbol] else [];
    var f := Format(symbol, data[0], now);
    var rest := FormatAll(symbol, data[1..], now);
    HandleAllStep(store, symbol, data, now);
    assert FormatAll(symbol, data, now) == [f] + rest;
    TrimThenAppend(prev, f, rest, MaxLiquidations);
  }

  /** Trimming after the first element and again after the rest is one trim of the whole. */
  lemma TrimThenAppend<T>(prev: seq<T>, x: T, rest: seq<T>, n: nat)
    ensures TakeLast(TakeLast(prev + [x], n) + rest, n) == TakeLast(prev + ([x] + rest), n)
  {
    TakeLastConcat(prev + [x], rest, n);
    assert prev + ([x] + rest) == prev + [x] + rest;
  }

  /** The first element of a batch is handled before the rest. */
  lemma HandleAllStep(store: Store, symbol: string, data: seq<RawLiquidation>, now: int)
    requires |data| > 0
    ensures HandleAll(store, symbol, data, now).0 ==
            HandleAll(HandleLiquidation(store, symbol, data[0], now), symbol, data[1..], now).0
  {
  }

  /** Trimming before appending a block is the same as trimming after it. */
  lemma {:induction false} TakeLastConcat<T>(s: seq<T>, xs: seq<T>, n: nat)
    ensures TakeLast(TakeLast(s, n) + xs, n) == TakeLast(s + xs, n)
    decreases |xs|
  {
    if |xs| > 0 {
      var init := xs[..|xs| - 1];
      var x := xs[|xs| - 1];
      assert xs == init + [x];
      TakeLastConcat(s, init, n);
      assert TakeLast(s, n) + xs == (TakeLast(s, n) + init) + [x];
      assert s + xs == (s + init) + [x];
      TakeLastAppend(TakeLast(s, n) + init, x, n);
      TakeLastAppend(s + init, x, n);
    } else {
      assert TakeLast(s, n) + xs == TakeLast(s, n);
      assert s + xs == s;
    }
  }

  /** The newest first: the sort key is the negated timestamp. */
  function NewestFirst(l: Liq): real {
    -(l.timestamp as real)
  }

  /**
   * `getLiquidations(symbol, limit)`: the last `limit` stored entries,
   * sorted by timestamp, newest first (stable, so equal timestamps keep
   * arrival order); nothing for an unknown symbol.
   */
  function GetLiquidations(store: Store, symbol: string, limit: int): (r: seq<Liq>)
    ensures symbol !in store ==> r == []
    ensures symbol in store ==> multiset(r) == multiset(SliceFrom(store[symbol], -limit))
    ensures limit > 0 ==> |r| <= limit
    ensures forall i, j :: 0 <= i < j < |r| ==> r[i].timestamp >= r[j].timestamp
  {
    if symbol !in store then []
    else
      var recent := SliceFrom(store[symbol], -limit);
      var r := SortBy(recent, NewestFirst);
      assert forall i, j :: 0 <= i < j < |r| ==> NewestFirst(r[i]) <= NewestFirst(r[j]);
      r
  }

  /** A limit of `limit > 0` gives exactly the newest `limit` entries, as a set of values. */
  lemma GetLiquidationsAreNewest(store: Store, symbol: string, limit: int)
    requires symbol in store && limit > 0
    ensures multiset(GetLiquidations(store, symbol, limit)) == multiset(TakeLast(store[symbol], limit))
  {
    SliceLastLimit(store[symbol], limit);
  }

  function SumVolume(s: seq<Liq>): real {
    if |s| == 0 then 0.0 else s[0].volume + SumVolume(s[1..])
  }

  function SumValue(s: seq<Liq>): real {
    if |s| == 0 then 0.0 else s[0].value + SumValue(s[1..])
  }

  /**
   * The index `reduce((max, l) => l.value > max.value ? l : max)` ends on:
   * the first entry of maximal value.
   */
  function FirstMaxIndex(s: seq<Liq>): (i: nat)
    requires |s| > 0
    ensures i < |s|
    ensures forall j :: 0 <= j < |s| ==> s[j].value <= s[i].value
    ensures forall j :: 0 <= j < i ==> s[j].value < s[i].value
  {
    if |s| == 1 then 0
    else
      var m := FirstMaxIndex(s[..|s| - 1]);
      assert forall j :: 0 <= j < |s| - 1 ==> s[..|s| - 1][j] == s[j];
      if s[|s| - 1].value > s[m].value then |s| - 1 else m
  }

  /** `dominantSide`: a side dominates when its value exceeds 1.2 times the other's. */
  function Dominant(longValue: real, shortValue: real): (d: Dominance)
    ensures d == LongDominant <==> longValue > shortValue * 1.2
    ensures d == ShortDominant <==> !(longValue > shortValue * 1.2) && shortValue > longValue * 1.2
  {
    if longValue > shortValue * 1.2 then LongDominant
    else if shortValue > longValue * 1.2 then ShortDominant
    else NoDominance
  }

  function IsLong(l: Liq): bool { l.side == Long }

  function IsShort(l: Liq): bool { l.side == Short }

  /** The liquidations at or after `now - window`, in stored order. */
  function Recent(store: Store, symbol: string, window: int, now: int): (r: seq<Liq>)
    ensures forall l :: l in r <==> symbol in store && l in store[symbol] && l.timestamp >= now - window
  {
    var all := if symbol in store then store[symbol] else [];
    Filter(all, (l: Liq) => l.timestamp >= now - window)
  }

  /**
   * `getLiquidationStats(symbol, window)` at time `now`. Only entries with
   * a timestamp at or after `now - window` count; with none, every figure
   * is zero and no side dominates.
   */
  function GetStats(store: Store, symbol: string, window: int, now: int): (r: Stats)
    ensures r.totalCount == |Recent(store, symbol, window, now)|
    ensures r.totalCount == 0 ==>
              && r.longCount == 0 && r.shortCount == 0
              && r.totalVolume == 0.0 && r.totalValue == 0.0 && r.averagePrice == 0.0
              && r.maxLiquidation.None? && r.dominantSide == NoDominance
    ensures r.totalCount > 0 ==>
              && r.maxLiquidation.Some?
              && r.maxLiquidation.value in Recent(store, symbol, window, now)
              && (forall l :: l in Recent(store, symbol, window, now) ==> l.value <= r.maxLiquidation.value.value)
              && r.dominantSide == Dominant(r.longValue, r.shortValue)
              && r.averagePrice == (if r.totalVolume > 0.0 then r.totalValue / r.totalVolume else 0.0)
    ensures r.windowSeconds == window as real / 1000.0
    ensures var recent := Recent(store, symbol, window, now);
            && r.longCount == |Filter(recent, IsLong)| && r.shortCount == |Filter(recent, IsShort)|
            && r.totalVolume == SumVolume(recent) && r.totalValue == SumValue(recent)
            && r.longVolume == SumVolume(Filter(recent, IsLong)) && r.shortVolume == SumVolume(Filter(recent, IsShort))
            && r.longValue == SumValue(Filter(recent, IsLong)) && r.shortValue == SumValue(Filter(recent, IsShort))
    ensures r.totalCount > 0 ==>
              var recent := Recent(store, symbol, window, now);
              r.maxLiquidation == Some(recent[FirstMaxIndex(recent)])
  {
    var recent := Recent(store, symbol, window, now);
    if |recent| == 0 then
      Stats(symbol, window as real / 1000.0, 0, 0, 0, 0.0, 0.0, 0.0, 0.0, 0.0, 0.0, 0.0, None, NoDominance)
    else
      var longs := Filter(recent, IsLong);
      var shorts := Filter(recent, IsShort);
      var totalVolume := SumVolume(recent);
      var totalValue := SumValue(recent);
      var longValue := SumValue(longs);
      var shortValue := SumValue(shorts);
      var m := FirstMaxIndex(recent);
      Stats(symbol, window as real / 1000.0,
            |recent|, |longs|, |shorts|,
            totalVolume, SumVolume(longs), SumVolume(shorts),
            totalValue, longValue, shortValue,
            if totalVolume > 0.0 then totalValue / totalVolume else 0.0,
            Some(recent[m]), Dominant(longValue, shortValue))
  }

  /** Every liquidation is a long or a short: the side filters split the window. */
  lemma {:induction false} SidesPartition(s: seq<Liq>)
    ensures |Filter(s, IsLong)| + |Filter(s, IsShort)| == |s|
    ensures SumVolume(Filter(s, IsLong)) + SumVolume(Filter(s, IsShort)) == SumVolume(s)
    ensures SumValue(Filter(s, IsLong)) + SumValue(Filter(s, IsShort)) == SumValue(s)
  {
    if |s| > 0 {
      SidesPartition(s[1..]);
      if IsLong(s[0]) {
        assert Filter(s, IsLong) == [s[0]] + Filter(s[1..], IsLong);
        assert ([s[0]] + Filter(s[1..], IsLong))[1..] == Filter(s[1..], IsLong);
        assert Filter(s, IsShort) == Filter(s[1..], IsShort);
      } else {
        assert Filter(s, IsShort) == [s[0]] + Filter(s[1..], IsShort);
        assert ([s[0]] + Filter(s[1..], IsShort))[1..] == Filter(s[1..], IsShort);
        assert Filter(s, IsLong) == Filter(s[1..], IsLong);
      }
    }
  }

  /** In the statistics, longs and shorts add up to the totals. */
  lemma StatsAddUp(store: Store, symbol: string, window: int, now: int)
    ensures var r := GetStats(store, symbol, window, now);
            && r.longCount + r.shortCount == r.totalCount
            && r.longVolume + r.shortVolume == r.totalVolume
            && r.longValue + r.shortValue == r.totalValue
  {
    SidesPartition(Recent(store, symbol, window, now));
  }

  /** `getSizeClass`: the thresholds are 10 000, 100 000 and 1 000 000. */
  function GetSizeClass(value: real): (c: SizeClass)
    ensures c == Huge <==> value >= 1000000.0
    ensures c == Large <==> 100000.0 <= value < 1000000.0
    ensures c == Medium <==> 10000.0 <= value < 100000.0
    ensures c == Small <==> value < 10000.0
  {
    if value >= 1000000.0 then Huge
    else if value >= 100000.0 then Large
    else if value >= 10000.0 then Medium
    else Small
  }

  /** `clear(symbol)` forgets one symbol; `clear()` (or an empty symbol, which is falsy) forgets all. */
  function Clear(store: Store, symbol: string): (r: Store)
    ensures symbol != "" ==> r == store - {symbol}
    ensures symbol == "" ==> r == map[]
    ensures Bounded(store) ==> Bounded(r)
  {
    if symbol != "" then store - {symbol} else map[]
  }

  /** Handling any message keeps every history within 100 entries. */
  lemma ProcessMessageBounded(store: Store, msg: Message, now: int)
    requires Bounded(store)
    ensures Bounded(ProcessMessage(store, msg, now).0)
  {
    var r := ProcessMessage(store, msg, now).0;
    forall k | k in r
      ensures |r[k]| <= MaxLiquidations
    {
      if k !in store || r[k] != store[k] {
        assert StartsWith(msg.topic, TopicPrefix) && msg.data.Some? && |msg.data.value| > 0;
      }
    }
  }
}

=== FILE: lists.dfy ===
/**
 * Sequences used as sets and filtered lists: a JavaScript `Set` keeps its
 * elements in insertion order, so the model keeps them as a duplicate-free
 * sequence; `Array.prototype.filter` with an inequality test is `Remove`.
 */
module Lists {

  /** No element occurs twice. */
  ghost predicate NoDup<T>(s: seq<T>) {
    forall i, j :: 0 <= i < j < |s| ==> s[i] != s[j]
  }

  /** `s.filter(y => y !== x)`: every occurrence of `x` goes, the rest keep their order. */
  function Remove<T(==,!new)>(s: seq<T>, x: T): (r: seq<T>)
    ensures x !in r
    ensures forall y :: y in r <==> y in s && y != x
    ensures |r| <= |s|
    ensures x !in s ==> r == s
  {
    if |s| == 0 then []
    else if s[0] == x then Remove(s[1..], x)
    else
      assert s == [s[0]] + s[1..];
      [s[0]] + Remove(s[1..], x)
  }

  /** `t` is `s` with some elements left out, the rest in their original order. */
  ghost predicate IsSubsequence<T>(t: seq<T>, s: seq<T>)
    decreases |s|
  {
    if |t| == 0 then true
    else if |s| == 0 then false
    else (t[0] == s[0] && IsSubsequence(t[1..], s[1..])) || IsSubsequence(t, s[1..])
  }

  /** `s.filter(keep)`. */
  function Filter<T(!new)>(s: seq<T>, keep: T -> bool): (r: seq<T>)
    ensures forall y :: y in r <==> y in s && keep(y)
    ensures |r| <= |s|
  {
    if |s| == 0 then []
    else
      assert s == [s[0]] + s[1..];
      if keep(s[0]) then [s[0]] + Filter(s[1..], keep) else Filter(s[1..], keep)
  }

  /** Filtering keeps the surviving elements in their original order. */
  lemma {:induction false} FilterIsSubsequence<T(!new)>(s: seq<T>, keep: T -> bool)
    ensures IsSubsequence(Filter(s, keep), s)
  {
    if |s| > 0 {
      FilterIsSubsequence(s[1..], keep);
      var t := Filter(s[1..], keep);
      if keep(s[0]) {
        assert ([s[0]] + t)[1..] == t;
      } else {
        assert Filter(s, keep) == t;
      }
    }
  }

  /** Filtering keeps every surviving element as often as it occurs, and drops the rest entirely. */
  lemma {:induction false} FilterMultiset<T(!new)>(s: seq<T>, keep: T -> bool, y: T)
    ensures multiset(Filter(s, keep))[y] == if keep(y) then multiset(s)[y] else 0
  {
    if |s| > 0 {
      FilterMultiset(s[1..], keep, y);
      assert s == [s[0]] + s[1..];
      assert multiset(s) == multiset([s[0]]) + multiset(s[1..]);
      if keep(s[0]) {
        assert multiset(Filter(s, keep)) == multiset([s[0]]) + multiset(Filter(s[1..], keep));
      }
    }
  }

  /** Removing keeps the other elements in their original order. */
  lemma {:induction false} RemoveIsSubsequence<T(!new)>(s: seq<T>, x: T)
    ensures IsSubsequence(Remove(s, x), s)
  {
    if |s| > 0 {
      RemoveIsSubsequence(s[1..], x);
      var t := Remove(s[1..], x);
      if s[0] != x {
        assert ([s[0]] + t)[1..] == t;
      }
    }
  }

  /** Removing from a duplicate-free sequence leaves it duplicate-free. */
  lemma {:induction false} RemoveNoDup<T(!new)>(s: seq<T>, x: T)
    requires NoDup(s)
    ensures NoDup(Remove(s, x))
  {
    if |s| > 0 {
      assert NoDup(s[1..]) by {
        forall i, j | 0 <= i < j < |s[1..]|
          ensures s[1..][i] != s[1..][j]
        {
          assert s[1..][i] == s[i + 1] && s[1..][j] == s[j + 1];
        }
      }
      RemoveNoDup(s[1..], x);
      var t := Remove(s[1..], x);
      if s[0] != x {
        var r := [s[0]] + t;
        assert s[0] !in s[1..] by {
          forall j | 0 <= j < |s[1..]|
            ensures s[1..][j] != s[0]
          {
            assert s[1..][j] == s[j + 1];
          }
        }
        forall i, j | 0 <= i < j < |r|
          ensures r[i] != r[j]
        {
          if i == 0 {
            assert r[j] == t[j - 1];
          } else {
            assert r[i] == t[i - 1] && r[j] == t[j - 1];
          }
        }
      }
    }
  }

  /** Appending an absent element keeps a sequence duplicate-free. */
  lemma AppendNoDup<T>(s: seq<T>, x: T)
    requires NoDup(s) && x !in s
    ensures NoDup(s + [x])
  {
    var r := s + [x];
    forall i, j | 0 <= i < j < |r|
      ensures r[i] != r[j]
    {
      if j == |s| {
        assert r[i] == s[i];
      }
    }
  }
}

=== FILE: orderbook.dfy ===
/**
 * The order-book store (src/orderbook-manager.js): one book per symbol,
 * replaced wholesale by a snapshot and patched level by level by a delta,
 * read back as a sorted, depth-limited view with running totals and the
 * spread.
 *
 * Levels are keyed by the raw price string exactly as it arrived on the
 * wire; the string is turned into a number only when the book is queried,
 * by the `parse` function the caller supplies.
 */
module OrderBook {
  import opened Wrappers
  import opened Js
  import opened Strings
  import OM = OrderedMap
  import Sorting

  type PriceKey = string

  /** One side of a book: price string to size, in insertion order. */
  type Side = OM.OMap<PriceKey, real>

  /** A `[price, size]` pair from the wire, size already parsed. */
  datatype RawLevel = RawLevel(price: PriceKey, size: real)

  /** The `data` object of a book message; absent fields are `None`. */
  datatype BookData = BookData(ts: Option<int>, seqNo: Option<int>,
                               b: Option<seq<RawLevel>>, a: Option<seq<RawLevel>>)

  /** A message from the stream; a missing `topic` is the empty string. */
  datatype Message = Message(topic: string, kind: string, data: Option<BookData>)

  datatype Book = Book(bids: Side, asks: Side, timestamp: int, sequence: int)

  type Store = map<string, Book>

  const TopicPrefix: string := "orderbook."

  ghost predicate BookWf(b: Book) {
    OM.Wf(b.bids) && OM.Wf(b.asks)
  }

  ghost predicate StoreWf(store: Store) {
    forall s :: s in store ==> BookWf(store[s])
  }

  /** Every stored level has a strictly positive size. */
  ghost predicate Positive(side: Side) {
    forall e :: e in side ==> e.value > 0.0
  }

  /** The third dot-separated part of the topic, if there is one. */
  function TopicSymbol(topic: string): Option<string> {
    var parts := Split(topic, '.');
    if |parts| >= 3 then Some(parts[2]) else None
  }

  /** The messages the store acts on, and the symbol each is for. */
  ghost predicate Routed(msg: Message, symbol: string) {
    && StartsWith(msg.topic, TopicPrefix)
    && TopicSymbol(msg.topic) == Some(symbol)
    && symbol != ""
    && (msg.kind == "snapshot" || msg.kind == "delta")
  }

  // ---------------------------------------------------------------------
  // Snapshot

  /** The size of the last positively sized level at price `k`, if any. */
  function LastPositive(levels: seq<RawLevel>, k: PriceKey): Option<real> {
    if |levels| == 0 then None
    else
      var l := levels[|levels| - 1];
      if l.price == k && l.size > 0.0 then Some(l.size) else LastPositive(levels[..|levels| - 1], k)
  }

  /**
   * `LastPositive` finds nothing exactly when no level at `k` is positive,
   * and otherwise the size of a positive level at `k` after which no
   * positive level at `k` follows.
   */
  lemma {:induction false} LastPositiveSpec(levels: seq<RawLevel>, k: PriceKey)
    ensures LastPositive(levels, k).None? <==>
              forall i :: 0 <= i < |levels| && levels[i].price == k ==> levels[i].size <= 0.0
    ensures LastPositive(levels, k).Some? ==>
              exists i :: && 0 <= i < |levels| && levels[i] == RawLevel(k, LastPositive(levels, k).value)
                          && levels[i].size > 0.0
                          && forall j :: i < j < |levels| && levels[j].price == k ==> levels[j].size <= 0.0
    decreases |levels|
  {
    if |levels| > 0 {
      var n := |levels| - 1;
      var prev := levels[..n];
      LastPositiveSpec(prev, k);
      assert forall i :: 0 <= i < n ==> prev[i] == levels[i];
      if levels[n].price == k && levels[n].size > 0.0 {
        assert levels[n] == RawLevel(k, LastPositive(levels, k).value);
      } else if LastPositive(prev, k).Some? {
        var i :| && 0 <= i < n && prev[i] == RawLevel(k, LastPositive(prev, k).value)
                 && prev[i].size > 0.0
                 && forall j :: i < j < n && prev[j].price == k ==> prev[j].size <= 0.0;
        assert levels[i] == prev[i];
      }
    }
  }

  /**
   * One side of a snapshot: every level with a positive size is stored,
   * a later level for the same price overwrites an earlier one, and the
   * others are dropped.
   */
  function SnapshotSide(levels: seq<RawLevel>): (r: Side)
    ensures OM.Wf(r)
    ensures Positive(r)
    ensures forall k :: OM.Get(r, k) == LastPositive(levels, k)
    decreases |levels|
  {
    if |levels| == 0 then []
    else
      var prev := SnapshotSide(levels[..|levels| - 1]);
      var l := levels[|levels| - 1];
      if l.size > 0.0 then OM.Set(prev, l.price, l.size) else prev
  }

  /**
   * `handleSnapshot`. A snapshot whose `data`, `b` or `a` is missing throws
   * before the store is touched; the error is swallowed by the stream's
   * receive handler, so the store is unchanged.
   */
  function HandleSnapshot(store: Store, symbol: string, data: Option<BookData>, now: int): (r: Store)
    ensures data.None? || data.value.b.None? || data.value.a.None? ==> r == store
    ensures data.Some? && data.value.b.Some? && data.value.a.Some? ==>
              && symbol in r
              && r == store[symbol := r[symbol]]
              && Positive(r[symbol].bids) && Positive(r[symbol].asks)
              && (forall k :: OM.Get(r[symbol].bids, k) == LastPositive(data.value.b.value, k))
              && (forall k :: OM.Get(r[symbol].asks, k) == LastPositive(data.value.a.value, k))
              && r[symbol].sequence == OrInt(data.value.seqNo, 0)
              && r[symbol].timestamp == OrInt(data.value.ts, now)
    ensures StoreWf(store) ==> StoreWf(r)
  {
    match data
    case None => store
    case Some(d) =>
      if d.b.None? || d.a.None? then store
      else
        store[symbol := Book(SnapshotSide(d.b.value), SnapshotSide(d.a.value),
                             OrInt(d.ts, now), OrInt(d.seqNo, 0))]
  }

  // ---------------------------------------------------------------------
  // Delta

  /** The last level in `levels` at price `k`, if any. */
  function LastLevel(levels: seq<RawLevel>, k: PriceKey): Option<RawLevel> {
    if |levels| == 0 then None
    else
      var l := levels[|levels| - 1];
      if l.price == k then Some(l) else LastLevel(levels[..|levels| - 1], k)
  }

  /**
   * `LastLevel` finds nothing exactly when no level is at `k`, and
   * otherwise a level at `k` after which no level at `k` follows.
   */
  lemma {:induction false} LastLevelSpec(levels: seq<RawLevel>, k: PriceKey)
    ensures LastLevel(levels, k).None? <==> forall i :: 0 <= i < |levels| ==> levels[i].price != k
    ensures LastLevel(levels, k).Some? ==>
              exists i :: && 0 <= i < |levels| && levels[i] == LastLevel(levels, k).value
                          && levels[i].price == k
                          && forall j :: i < j < |levels| ==> levels[j].price != k
    decreases |levels|
  {
    if |levels| > 0 {
      var n := |levels| - 1;
      var prev := levels[..n];
      LastLevelSpec(prev, k);
      assert forall i :: 0 <= i < n ==> prev[i] == levels[i];
      if levels[n].price != k && LastLevel(prev, k).Some? {
        var i :| && 0 <= i < n && prev[i] == LastLevel(prev, k).value
                 && prev[i].price == k
                 && forall j :: i < j < n ==> prev[j].price != k;
        assert levels[i] == prev[i];
      }
    }
  }

  /** One delta level: size 0 deletes the price, any other size (even a negative one) is stored. */
  function ApplyLevel(side: Side, l: RawLevel): Side {
    if l.size == 0.0 then OM.Delete(side, l.price) else OM.Set(side, l.price, l.size)
  }

  /**
   * The levels of one side of a delta, in order. For each price the last
   * level mentioning it decides; prices the delta does not mention keep
   * their sizes.
   */
  function ApplyDelta(side: Side, levels: seq<RawLevel>): (r: Side)
    ensures OM.Wf(side) ==> OM.Wf(r)
    ensures forall k :: OM.Get(r, k) == match LastLevel(levels, k)
                                         case None => OM.Get(side, k)
                                         case Some(l) => if l.size == 0.0 then None else Some(l.size)
    ensures Positive(side) && (forall i :: 0 <= i < |levels| ==> levels[i].size >= 0.0) ==> Positive(r)
    decreases |levels|
  {
    if |levels| == 0 then side
    else
      var prev := levels[..|levels| - 1];
      var r := ApplyLevel(ApplyDelta(side, prev), levels[|levels| - 1]);
      assert forall i :: 0 <= i < |prev| ==> prev[i] == levels[i];
      r
  }

  /**
   * `handleDelta`. A delta for a symbol without a book is ignored. Otherwise
   * the timestamp and sequence are refreshed and both sides patched; the
   * sequence is the delta's `seq` when that is present and non-zero, and
   * the previous sequence plus one otherwise.
   */
  function HandleDelta(store: Store, symbol: string, data: Option<BookData>, now: int): (r: Store)
    ensures symbol !in store || data.None? ==> r == store
    ensures symbol in store && data.Some? ==>
              var d := data.value;
              var old_ := store[symbol];
              && symbol in r
              && r == store[symbol := r[symbol]]
              && r[symbol].sequence == (if d.seqNo.Some? && d.seqNo.value != 0 then d.seqNo.value else old_.sequence + 1)
              && r[symbol].timestamp == OrInt(d.ts, now)
              && r[symbol].bids == ApplyDelta(old_.bids, d.b.GetOr([]))
              && r[symbol].asks == ApplyDelta(old_.asks, d.a.GetOr([]))
    ensures StoreWf(store) ==> StoreWf(r)
  {
    if symbol !in store then store
    else
      match data
      case None => store
      case Some(d) =>
        var book := store[symbol];
        store[symbol := Book(ApplyDelta(book.bids, d.b.GetOr([])),
                             ApplyDelta(book.asks, d.a.GetOr([])),
                             OrInt(d.ts, now), OrInt(d.seqNo, book.sequence + 1))]
  }

  // ---------------------------------------------------------------------
  // Routing and clearing

  /**
   * `processMessage`: only `orderbook.` topics with at least three
   * dot-separated parts and a non-empty third part are acted on, and only
   * for the `snapshot` and `delta` message types. At most the book of the
   * topic's symbol changes.
   */
  function ProcessMessage(store: Store, msg: Message, now: int): (r: Store)
    ensures r != store ==> exists s :: Routed(msg, s) && s in r && r == store[s := r[s]]
    ensures forall s :: Routed(msg, s) && msg.kind == "snapshot" ==> r == HandleSnapshot(store, s, msg.data, now)
    ensures forall s :: Routed(msg, s) && msg.kind == "delta" ==> r == HandleDelta(store, s, msg.data, now)
    ensures StoreWf(store) ==> StoreWf(r)
  {
    if !StartsWith(msg.topic, TopicPrefix) then store
    else
      match TopicSymbol(msg.topic)
      case None => store
      case Some(symbol) =>
        if symbol == "" then store
        else if msg.kind == "snapshot" then HandleSnapshot(store, symbol, msg.data, now)
        else if msg.kind == "delta" then HandleDelta(store, symbol, msg.data, now)
        else store
  }

  /** `clear(symbol)`: a non-empty symbol drops that book only; no symbol drops every book. */
  function Clear(store: Store, symbol: string): (r: Store)
    ensures symbol != "" ==> r.Keys == store.Keys - {symbol} && forall s :: s in r ==> r[s] == store[s]
    ensures symbol == "" ==> r == map[]
  {
    if symbol != "" then store - {symbol} else map[]
  }

  // ---------------------------------------------------------------------
  // Query

  datatype Point = Point(price: real, size: real)

  datatype ViewLevel = ViewLevel(price: real, size: real, total: real)

  datatype View = View(bids: seq<ViewLevel>, asks: seq<ViewLevel>,
                       spread: real, spreadPercent: real,
                       bidCount: nat, askCount: nat,
                       timestamp: int, sequence: int)

  /** The side's entries with their price strings parsed, in insertion order. */
  function Points(side: Side, parse: PriceKey -> real): (r: seq<Point>)
    ensures |r| == |side|
    ensures forall i :: 0 <= i < |r| ==> r[i] == Point(parse(side[i].key), side[i].value)
  {
    seq(|side|, i requires 0 <= i < |side| => Point(parse(side[i].key), side[i].value))
  }

  function BidKey(p: Point): real { -p.price }

  function AskKey(p: Point): real { p.price }

  function Prices(levels: seq<ViewLevel>): seq<Point> {
    seq(|levels|, i requires 0 <= i < |levels| => Point(levels[i].price, levels[i].size))
  }

  /** The side's levels sorted best first (bids by price descending, asks ascending), cut to `depth`. */
  function Ranked(side: Side, parse: PriceKey -> real, bids: bool, depth: nat): (r: seq<Point>)
    ensures |r| == Min(depth, |side|)
  {
    var ps := Points(side, parse);
    var sorted := if bids then Sorting.SortBy(ps, BidKey) else Sorting.SortBy(ps, AskKey);
    sorted[..Min(depth, |sorted|)]
  }

  /** The ranked levels are in order best first: bids by price descending, asks ascending. */
  lemma RankedOrdered(side: Side, parse: PriceKey -> real, bids: bool, depth: nat)
    ensures var r := Ranked(side, parse, bids, depth);
            && (bids ==> forall i, j :: 0 <= i < j < |r| ==> r[i].price >= r[j].price)
            && (!bids ==> forall i, j :: 0 <= i < j < |r| ==> r[i].price <= r[j].price)
  {
    var ps := Points(side, parse);
    var r := Ranked(side, parse, bids, depth);
    if bids {
      CutKeepsOrder(Sorting.SortBy(ps, BidKey), BidKey, |r|);
    } else {
      CutKeepsOrder(Sorting.SortBy(ps, AskKey), AskKey, |r|);
    }
  }

  /**
   * The ranked levels are drawn from the side's own levels, and every level
   * the depth cut leaves out is no better than the last one kept.
   */
  lemma RankedIsBest(side: Side, parse: PriceKey -> real, bids: bool, depth: nat)
    ensures var r := Ranked(side, parse, bids, depth);
            && multiset(r) <= multiset(Points(side, parse))
            && (|r| > 0 ==> forall p :: p in multiset(Points(side, parse)) - multiset(r) ==>
                  if bids then p.price <= r[|r| - 1].price else p.price >= r[|r| - 1].price)
  {
    var ps := Points(side, parse);
    var r := Ranked(side, parse, bids, depth);
    if bids {
      var sorted := Sorting.SortBy(ps, BidKey);
      CutKeepsOrder(sorted, BidKey, |r|);
      if |r| > 0 {
        Sorting.PrefixIsSmallest(sorted, BidKey, |r|);
      }
    } else {
      var sorted := Sorting.SortBy(ps, AskKey);
      CutKeepsOrder(sorted, AskKey, |r|);
      if |r| > 0 {
        Sorting.PrefixIsSmallest(sorted, AskKey, |r|);
      }
    }
  }

  lemma CutKeepsOrder(sorted: seq<Point>, key: Point -> real, k: nat)
    requires Sorting.SortedBy(sorted, key) && k <= |sorted|
    ensures forall i, j :: 0 <= i < j < k ==> key(sorted[..k][i]) <= key(sorted[..k][j])
    ensures multiset(sorted[..k]) <= multiset(sorted)
  {
    assert sorted == sorted[..k] + sorted[k..];
  }

  function SumSizes(ps: seq<Point>): real {
    if |ps| == 0 then 0.0 else ps[0].size + SumSizes(ps[1..])
  }

  /** Annotates each level with the running total of the sizes up to and including it. */
  function Cumulate(ps: seq<Point>, acc: real): (r: seq<ViewLevel>)
    ensures |r| == |ps|
    ensures Prices(r) == ps
    ensures |r| > 0 ==> r[0].total == acc + ps[0].size
    ensures forall i :: 0 < i < |r| ==> r[i].total == r[i - 1].total + r[i].size
    ensures forall i :: 0 <= i < |r| ==> r[i].total == acc + SumSizes(ps[..i + 1])
    decreases |ps|
  {
    if |ps| == 0 then []
    else
      var t := Cumulate(ps[1..], acc + ps[0].size);
      var r := [ViewLevel(ps[0].price, ps[0].size, acc + ps[0].size)] + t;
      assert forall i :: 0 < i < |r| ==> ps[..i + 1][1..] == ps[1..][..i];
      assert Prices(r) == [ps[0]] + Prices(t);
      assert ps == [ps[0]] + ps[1..];
      r
  }

  /**
   * `getFormattedOrderbook(symbol, depth)`: `None` for an unknown symbol.
   * Otherwise both sides ranked and cut to `depth`, each level carrying
   * its running total, the sizes of the uncut sides, and the spread
   * `bestAsk - bestBid` (0 unless both sides are non-empty) with its
   * percentage of the best bid (0 unless the spread is positive).
   */
  function Query(store: Store, symbol: string, depth: nat, parse: PriceKey -> real): (r: Option<View>)
    ensures r.None? <==> symbol !in store
    ensures r.Some? ==>
              var book := store[symbol];
              var v := r.value;
              && Prices(v.bids) == Ranked(book.bids, parse, true, depth)
              && Prices(v.asks) == Ranked(book.asks, parse, false, depth)
              && v.bidCount == |book.bids| && v.askCount == |book.asks|
              && v.timestamp == book.timestamp && v.sequence == book.sequence
    ensures r.Some? ==>
              var v := r.value;
              && (|v.bids| > 0 && |v.asks| > 0 ==> v.spread == v.asks[0].price - v.bids[0].price)
              && (|v.bids| == 0 || |v.asks| == 0 ==> v.spread == 0.0)
              && (v.spreadPercent != 0.0 ==> v.spread > 0.0)
              && (v.spread > 0.0 && v.bids[0].price != 0.0 ==>
                    v.spreadPercent == v.spread / v.bids[0].price * 100.0)
    ensures r.Some? ==>
              var v := r.value;
              && (|v.bids| > 0 ==> v.bids[0].total == v.bids[0].size)
              && (forall i :: 0 < i < |v.bids| ==> v.bids[i].total == v.bids[i - 1].total + v.bids[i].size)
              && (|v.asks| > 0 ==> v.asks[0].total == v.asks[0].size)
              && (forall i :: 0 < i < |v.asks| ==> v.asks[i].total == v.asks[i - 1].total + v.asks[i].size)
  {
    if symbol !in store then None
    else
      var book := store[symbol];
      var bids := Cumulate(Ranked(book.bids, parse, true, depth), 0.0);
      var asks := Cumulate(Ranked(book.asks, parse, false, depth), 0.0);
      var spread := if |asks| > 0 && |bids| > 0 then asks[0].price - bids[0].price else 0.0;
      var spreadPercent := if |bids| > 0 && spread > 0.0 && bids[0].price != 0.0
                           then spread / bids[0].price * 100.0 else 0.0;
      Some(View(bids, asks, spread, spreadPercent, |book.bids|, |book.asks|, book.timestamp, book.sequence))
  }

  /** In a well-formed store the reported counts are the numbers of distinct prices on each side. */
  lemma QueryCountsDistinctPrices(store: Store, symbol: string, depth: nat, parse: PriceKey -> real)
    requires StoreWf(store) && symbol in store
    ensures Query(store, symbol, depth, parse).value.bidCount == |OM.KeySet(store[symbol].bids)|
    ensures Query(store, symbol, depth, parse).value.askCount == |OM.KeySet(store[symbol].asks)|
  {
    OM.SizeIsKeyCount(store[symbol].bids);
    OM.SizeIsKeyCount(store[symbol].asks);
  }

  /** Running totals over positive sizes strictly increase from the best level outwards. */
  lemma {:induction false} TotalsIncrease(levels: seq<ViewLevel>)
    requires forall i :: 0 <= i < |levels| ==> levels[i].size > 0.0
    requires forall i :: 0 < i < |levels| ==> levels[i].total == levels[i - 1].total + levels[i].size
    ensures forall i, j :: 0 <= i < j < |levels| ==> levels[i].total < levels[j].total
    decreases |levels|
  {
    if |levels| > 1 {
      var n := |levels| - 1;
      TotalsIncrease(levels[..n]);
      assert forall i, j :: 0 <= i < j < n ==> levels[..n][i] == levels[i] && levels[..n][j] == levels[j];
      assert forall i :: 0 <= i < n ==> levels[i].total <= levels[n - 1].total;
    }
  }

  /** Every level the query reports is one of the side's stored sizes. */
  lemma RankedSizesStored(side: Side, parse: PriceKey -> real, bids: bool, depth: nat)
    ensures forall p :: p in Ranked(side, parse, bids, depth) ==> exists e :: e in side && e.value == p.size
  {
    RankedIsBest(side, parse, bids, depth);
    var r := Ranked(side, parse, bids, depth);
    var ps := Points(side, parse);
    forall p | p in r ensures exists e :: e in side && e.value == p.size {
      assert p in multiset(r);
      assert p in multiset(ps);
      var i :| 0 <= i < |ps| && ps[i] == p;
      assert side[i] in side;
    }
  }

  /**
   * For a book with only positive sizes (every book right after a
   * snapshot), the running totals of both sides of the query strictly
   * increase from the best level outwards.
   */
  lemma QueryTotalsIncrease(store: Store, symbol: string, depth: nat, parse: PriceKey -> real)
    requires symbol in store
    requires Positive(store[symbol].bids) && Positive(store[symbol].asks)
    ensures var v := Query(store, symbol, depth, parse).value;
            && (forall i, j :: 0 <= i < j < |v.bids| ==> v.bids[i].total < v.bids[j].total)
            && (forall i, j :: 0 <= i < j < |v.asks| ==> v.asks[i].total < v.asks[j].total)
  {
    var book := store[symbol];
    var v := Query(store, symbol, depth, parse).value;
    RankedSizesPositive(book.bids, parse, true, depth, v.bids);
    RankedSizesPositive(book.asks, parse, false, depth, v.asks);
    TotalsIncrease(v.bids);
    TotalsIncrease(v.asks);
  }

  /** The levels shown for a side whose sizes are all positive have positive sizes. */
  lemma RankedSizesPositive(side: Side, parse: PriceKey -> real, bids: bool, depth: nat, levels: seq<ViewLevel>)
    requires Positive(side) && Prices(levels) == Ranked(side, parse, bids, depth)
    ensures forall i :: 0 <= i < |levels| ==> levels[i].size > 0.0
  {
    RankedSizesStored(side, parse, bids, depth);
    forall i | 0 <= i < |levels| ensures levels[i].size > 0.0 {
      assert Prices(levels)[i] in Ranked(side, parse, bids, depth);
    }
  }

  // ---------------------------------------------------------------------
  // Properties of the store

  /**
   * A snapshot replaces the book wholesale: every level stored afterwards
   * was sent in the snapshot with a positive size, whatever the book held
   * before.
   */
  lemma SnapshotKeepsOnlyResentLevels(store: Store, symbol: string, d: BookData, now: int, k: PriceKey)
    requires d.b.Some? && d.a.Some?
    ensures var book := HandleSnapshot(store, symbol, Some(d), now)[symbol];
            && (OM.Get(book.bids, k).Some? <==>
                  exists i :: 0 <= i < |d.b.value| && d.b.value[i].price == k && d.b.value[i].size > 0.0)
            && (OM.Get(book.asks, k).Some? <==>
                  exists i :: 0 <= i < |d.a.value| && d.a.value[i].price == k && d.a.value[i].size > 0.0)
  {
    LastPositiveSpec(d.b.value, k);
    LastPositiveSpec(d.a.value, k);
  }

  /** Prices a delta does not mention keep their stored size (or stay absent). */
  lemma DeltaLeavesOtherPrices(side: Side, levels: seq<RawLevel>, k: PriceKey)
    requires forall i :: 0 <= i < |levels| ==> levels[i].price != k
    ensures OM.Get(ApplyDelta(side, levels), k) == OM.Get(side, k)
  {
    LastLevelSpec(levels, k);
  }

  /**
   * For a price the delta mentions, its last level decides: size 0 removes
   * the price, any other size becomes the stored size.
   */
  lemma DeltaLastLevelDecides(side: Side, levels: seq<RawLevel>, i: nat)
    requires i < |levels|
    requires forall j :: i < j < |levels| ==> levels[j].price != levels[i].price
    ensures levels[i].size == 0.0 ==> OM.Get(ApplyDelta(side, levels), levels[i].price).None?
    ensures levels[i].size != 0.0 ==> OM.Get(ApplyDelta(side, levels), levels[i].price) == Some(levels[i].size)
  {
    var k := levels[i].price;
    LastLevelSpec(levels, k);
    var l := LastLevel(levels, k).value;
    var i' :| 0 <= i' < |levels| && levels[i'] == l && l.price == k
              && forall j :: i' < j < |levels| ==> levels[j].price != k;
    assert i' == i;
  }

  /** Deleting prices that are not in the book changes nothing, however many such deletes arrive. */
  lemma {:induction false} DeletingAbsentPricesIsNoop(side: Side, levels: seq<RawLevel>)
    requires forall i :: 0 <= i < |levels| ==> levels[i].size == 0.0 && OM.Get(side, levels[i].price).None?
    ensures ApplyDelta(side, levels) == side
    decreases |levels|
  {
    if |levels| > 0 {
      var prev := levels[..|levels| - 1];
      assert forall i :: 0 <= i < |prev| ==> prev[i] == levels[i];
      DeletingAbsentPricesIsNoop(side, prev);
    }
  }

  /**
   * Positive sizes are guaranteed after a snapshot only: a delta stores any
   * non-zero size, so a negative size from the wire ends up in the book.
   */
  lemma DeltaStoresNegativeSize(side: Side, k: PriceKey, size: real)
    requires size < 0.0
    ensures OM.Get(ApplyDelta(side, [RawLevel(k, size)]), k) == Some(size)
    ensures !Positive(ApplyDelta(side, [RawLevel(k, size)]))
  {
    var levels := [RawLevel(k, size)];
    assert levels[..0] == [];
    var r := ApplyDelta(side, levels);
    assert LastLevel(levels, k) == Some(RawLevel(k, size));
    assert OM.Get(r, k) == Some(size);
    assert OM.Entry(k, size) in r;
  }

  /** The symbol part of the topic `orderbook.<depth>.<symbol>` routes to that symbol. */
  lemma TopicRoutesSymbol(depth: string, symbol: string)
    requires '.' !in depth && '.' !in symbol
    ensures TopicSymbol("orderbook" + "." + depth + "." + symbol) == Some(symbol)
    ensures StartsWith("orderbook" + "." + depth + "." + symbol, TopicPrefix)
  {
    SplitThree("orderbook", depth, symbol, '.');
    assert "orderbook" + "." + depth + "." + symbol == "orderbook" + ['.'] + depth + ['.'] + symbol;
  }

  /**
   * The worked example: a snapshot with one bid at 100 and one ask at 101,
   * then a delta that sets the bid at 100 to size 0, leaves no bids and
   * the single ask.
   */
  lemma SnapshotThenDeleteExample(now: int)
    ensures var topic := "orderbook.50.BTCUSDT";
            var s1 := ProcessMessage(map[], Message(topic, "snapshot",
                        Some(BookData(None, None, Some([RawLevel("100", 1.0)]), Some([RawLevel("101", 1.0)])))), now);
            var s2 := ProcessMessage(s1, Message(topic, "delta",
                        Some(BookData(None, None, Some([RawLevel("100", 0.0)]), None))), now);
            && "BTCUSDT" in s2
            && s2["BTCUSDT"].bids == []
            && s2["BTCUSDT"].asks == [OM.Entry("101", 1.0)]
  {
    var topic := "orderbook.50.BTCUSDT";
    var snap := Message(topic, "snapshot", Some(BookData(None, None, Some([RawLevel("100", 1.0)]), Some([RawLevel("101", 1.0)]))));
    var delta := Message(topic, "delta", Some(BookData(None, None, Some([RawLevel("100", 0.0)]), None)));
    ExampleTopicRoutes(snap);
    ExampleTopicRoutes(delta);
    var s1 := HandleSnapshot(map[], "BTCUSDT", snap.data, now);
    assert s1["BTCUSDT"].bids == [OM.Entry("100", 1.0)] by {
      var one := [RawLevel("100", 1.0)];
      assert one[..0] == [];
    }
    assert s1["BTCUSDT"].asks == [OM.Entry("101", 1.0)] by {
      var ask := [RawLevel("101", 1.0)];
      assert ask[..0] == [];
    }
    var del := [RawLevel("100", 0.0)];
    assert ApplyDelta([OM.Entry("100", 1.0)], del) == [] by {
      assert del[..0] == [];
    }
    assert ApplyDelta([OM.Entry("101", 1.0)], []) == [OM.Entry("101", 1.0)];
  }

  /** The example's topic is routed to BTCUSDT. */
  lemma ExampleTopicRoutes(msg: Message)
    requires msg.topic == "orderbook.50.BTCUSDT" && (msg.kind == "snapshot" || msg.kind == "delta")
    ensures Routed(msg, "BTCUSDT")
  {
    TopicRoutesSymbol("50", "BTCUSDT");
    assert "orderbook" + "." + "50" + "." + "BTCUSDT" == "orderbook.50.BTCUSDT";
  }
}

=== FILE: ordered_map.dfy ===
/**
 * JavaScript's `Map`: a finite map that remembers insertion order.
 * `set` on a present key overwrites the value in place, `set` on a new key
 * appends, and `delete` removes the entry. Iteration (`entries()`) follows
 * the sequence order, which is why the model keeps the entries as a list
 * and reads it through `Get` as an ordinary partial map.
 */
module OrderedMap {
  import opened Wrappers

  datatype Entry<K, V> = Entry(key: K, value: V)

  type OMap<K, V> = seq<Entry<K, V>>

  /** No key occurs twice. */
  ghost predicate Wf<K, V>(m: OMap<K, V>) {
    forall i, j :: 0 <= i < j < |m| ==> m[i].key != m[j].key
  }

  ghost function KeySet<K, V>(m: OMap<K, V>): set<K> {
    if |m| == 0 then {} else {m[0].key} + KeySet(m[1..])
  }

  lemma {:induction false} InKeySet<K, V>(m: OMap<K, V>, k: K)
    ensures k in KeySet(m) <==> exists i :: 0 <= i < |m| && m[i].key == k
  {
    if |m| > 0 {
      InKeySet(m[1..], k);
      if k in KeySet(m[1..]) {
        var i :| 0 <= i < |m[1..]| && m[1..][i].key == k;
        assert m[i + 1].key == k;
      }
      if exists i :: 0 <= i < |m| && m[i].key == k {
        var i :| 0 <= i < |m| && m[i].key == k;
        if i > 0 {
          assert m[1..][i - 1].key == k;
        }
      }
    }
  }

  /** A well-formed map is its head entry plus a tail not mentioning the head's key. */
  lemma WfCons<K, V>(m: OMap<K, V>)
    requires |m| > 0
    ensures Wf(m) <==> Wf(m[1..]) && m[0].key !in KeySet(m[1..])
  {
    InKeySet(m[1..], m[0].key);
    if Wf(m[1..]) && m[0].key !in KeySet(m[1..]) {
      forall i, j | 0 <= i < j < |m| ensures m[i].key != m[j].key {
        if i > 0 {
          assert m[1..][i - 1] == m[i] && m[1..][j - 1] == m[j];
        } else {
          assert m[1..][j - 1] == m[j];
        }
      }
    }
  }

  /** `m.get(k)`: the value of the first entry with key `k`. */
  function Get<K(==,!new), V>(m: OMap<K, V>, k: K): (r: Option<V>)
    ensures r.Some? <==> k in KeySet(m)
    ensures r.Some? ==> Entry(k, r.value) in m
  {
    if |m| == 0 then None
    else if m[0].key == k then Some(m[0].value) else Get(m[1..], k)
  }

  /** `m.set(k, v)`. */
  function Set<K(==,!new), V>(m: OMap<K, V>, k: K, v: V): (r: OMap<K, V>)
    ensures forall k' :: Get(r, k') == if k' == k then Some(v) else Get(m, k')
    ensures KeySet(r) == KeySet(m) + {k}
    ensures Wf(m) ==> Wf(r)
    ensures k in KeySet(m) ==> |r| == |m| && forall i :: 0 <= i < |m| ==> r[i].key == m[i].key
    ensures k !in KeySet(m) ==> r == m + [Entry(k, v)]
    ensures forall e :: e in r ==> e == Entry(k, v) || e in m
  {
    if |m| == 0 then [Entry(k, v)]
    else if m[0].key == k then
      var r := [Entry(k, v)] + m[1..];
      assert r[1..] == m[1..];
      assert Wf(m) ==> Wf(r) by {
        if Wf(m) {
          WfCons(m);
          WfCons(r);
        }
      }
      r
    else
      var t := Set(m[1..], k, v);
      var r := [m[0]] + t;
      assert r[1..] == t;
      assert Wf(m) ==> Wf(r) by {
        if Wf(m) {
          WfCons(m);
          WfCons(r);
        }
      }
      assert m == [m[0]] + m[1..];
      r
  }

  /** `m.delete(k)`: removes the entries with key `k` and keeps the others in order. */
  function Delete<K(==,!new), V>(m: OMap<K, V>, k: K): (r: OMap<K, V>)
    ensures forall k' :: Get(r, k') == if k' == k then None else Get(m, k')
    ensures KeySet(r) == KeySet(m) - {k}
    ensures Wf(m) ==> Wf(r)
    ensures k !in KeySet(m) ==> r == m
    ensures forall e :: e in r ==> e in m
  {
    if |m| == 0 then []
    else
      var t := Delete(m[1..], k);
      assert m == [m[0]] + m[1..];
      if m[0].key == k then
        assert Wf(m) ==> Wf(t) by {
          if Wf(m) {
            WfCons(m);
          }
        }
        t
      else
        var r := [m[0]] + t;
        assert r[1..] == t;
        assert Wf(m) ==> Wf(r) by {
          if Wf(m) {
            WfCons(m);
            WfCons(r);
          }
        }
        r
  }

  /** In a well-formed map, every entry is what `Get` reports for its key. */
  lemma {:induction false} GetEntry<K(!new), V>(m: OMap<K, V>, i: nat)
    requires Wf(m) && i < |m|
    ensures Get(m, m[i].key) == Some(m[i].value)
  {
    if i > 0 {
      WfCons(m);
      GetEntry(m[1..], i - 1);
    }
  }

  /** `m.size`: for a well-formed map, the number of distinct keys. */
  lemma {:induction false} SizeIsKeyCount<K, V>(m: OMap<K, V>)
    requires Wf(m)
    ensures |KeySet(m)| == |m|
  {
    if |m| > 0 {
      WfCons(m);
      SizeIsKeyCount(m[1..]);
    }
  }
}

=== FILE: sorting.dfy ===
/**
 * `Array.prototype.sort` with a numeric comparator, as the stores use it:
 * a stable sort by a real-valued key. Descending orders sort by the
 * negated key.
 */
module Sorting {

  ghost predicate SortedBy<T>(s: seq<T>, key: T -> real) {
    forall i, j :: 0 <= i < j < |s| ==> key(s[i]) <= key(s[j])
  }

  /**
   * Inserts `x` in front of the first element whose key is not smaller.
   * `x` goes before elements with an equal key, which is what makes
   * `SortBy` stable.
   */
  function Insert<T>(x: T, s: seq<T>, key: T -> real): (r: seq<T>)
    requires SortedBy(s, key)
    ensures SortedBy(r, key)
    ensures multiset(r) == multiset(s) + multiset{x}
    ensures forall y :: y in r ==> y == x || y in s
    ensures |r| == |s| + 1
  {
    if |s| == 0 || key(x) <= key(s[0]) then [x] + s
    else
      var t := Insert(x, s[1..], key);
      assert s == [s[0]] + s[1..];
      assert forall y :: y in t ==> key(s[0]) <= key(y);
      [s[0]] + t
  }

  /** Sorts `s` ascending by `key`; elements with equal keys keep their relative order. */
  function SortBy<T>(s: seq<T>, key: T -> real): (r: seq<T>)
    ensures SortedBy(r, key)
    ensures multiset(r) == multiset(s)
    ensures |r| == |s|
  {
    if |s| == 0 then []
    else
      assert s == [s[0]] + s[1..];
      Insert(s[0], SortBy(s[1..], key), key)
  }

  /**
   * The first `k` elements of a sorted sequence are its `k` smallest: every
   * element left out has a key no smaller than the last one kept.
   */
  lemma PrefixIsSmallest<T>(s: seq<T>, key: T -> real, k: nat)
    requires SortedBy(s, key)
    requires 0 < k <= |s|
    ensures multiset(s[..k]) <= multiset(s)
    ensures forall y :: y in multiset(s) - multiset(s[..k]) ==> key(s[k - 1]) <= key(y)
  {
    assert s == s[..k] + s[k..];
    assert multiset(s) == multiset(s[..k]) + multiset(s[k..]);
    assert multiset(s) - multiset(s[..k]) == multiset(s[k..]);
    forall y | y in multiset(s[k..])
      ensures key(s[k - 1]) <= key(y)
    {
      var j :| 0 <= j < |s[k..]| && s[k..][j] == y;
      assert s[k + j] == y;
    }
  }
}

=== FILE: strings.dfy ===
/**
 * Topic strings: prefix tests and `String.prototype.split` on a single
 * separator character, with its inverse `Join`.
 */
module Strings {

  predicate StartsWith(s: string, prefix: string) {
    |prefix| <= |s| && s[..|prefix|] == prefix
  }

  /**
   * `s.split(sep)`: the maximal separator-free pieces of `s`, in order.
   * Adjacent separators produce empty pieces, and the empty string splits
   * into one empty piece.
   */
  function Split(s: string, sep: char): (parts: seq<string>)
    ensures |parts| >= 1
    ensures forall i :: 0 <= i < |parts| ==> sep !in parts[i]
    decreases |s|
  {
    if |s| == 0 then [""]
    else
      var rest := Split(s[1..], sep);
      if s[0] == sep then [""] + rest
      else [[s[0]] + rest[0]] + rest[1..]
  }

  /** `parts.join(sep)`. */
  function Join(parts: seq<string>, sep: char): string
    requires |parts| >= 1
    decreases |parts|
  {
    if |parts| == 1 then parts[0] else parts[0] + [sep] + Join(parts[1..], sep)
  }

  /** Joining the pieces back together gives the original string. */
  lemma {:induction false} JoinSplit(s: string, sep: char)
    ensures Join(Split(s, sep), sep) == s
    decreases |s|
  {
    if |s| > 0 {
      var rest := Split(s[1..], sep);
      JoinSplit(s[1..], sep);
      if s[0] == sep {
        assert Split(s, sep) == [""] + rest;
        assert ([""] + rest)[1..] == rest;
      } else {
        var parts := Split(s, sep);
        assert parts == [[s[0]] + rest[0]] + rest[1..];
        if |rest| == 1 {
          assert Join(parts, sep) == [s[0]] + rest[0];
        } else {
          assert parts[1..] == rest[1..];
          assert Join(rest, sep) == rest[0] + [sep] + Join(rest[1..], sep);
          assert Join(parts, sep) == [s[0]] + Join(rest, sep);
        }
        assert s == [s[0]] + s[1..];
      }
    }
  }

  /** A separator-free string is a single piece. */
  lemma {:induction false} SplitNoSep(s: string, sep: char)
    requires sep !in s
    ensures Split(s, sep) == [s]
    decreases |s|
  {
    if |s| > 0 {
      SplitNoSep(s[1..], sep);
      assert s == [s[0]] + s[1..];
    }
  }

  /** A separator-free head followed by a separator splits off as one piece. */
  lemma {:induction false} SplitCons(head: string, sep: char, tail: string)
    requires sep !in head
    ensures Split(head + [sep] + tail, sep) == [head] + Split(tail, sep)
    decreases |head|
  {
    var s := head + [sep] + tail;
    if |head| == 0 {
      assert s == [sep] + tail;
      assert s[1..] == tail;
    } else {
      assert s[1..] == head[1..] + [sep] + tail;
      SplitCons(head[1..], sep, tail);
      assert [head[0]] + head[1..] == head;
    }
  }

  /** Splitting the joined pieces gives the pieces back, when none contains the separator. */
  lemma {:induction false} SplitJoin(parts: seq<string>, sep: char)
    requires |parts| >= 1
    requires forall i :: 0 <= i < |parts| ==> sep !in parts[i]
    ensures Split(Join(parts, sep), sep) == parts
    decreases |parts|
  {
    if |parts| == 1 {
      SplitNoSep(parts[0], sep);
    } else {
      SplitJoin(parts[1..], sep);
      SplitCons(parts[0], sep, Join(parts[1..], sep));
      assert parts == [parts[0]] + parts[1..];
    }
  }

  /** A topic built from separator-free parts splits back into exactly those parts. */
  lemma SplitThree(a: string, b: string, c: string, sep: char)
    requires sep !in a && sep !in b && sep !in c
    ensures Split(a + [sep] + b + [sep] + c, sep) == [a, b, c]
  {
    var parts := [a, b, c];
    SplitJoin(parts, sep);
    assert Join(parts[2..], sep) == c;
    assert Join(parts[1..], sep) == b + [sep] + c;
    assert a + [sep] + b + [sep] + c == a + [sep] + (b + [sep] + c);
  }

  /** The two-part variant, for topics of the form `category.symbol`. */
  lemma SplitTwo(a: string, b: string, sep: char)
    requires sep !in a && sep !in b
    ensures Split(a + [sep] + b, sep) == [a, b]
  {
    SplitJoin([a, b], sep);
    assert Join([a, b][1..], sep) == b;
  }
}

=== FILE: ticker.dfy ===
/**
 * The ticker store (src/ticker-manager.js): per symbol, nine market
 * figures kept as the strings the exchange sends, merged field by field.
 */
module Ticker {
  import opened Wrappers
  import opened Js
  import opened Strings

  datatype Field =
    | Price24hPcnt | OpenInterestValue | Volume24h | FundingRate | LastPrice
    | PrevPrice24h | HighPrice24h | LowPrice24h | Turnover24h

  const AllFields: set<Field> := {Price24hPcnt, OpenInterestValue, Volume24h, FundingRate, LastPrice,
                                  PrevPrice24h, HighPrice24h, LowPrice24h, Turnover24h}

  /** The nine fields are all there are. */
  lemma AllFieldsComplete()
    ensures forall f: Field :: f in AllFields
  {
    forall f: Field
      ensures f in AllFields
    {
      match f
      case Price24hPcnt =>
      case OpenInterestValue =>
      case Volume24h =>
      case FundingRate =>
      case LastPrice =>
      case PrevPrice24h =>
      case HighPrice24h =>
      case LowPrice24h =>
      case Turnover24h =>
    }
  }

  /** The `data` of a ticker message: the fields it carries, and `ts` if present. */
  datatype TickerData = TickerData(values: map<Field, string>, ts: Option<int>)

  datatype Ticker = Ticker(symbol: string, values: map<Field, string>, timestamp: int)

  datatype Message = Message(topic: string, kind: string, data: Option<TickerData>)

  /**
   * What `processMessage` does: nothing, a stored and emitted ticker, or a
   * TypeError escaping to the caller when a snapshot or delta has no `data`.
   */
  datatype Outcome = Ignored | Updated(store: Store, ticker: Ticker) | TypeError

  type Store = map<string, Ticker>

  const TopicPrefix: string := "tickers."
  const Zero: string := "0"

  /** Every field is present. */
  ghost predicate Complete(t: Ticker) {
    forall f :: f in t.values
  }

  /** `data.f`, absent when the message does not carry it. */
  function FieldOf(d: TickerData, f: Field): Option<string> {
    if f in d.values then Some(d.values[f]) else None
  }

  /** The all-`'0'` ticker `handleDelta` and `getTicker` fall back to. */
  function Default(symbol: string, now: int): (t: Ticker)
    ensures Complete(t) && t.symbol == symbol && t.timestamp == now
    ensures forall f :: t.values[f] == Zero
  {
    AllFieldsComplete();
    Ticker(symbol, map f | f in AllFields :: Zero, now)
  }

  /** `handleSnapshot`: every field from the data, or `'0'` when it is missing or empty. */
  function Snapshot(symbol: string, d: TickerData, now: int): (t: Ticker)
    ensures Complete(t) && t.symbol == symbol
    ensures forall f :: t.values[f] == OrStr(FieldOf(d, f), Zero)
    ensures t.timestamp == OrInt(d.ts, now)
  {
    AllFieldsComplete();
    Ticker(symbol, map f | f in AllFields :: OrStr(FieldOf(d, f), Zero), OrInt(d.ts, now))
  }

  /** `handleDelta` on an existing ticker: a truthy new value wins, otherwise the old one stays. */
  function Merge(existing: Ticker, d: TickerData, now: int): (t: Ticker)
    requires Complete(existing)
    ensures Complete(t) && t.symbol == existing.symbol
    ensures forall f :: t.values[f] == OrStr(FieldOf(d, f), existing.values[f])
    ensures t.timestamp == OrInt(d.ts, now)
  {
    AllFieldsComplete();
    Ticker(existing.symbol, map f | f in AllFields :: OrStr(FieldOf(d, f), existing.values[f]), OrInt(d.ts, now))
  }

  /** Every stored ticker has all nine fields and carries the symbol it is stored under. */
  ghost predicate StoreWf(store: Store) {
    forall k :: k in store ==> Complete(store[k]) && store[k].symbol == k
  }

  /** `handleDelta`: the merge is against the stored ticker, or the all-`'0'` default when there is none. */
  function HandleDelta(store: Store, symbol: string, d: TickerData, now: int): (r: (Store, Ticker))
    requires StoreWf(store)
    ensures r.0 == store[symbol := r.1]
    ensures StoreWf(r.0) && Complete(r.1) && r.1.symbol == symbol
    ensures symbol !in store ==> forall f :: r.1.values[f] == OrStr(FieldOf(d, f), Zero)
    ensures symbol in store ==> forall f :: r.1.values[f] == OrStr(FieldOf(d, f), store[symbol].values[f])
  {
    var existing := if symbol in store then store[symbol] else Default(symbol, now);
    var t := Merge(existing, d, now);
    (store[symbol := t], t)
  }

  /** `handleSnapshot`: the stored ticker is replaced by the snapshot. */
  function HandleSnapshot(store: Store, symbol: string, d: TickerData, now: int): (r: (Store, Ticker))
    requires StoreWf(store)
    ensures r.0 == store[symbol := r.1]
    ensures StoreWf(r.0) && Complete(r.1) && r.1.symbol == symbol
    ensures forall f :: r.1.values[f] == OrStr(FieldOf(d, f), Zero)
  {
    var t := Snapshot(symbol, d, now);
    (store[symbol := t], t)
  }

  /**
   * `processMessage`: `tickers.<symbol>` topics with a non-empty symbol and
   * a `snapshot` or `delta` type are handled; the rest are ignored.
   */
  function ProcessMessage(store: Store, msg: Message, now: int): (r: Outcome)
    requires StoreWf(store)
    ensures !StartsWith(msg.topic, TopicPrefix) ==> r == Ignored
    ensures msg.kind != "snapshot" && msg.kind != "delta" ==> r == Ignored
    ensures r.Updated? ==> StoreWf(r.store) && Complete(r.ticker) && r.store == store[r.ticker.symbol := r.ticker]
    ensures r.Updated? ==> StartsWith(msg.topic, TopicPrefix) && msg.data.Some?
    ensures r.TypeError? <==>
              && StartsWith(msg.topic, TopicPrefix) && |Split(msg.topic, '.')| >= 2 && Split(msg.topic, '.')[1] != ""
              && (msg.kind == "snapshot" || msg.kind == "delta") && msg.data.None?
    ensures r.Updated? ==> |Split(msg.topic, '.')| >= 2 && r.ticker.symbol == Split(msg.topic, '.')[1] != ""
    ensures r.Updated? <==>
              && StartsWith(msg.topic, TopicPrefix) && |Split(msg.topic, '.')| >= 2 && Split(msg.topic, '.')[1] != ""
              && (msg.kind == "snapshot" || msg.kind == "delta") && msg.data.Some?
    ensures r.Updated? && msg.kind == "snapshot" ==>
              (r.store, r.ticker) == HandleSnapshot(store, Split(msg.topic, '.')[1], msg.data.value, now)
    ensures r.Updated? && msg.kind == "delta" ==>
              (r.store, r.ticker) == HandleDelta(store, Split(msg.topic, '.')[1], msg.data.value, now)
    ensures r.Updated? && msg.kind == "snapshot" ==>
              forall f :: r.ticker.values[f] == OrStr(FieldOf(msg.data.value, f), Zero)
    ensures r.Updated? && msg.kind == "delta" && r.ticker.symbol in store ==>
              forall f :: r.ticker.values[f] == OrStr(FieldOf(msg.data.value, f), store[r.ticker.symbol].values[f])
  {
    if !StartsWith(msg.topic, TopicPrefix) then Ignored
    else
      var parts := Split(msg.topic, '.');
      var symbol := if |parts| >= 2 then parts[1] else "";
      if symbol == "" then Ignored
      else if msg.kind != "snapshot" && msg.kind != "delta" then Ignored
      else if msg.data.None? then TypeError
      else if msg.kind == "snapshot" then
        var (s, t) := HandleSnapshot(store, symbol, msg.data.value, now);
        Updated(s, t)
      else
        var (s, t) := HandleDelta(store, symbol, msg.data.value, now);
        Updated(s, t)
  }

  /** `getTicker`: the stored ticker, or the all-`'0'` default. */
  function GetTicker(store: Store, symbol: string, now: int): (t: Ticker)
    ensures symbol in store ==> t == store[symbol]
    ensures symbol !in store ==> t.symbol == symbol && forall f :: f in t.values && t.values[f] == Zero
  {
    if symbol in store then store[symbol] else Default(symbol, now)
  }

  /** `clear(symbol)` forgets one symbol; `clear()` (or an empty symbol, which is falsy) forgets all. */
  function Clear(store: Store, symbol: string): (r: Store)
    ensures symbol != "" ==> r == store - {symbol}
    ensures symbol == "" ==> r == map[]
  {
    if symbol != "" then store - {symbol} else map[]
  }

  /** Applying the same delta twice gives the same fields as applying it once. */
  lemma MergeIdempotent(t: Ticker, d: TickerData, now: int, later: int)
    requires Complete(t)
    ensures Merge(Merge(t, d, now), d, later).values == Merge(t, d, now).values
  {
    var once := Merge(t, d, now);
    var twice := Merge(once, d, later);
    forall f | true
      ensures twice.values[f] == once.values[f]
    {
    }
    assert twice.values.Keys == once.values.Keys by {
      forall f | true
        ensures f in twice.values && f in once.values
      {
      }
    }
  }

  /** A delta that carries every field non-empty overwrites the ticker completely, just as a snapshot does. */
  lemma FullDeltaIsSnapshot(t: Ticker, d: TickerData, now: int)
    requires Complete(t)
    requires forall f :: f in d.values && d.values[f] != ""
    ensures Merge(t, d, now).values == Snapshot(t.symbol, d, now).values
  {
    var a := Merge(t, d, now).values;
    var b := Snapshot(t.symbol, d, now).values;
    forall f | true
      ensures f in a && f in b && a[f] == b[f]
    {
    }
    assert a.Keys == b.Keys;
  }

  /** Fields a delta does not carry (or carries empty) keep their stored value. */
  lemma DeltaKeepsUnsentFields(store: Store, symbol: string, d: TickerData, now: int, f: Field)
    requires StoreWf(store) && symbol in store
    requires f !in d.values || d.values[f] == ""
    ensures HandleDelta(store, symbol, d, now).1.values[f] == store[symbol].values[f]
  {
  }
}

=== FILE: wrappers.dfy ===
/** Optional values: the model's stand-in for JavaScript's `null` / `undefined`. */
module Wrappers {

  datatype Option<+T> = None | Some(value: T) {

    /** The wrapped value, or `default` when there is none. */
    function GetOr(default: T): T {
      match this
      case Some(v) => v
      case None => default
    }
  }
}
